=== FILE: README.md ===
# A verified model of a React calendar's core

This project models, in Dafny, the logic behind a React month/week/day/agenda
calendar. The calendar keeps a list of events. Each event has an id, a title, a
`YYYY-MM-DD` date, an optional `HH:MM` start time (no time means "all day"), a
duration string such as `1h` or `30m`, a description, a colour and a completed flag.
The model covers:

- the two conflict detectors: `detectEventConflicts`, which tests pairs with three
  clauses, and `handleEventConflicts`, which groups events by 15-minute slot;
- the duration reader (the first `(\d+)([hm])` match);
- the 12-hour time label and the month cell's "+N more" rule;
- the top-level handlers: loading, navigation, the create modal, toggling,
  deleting, the conflict warning, drag and drop, and event clicks;
- both copies of the week and day layouts (column index, column count, box
  position and size);
- the month grid and the agenda (filter, stable sort, grouping by date);
- the "show all events" list;
- the date picker (the days, months and years views and their navigation);
- the duration field of the create and edit forms, with its free-text box and
  format check;
- the details and edit modals (edit, save with and without the conflict
  question, cancel, delete, mark complete, the conflict badge);
- swipe navigation and the mobile/desktop split of clicks and tooltips.

Dates are civil dates `(year, month, day)`. Adding months clamps the day, as dayjs
does. The weekday of the first of a month is a parameter and is not computed.
Times are `HH:MM` strings, read as minutes since midnight. Durations are whole
minutes. Ids are numbers or strings. Maps and sets keyed by `id.toString()` are
keyed by `Key(id)`. Sorting is a stable insertion sort over a total preorder,
which matches JavaScript's stable `Array.prototype.sort`. The answers to
`window.confirm`, the value of `Date.now()`, touch positions and the "is mobile"
flag are parameters.

Files, one module each:

| file | module |
|---|---|
| `wrappers.dfy` | `Option` |
| `text.dfy` | digits, number-to-string, zero padding, string order, `trim` |
| `clock.dfy` | `HH:MM` times |
| `duration.dfy` | the duration reader |
| `events.dfy` | events, ids, the basic filters |
| `overlap.dfy` | the three-clause overlap test |
| `conflicts.dfy` | `detectEventConflicts` |
| `slots.dfy` | `handleEventConflicts` |
| `layout.dfy` | day and week column layout |
| `legacyweek.dfy` | the single-file week column |
| `dateutils.dfy` | `getEventTime` and `getMonthEventStyles` |
| `dates.dfy` | civil-date arithmetic |
| `datetext.dfy` | `YYYY-MM-DD` formatting and parsing |
| `monthview.dfy` | the month grid and cells |
| `eventlist.dfy` | list operations behind the handlers |
| `app.dfy` | top-level state and handlers |
| `gestures.dfy` | swipes, clicks, hovers |
| `sorting.dfy` | stable insertion sort |
| `agenda.dfy` | the agenda |
| `showall.dfy` | the "show all" list |
| `datepicker.dfy` | the date picker |
| `durationinput.dfy` | the duration field |
| `editing.dfy` | the details and edit modals |

The duration reader takes only the first `(\d+)([hm])` match
(`src/components/Calendar/utils/eventUtils.js:11-13`), so `1h30m` counts as one
hour (`Duration.HourAndMinutesCountsOnlyTheHours`). The create form still offers
"1 hour 30 minutes" as `1h30m` (`CreateEventModal.jsx:93`) and hints "Format: 1h,
30m, 1h30m" (`CreateEventModal.jsx:131`). Every consumer of durations uses the
first-match reading.

## Model

| member | source | states |
|---|---|---|
| Text.DigitOf | src/components/Calendar/utils/eventUtils.js:10 | a digit character has a value below ten (`Number` on one digit) |
| Text.DigitChar | src/components/Calendar/utils/dateUtils.js:8-9 | the character written for a digit value is a digit that reads back as that value |
| Text.DigitRoundTrip | src/components/Calendar/utils/eventUtils.js:10 | writing a digit's value gives back the same character |
| Text.NatToString | src/components/Calendar/utils/eventUtils.js:9 | `toString` of a non-negative integer is a non-empty digit string, without a leading zero when it has two or more digits |
| Text.IntToString | src/components/Calendar/utils/eventUtils.js:9 | `toString` of an integer starts with `-` exactly when the integer is negative |
| Text.NatToStringRoundTrip | src/components/Calendar/utils/eventUtils.js:9-10 | reading back the decimal text of `n` gives `n` |
| Text.NatToStringInjective | src/components/Calendar/utils/eventUtils.js:9 | distinct numbers have distinct decimal texts |
| Text.Pow10 | src/components/Calendar/utils/eventUtils.js:10 | powers of ten are positive |
| Text.DigitsValueBound | src/components/Calendar/utils/eventUtils.js:10 | a digit string of length `k` is worth less than `10^k` |
| Text.DigitsValueFront | src/components/Calendar/utils/eventUtils.js:10 | a digit string's value is its first digit times the place value plus the value of the rest |
| Text.LeadingTermDominates | src/components/Calendar/CalendarViews/WeekView.jsx:216-218 | a smaller leading digit wins whatever the lower places hold |
| Text.FirstDigitDecides | src/components/Calendar/CalendarViews/WeekView.jsx:216-218 | between equal-length digit strings, a smaller first digit means a smaller value |
| Text.DigitsLexOrder | src/components/Calendar/CalendarViews/WeekView.jsx:216-218 | for equal-length digit strings, string order is numeric order |
| Text.DigitsValueInjective | src/components/Calendar/CalendarViews/AgendaView.jsx:26-32 | equal-length digit strings of equal value are equal |
| Text.NatToStringLength | src/components/Calendar/utils/dateUtils.js:8-9 | a number below `10^k` is written in at most `k` digits |
| Text.ZeroPadded | src/components/Calendar/CalendarViews/WeekView.jsx:256 | zero-padding a digit string keeps it a digit string of the same value, at least as wide as asked |
| Text.PadStart | src/components/Calendar/CalendarViews/WeekView.jsx:256 | `padStart` leaves a wide string alone, and otherwise fills on the left to the width while keeping the string as the suffix |
| Text.LexLeReflexive | src/components/Calendar/CalendarViews/WeekView.jsx:216-218 | string `<=` is reflexive |
| Text.LexLeTotal | src/components/Calendar/CalendarViews/AgendaView.jsx:60 | any two strings are comparable |
| Text.LexLeAntisymmetric | src/components/Calendar/CalendarViews/AgendaView.jsx:60 | two strings each `<=` the other are equal |
| Text.LexLeTransitive | src/components/Calendar/CalendarViews/AgendaView.jsx:60 | string `<=` is transitive |
| Text.LexConcat | src/components/Calendar/CalendarViews/AgendaView.jsx:60 | with equal-length prefixes, comparing `a + x` with `b + y` compares the prefixes first and the rests on a tie |
| Text.TrimStart | src/components/Calendar/Modals/CreateEventModal.jsx:115-126 | the result is a suffix that starts with a non-space, and only white space was dropped |
| Text.TrimEnd | src/components/Calendar/Modals/CreateEventModal.jsx:115-126 | the result is a prefix that ends with a non-space, and only white space was dropped |
| Text.Trim | src/components/Calendar/Modals/CreateEventModal.jsx:117 | `s.trim()`, drop the leading and then the trailing white space; characterised by Text.TrimEmpty and Text.TrimIdempotent |
| Text.TrimEmpty | src/components/Calendar/Modals/CreateEventModal.jsx:183 | `trim()` gives the empty string exactly when every character is white space |
| Text.TrimIdempotent | src/components/Calendar/Modals/CreateEventModal.jsx:115-126 | a trimmed string has no white space at either end, and trimming it again changes nothing |
| Clock.Hour | src/components/Calendar/utils/eventUtils.js:10 | the hour read from `HH:MM` is at most 23 |
| Clock.Minute | src/components/Calendar/utils/eventUtils.js:10 | the minute read from `HH:MM` is at most 59 |
| Clock.TwoDigits | src/components/Calendar/utils/eventUtils.js:10 | two digits read as tens and units |
| Clock.MinuteOfDay | src/components/Calendar/utils/eventUtils.js:16 | the start minute lies within the day and splits back into the hour and the minute |
| Clock.MakeClock | src/components/Calendar/index.jsx:39 | the time written for an hour and a minute reads back as them |
| Clock.MinuteOfDayInjective | src/components/Calendar/utils/eventUtils.js:16 | two times with the same start minute are the same string |
| Clock.DigitCharOrder | src/components/Calendar/CalendarViews/WeekView.jsx:216-218 | digit characters compare as their values |
| Clock.ClockStringOrder | src/components/Calendar/CalendarViews/WeekView.jsx:216-218 | comparing `HH:MM` strings with `<=` is comparing their start minutes |
| Duration.DigitRunEnd | src/components/Calendar/utils/eventUtils.js:11 | the greedy `\d+` ends at the first non-digit |
| Duration.MatchEndIsRunEnd | src/components/Calendar/utils/eventUtils.js:11 | a match starting inside a digit run ends where the run ends |
| Duration.FirstMatchFromIsLeftmost | src/components/Calendar/utils/eventUtils.js:11 | the search from position `i` finds no match exactly when none starts at or after `i`, and otherwise finds the leftmost |
| Duration.FirstMatch | src/components/Calendar/utils/eventUtils.js:11 | the non-global `duration.match(/(\d+)([hm])/)`; Duration.FirstMatchIsLeftmost shows it is the leftmost match, or none |
| Duration.FirstMatchIsLeftmost | src/components/Calendar/utils/eventUtils.js:11 | `match` returns the leftmost `(\d+)([hm])` match, or nothing when there is none |
| Duration.DurationMinutes | src/components/Calendar/utils/eventUtils.js:11-13 | the parsed length in minutes; Duration.DurationMinutesSpec gives it as 60 without a match and otherwise the leftmost number in hours or minutes |
| Duration.DurationMinutesSpec | src/components/Calendar/utils/eventUtils.js:11-13 | without a match the duration is one hour; otherwise it is the leftmost match's number in hours or in minutes |
| Duration.HourAndMinutesCountsOnlyTheHours | src/components/Calendar/utils/eventUtils.js:11-13 | `1h30m` counts as 60 minutes |
| Duration.ExampleDurations | src/components/Calendar/utils/eventUtils.js:11-13 | `45m` is 45 minutes, `2h` is 120, the empty and unmatched strings are 60, and `0h` is 0 |
| Events.Key | src/components/Calendar/utils/eventUtils.js:9 | a numeric id's key is non-empty |
| Events.Start | src/components/Calendar/utils/eventUtils.js:16 | a timed event starts within the day |
| Events.End | src/components/Calendar/utils/eventUtils.js:17 | an event never ends before it starts |
| Events.KeyDistinguishes | src/components/Calendar/utils/eventUtils.js:9 | different keys mean different ids |
| Events.NumericKeyInjective | src/components/Calendar/utils/eventUtils.js:9 | two numeric ids with the same key are equal |
| Events.SameKeyDifferentIds | src/components/Calendar/index.jsx:168 | the number 5 and the string "5" differ under `===` but share a key |
| Events.OnDate | src/components/Calendar/CalendarViews/DayView.jsx:21 | the day's events are exactly the listed events with that date, each as often as in the list |
| Events.TimedOf | src/components/Calendar/utils/eventUtils.js:7 | the timed events are exactly the listed events with a time |
| Events.UntimedOf | src/components/Calendar/CalendarViews/DayView.jsx:131-137 | the all-day events are exactly the listed events without a time |
| Events.TimedUntimedPartition | src/components/Calendar/Modals/ShowAllEventsModal.jsx:51-86 | the timed and all-day filters split the list: together they hold each event as often as the list does, and no event is in both |
| Events.TimedUntimedMultiset | src/components/Calendar/Modals/ShowAllEventsModal.jsx:51-86 | the timed and all-day filters together hold each event exactly as often as the list does |
| Events.UniqueKeysTail | src/components/Calendar/utils/eventUtils.js:19-26 | distinct keys survive dropping the first event |
| Events.OnDateUnique | src/components/Calendar/CalendarViews/DayView.jsx:21 | the day's events inherit distinct keys |
| Events.UniqueKeysSameId | src/components/Calendar/index.jsx:182 | with distinct keys, a key names one event |
| Overlap.ThreeClauseCharacterization | src/components/Calendar/utils/eventUtils.js:41-45 | the three-clause test on non-negative intervals holds exactly when the intervals meet, counting touching ends unless one interval is positive and only touches the other at a boundary |
| Overlap.ThreeClauseSymmetric | src/components/Calendar/utils/eventUtils.js:41-45 | the three-clause test gives the same answer in either order |
| Overlap.ThreeClausePositive | src/components/Calendar/utils/eventUtils.js:41-45 | for positive-length intervals, the test is the half-open overlap `s1 < e2 && s2 < e1` |
| Overlap.BackToBackNoConflict | src/components/Calendar/utils/eventUtils.js:41-45 | an event ending when the next begins does not conflict with it |
| Overlap.ZeroLengthAtBoundary | src/components/Calendar/utils/eventUtils.js:41-45 | a zero-length event at either end of another counts as overlapping it |
| Overlap.ThreeClauseTouches | src/components/Calendar/utils/eventUtils.js:41-45 | overlapping intervals at least touch |
| Conflicts.FirstPerKey | src/components/Calendar/utils/eventUtils.js:6-27 | the first pass keeps only timed events with unseen keys, at most one per key |
| Conflicts.FirstPerKeySpec | src/components/Calendar/utils/eventUtils.js:19-26 | an event is kept exactly when it is timed and is the first timed event with its key |
| Conflicts.FirstPerKeyUnique | src/components/Calendar/utils/eventUtils.js:19-26 | with distinct keys the first pass keeps every timed event, in order |
| Conflicts.PartnersFrom | src/components/Calendar/utils/eventUtils.js:34-50 | the partners gathered from position `j` on are exactly the keys of the entries that clash with entry `i` |
| Conflicts.RecordsFrom | src/components/Calendar/utils/eventUtils.js:54-60 | the rows built are exactly the entries with a partner, each with its partner list and count |
| Conflicts.EntriesTimed | src/components/Calendar/utils/eventUtils.js:7 | every entry of the map is timed |
| Conflicts.RecordIsEntry | src/components/Calendar/utils/eventUtils.js:54-60 | every row comes from an entry with at least one partner |
| Conflicts.PartnersFromDistinct | src/components/Calendar/utils/eventUtils.js:24 | the partner list has no repeats (a `Set`) and never holds the entry's own key |
| Conflicts.DetectRecordShape | src/components/Calendar/utils/eventUtils.js:54-60 | a row's event is a listed timed event, its count is the number of its distinct partner keys and at least 1, and its own key is not among them |
| Conflicts.DetectSkipsUntimed | src/components/Calendar/utils/eventUtils.js:7 | an all-day event never gets a row |
| Conflicts.EntryOfKey | src/components/Calendar/utils/eventUtils.js:19-26 | among entries with distinct keys, a key names one position |
| Conflicts.DetectSymmetric | src/components/Calendar/utils/eventUtils.js:47-48 | if row A lists B's key, then B has a row that lists A's key |
| Conflicts.HitIsClash | src/components/Calendar/utils/eventUtils.js:38-45 | the loop's pair test is "same date and three-clause overlap", whichever entry comes first |
| Conflicts.PartnerIff | src/components/Calendar/utils/eventUtils.js:31-51 | an entry's partners are exactly the other entries it clashes with |
| Conflicts.RowOfEntry | src/components/Calendar/utils/eventUtils.js:54-60 | with distinct keys, each event has at most one row, built from its own entry |
| Conflicts.DetectEventConflicts | src/components/Calendar/utils/eventUtils.js:2-61 | `detectEventConflicts(events)`; Conflicts.DetectRecordShape states the shape of each row and Conflicts.DetectExact which keys a row lists |
| Conflicts.DetectExact | src/components/Calendar/utils/eventUtils.js:2-61 | with distinct keys, A's row lists B's key exactly when A and B are different timed events on the same date whose intervals overlap |
| Conflicts.ClashIsReported | src/components/Calendar/utils/eventUtils.js:28-52 | with distinct keys, two different timed events that clash put the second's key in the first's row |
| Conflicts.ReportIsClash | src/components/Calendar/utils/eventUtils.js:28-52 | with distinct keys, a key listed in a timed event's row belongs to an event that clashes with it |
| Conflicts.DetectRowUnique | src/components/Calendar/utils/eventUtils.js:54-60 | two rows for the same event are the same row |
| Conflicts.FindById | src/components/Calendar/CalendarViews/WeekView.jsx:188-189 | `find` by id returns a row with that id, or nothing exactly when no row has it |
| Conflicts.HasConflicts | src/components/Calendar/CalendarViews/WeekView.jsx:188-189 | the Week view's flag, a row found by id with a positive count; Conflicts.HasConflictsExact says when it holds |
| Conflicts.HasConflictsExact | src/components/Calendar/CalendarViews/WeekView.jsx:188-189 | with distinct keys, a timed event is flagged exactly when another timed event clashes with it |
| Slots.SlotList | src/components/Calendar/utils/eventUtils.js:80-86 | the slot instants are exactly the multiples of 15 minutes after the start that fall before the end |
| Slots.Candidates | src/components/Calendar/utils/eventUtils.js:68 | the slot pass considers exactly the timed events of that date, each as often as in the list |
| Slots.PushesFrom | src/components/Calendar/utils/eventUtils.js:67-87 | the slots pushed into hold exactly the slots of the candidates from that position on |
| Slots.FirstOpening | src/components/Calendar/utils/eventUtils.js:91-100 | the first slot, in creation order, that is crowded and holds a candidate with the key, or none when no slot does |
| Slots.FirstHolder | src/components/Calendar/utils/eventUtils.js:94-100 | the first candidate in list order with the key that sits in the slot, or none when none does |
| Slots.GroupEvent | src/components/Calendar/utils/eventUtils.js:91-100 | the event a group is opened for has the key and shares a crowded slot, and it is the first such candidate in the first slot, in creation order, that opens the group; there is none exactly when no candidate with the key shares a slot |
| Slots.GroupOpensInSlotOrder | src/components/Calendar/utils/eventUtils.js:91-100 | with two events filed under the key, the group is opened for the one in the earlier-created slot, though it is later in the list |
| Slots.KeyPinsCandidate | src/components/Calendar/utils/eventUtils.js:95 | with distinct keys, a key picks one candidate |
| Slots.GroupConflictsExact | src/components/Calendar/utils/eventUtils.js:103-107 | with distinct keys, a candidate's group lists another candidate's id exactly when they share a slot, and never its own id |
| Slots.QuarterDifference | src/components/Calendar/utils/eventUtils.js:80 | two quarter-hour offsets differ by a multiple of 15 |
| Slots.SlotListsMeet | src/components/Calendar/utils/eventUtils.js:80-86 | two slot ranges share an instant exactly when both are non-empty, their starts differ by a multiple of 15, and each starts before the other ends |
| Slots.SharesSlotIff | src/components/Calendar/utils/eventUtils.js:80-92 | two events share a slot exactly when both have positive length, their starts differ by a multiple of 15 minutes, and they overlap half-open |
| Slots.SharesSlotImpliesThreeClause | src/components/Calendar/utils/eventUtils.js:41-45 | events that share a slot also pass the three-clause test, in either order |
| Slots.OverlapWithoutSharedSlot | src/components/Calendar/utils/eventUtils.js:80-86 | hour-long events at 09:00 and 09:10 overlap but share no slot |
| Slots.SameStartSharesSlot | src/components/Calendar/utils/eventUtils.js:80-86 | events with the same start and positive lengths share a slot |
| Slots.ZeroLengthNoSlots | src/components/Calendar/utils/eventUtils.js:80 | a zero-length event is put in no slot and shares none |
| Slots.SlotConflictsOnlyDay | src/components/Calendar/utils/eventUtils.js:64-118 | every group is filed under the key of a timed event of that date and is opened for it |
| Slots.SlotConflicts | src/components/Calendar/utils/eventUtils.js:64-118 | `handleEventConflicts(events, date)` as groups filed by id text; Slots.SlotConflictsOnlyDay and Slots.SlotConflictsExact characterise the groups |
| Slots.SlotConflictsExact | src/components/Calendar/utils/eventUtils.js:64-118 | with distinct keys, A's group lists B's id exactly when A and B are timed events of that date sharing a slot |
| Slots.GroupConflictsWitness | src/components/Calendar/utils/eventUtils.js:103-107 | every id in a group belongs to a candidate sharing a slot with the group's candidate |
| Slots.GroupHasPartner | src/components/Calendar/utils/eventUtils.js:91-110 | with distinct keys, a group with conflicts belongs to an event that shares a slot with another event of the day |
| Slots.CandidatesUnique | src/components/Calendar/utils/eventUtils.js:68 | the candidates inherit distinct keys |
| Slots.SlotConflictImpliesDetect | src/components/Calendar/utils/eventUtils.js:2-118 | a conflict the slot variant reports is also reported by the pairwise detector |
| Layout.DayOverlappingFrom | src/components/Calendar/CalendarViews/DayView.jsx:219-239 | the Day view's overlap set holds only timed events of the day that overlap the drawn one |
| Layout.WeekOverlapping | src/components/Calendar/CalendarViews/WeekView.jsx:192-213 | the Week view's overlap set is exactly the timed events of the day, other than the drawn one by id, that overlap it |
| Layout.CountTimeLe | src/components/Calendar/CalendarViews/WeekView.jsx:216-218 | the index counts all overlapping events exactly when all start no later by string, and none exactly when none do |
| Layout.CountStartNoLater | src/components/Calendar/CalendarViews/DayView.jsx:242-245 | the reference count of overlapping events that start no later is at most the set's size |
| Layout.SlotOf | src/components/Calendar/CalendarViews/DayView.jsx:242-245 | the column count is the overlap set's size plus one, and the index is a valid column |
| Layout.DayBox | src/components/Calendar/CalendarViews/DayView.jsx:247-252 | a shared event gets width `1/total` at offset `index/total`, and a lone event the full width; the pixel adjustments only move the box right or shrink it |
| Layout.WeekBox | src/components/Calendar/CalendarViews/WeekView.jsx:221-226 | the same fractions as the Day view |
| Layout.OlderWeekBox | junk.jsx:233-246 | the same fractions, with the width losing 2px on mobile and 4px otherwise |
| Layout.FractionsFit | src/components/Calendar/CalendarViews/DayView.jsx:247-252 | every copy's box starts at or right of the left edge and stops at or before the right edge in fractions |
| Layout.EdgesInside | src/components/Calendar/CalendarViews/DayView.jsx:247-252 | a box with fitting fractions and shrinking pixel adjustments lies inside a column of any width |
| Layout.BoxesInsideColumn | src/components/Calendar/CalendarViews/WeekView.jsx:221-226 | in pixels, every copy's box lies inside a column of any width |
| Layout.DaySlot | src/components/Calendar/CalendarViews/DayView.jsx:242-245 | the Day view's index lies below its column count |
| Layout.WeekSlot | src/components/Calendar/CalendarViews/WeekView.jsx:216-218 | the Week view's index lies below its column count |
| Layout.EarliestGetsIndexZero | src/components/Calendar/CalendarViews/WeekView.jsx:216-218 | an event that starts strictly before all it overlaps gets the left-most column |
| Layout.LatestGetsLastIndex | src/components/Calendar/CalendarViews/WeekView.jsx:216-218 | an event that starts no earlier than all it overlaps gets the right-most column |
| Layout.IndexCountsEarlierStarts | src/components/Calendar/CalendarViews/WeekView.jsx:216-218 | counting by the string test `e.time <= event.time` counts the events that start no later |
| Layout.EqualTimesShareColumn | src/components/Calendar/CalendarViews/DayView.jsx:219-239 | in any day, two timed events with the same time string are each in the other's overlap set and counted in the other's index, so neither is drawn in the left-most column |
| Layout.EqualEventsSameSlot | src/components/Calendar/CalendarViews/DayView.jsx:219-245 | in any day, two timed events with the same time and duration get the same column count and the same column, so they are drawn on top of each other |
| Layout.LonePairSlots | src/components/Calendar/CalendarViews/DayView.jsx:219-245 | two such events alone on their day land in the second of two columns |
| Layout.SameScan | src/components/Calendar/CalendarViews/DayView.jsx:219-239 | the overlap scans of two events with the same start and end keep as many events and count as many, apart from each other |
| Layout.DayOverlappingOnly | src/components/Calendar/CalendarViews/DayView.jsx:219-239 | when one other timed event overlaps, the overlap set is exactly that event |
| Layout.TopPx | src/components/Calendar/CalendarViews/DayView.jsx:211 | the top edge is 0.8px per minute of the start |
| Layout.HeightPx | src/components/Calendar/CalendarViews/DayView.jsx:212 | the height is 0.8px per minute of the duration |
| Layout.BottomIsEndRow | src/components/Calendar/CalendarViews/WeekView.jsx:184-185 | the bottom edge is the pixel row of the event's end, and the top lies within the 24 hour rows |
| Layout.WeekIsDayById | src/components/Calendar/CalendarViews/WeekView.jsx:192-213 | filtering the whole list by date inside the test equals testing the day's events |
| Layout.DayIsById | src/components/Calendar/CalendarViews/DayView.jsx:219-239 | with distinct keys, leaving out the drawn event by position equals leaving it out by id |
| Layout.DayWeekAgree | src/components/Calendar/CalendarViews/DayView.jsx:219-245 | with distinct keys, the Day and Week views give a timed event the same overlap set and column |
| Layout.WeekFlagIffShared | src/components/Calendar/CalendarViews/WeekView.jsx:188-218 | with distinct keys, the Week view flags an event as conflicting exactly when it shares its column |
| Layout.DayFlagIffShared | src/components/Calendar/CalendarViews/DayView.jsx:216-245 | with distinct keys, the Day view's conflict border appears exactly when the event shares its column |
| LegacyWeek.LegacyTopPx | src/components/Calendar.jsx:374-390 | the top edge is the time row, or row 0 for an all-day event |
| LegacyWeek.LegacyBox | src/components/Calendar.jsx:392-393 | every block spans the full column less 2px on each side |
| LegacyWeek.LegacyFlagHasPartner | src/components/Calendar.jsx:380-381 | a flagged event is timed and shares a slot with another timed event of that day |
| LegacyWeek.LegacyHasConflicts | src/components/Calendar.jsx:379-380 | the legacy week view's flag, a group found by id with a conflict; LegacyWeek.LegacyFlagExact says when it holds |
| LegacyWeek.LegacyFlagExact | src/components/Calendar.jsx:371-381 | with distinct keys, an all-day event is never flagged, and a timed one is flagged exactly when it shares a slot with another event of the day |
| DateUtils.DialHour | src/components/Calendar/utils/dateUtils.js:8 | the 12-hour dial shows 1 to 12, congruent to the hour mod 12 |
| DateUtils.GetEventTime | src/components/Calendar/utils/dateUtils.js:4-10 | an all-day event gets the empty label; a timed one is the dial hour (`hours % 12 || 12`, one or two digits without a leading zero), ':', the two minute digits as written, a space and its am/pm marker |
| DateUtils.DialAndMeridiemDetermineHour | src/components/Calendar/utils/dateUtils.js:7-8 | the dial hour and the marker together give back the hour |
| DateUtils.GetEventTimeInjective | src/components/Calendar/utils/dateUtils.js:4-10 | two timed events with the same label have the same time |
| DateUtils.GetEventTimeExamples | src/components/Calendar/utils/dateUtils.js:4-10 | 00:15 is "12:15 am", 12:30 is "12:30 pm", 09:05 is "9:05 am", 23:59 is "11:59 pm" |
| DateUtils.PaddedMinuteIsWritten | src/components/Calendar/CalendarViews/WeekView.jsx:256 | the minute re-padded to two digits is the minute as written |
| DateUtils.InlineTime | src/components/Calendar/CalendarViews/WeekView.jsx:256 | the label the Week grid builds inline; DateUtils.InlineTimeAgrees shows it equals `getEventTime` |
| DateUtils.InlineTimeAgrees | src/components/Calendar/CalendarViews/WeekView.jsx:256 | the label the week grids build inline equals the shared helper's |
| DateUtils.GetMonthEventStyles | src/components/Calendar/utils/dateUtils.js:13-26 | shown plus hidden is the day's count; "more" appears exactly above three events, and then two are shown and at least two are hidden |
| Dates.DaysInMonth | src/components/Calendar/DatePicker.jsx:112 | a month has 28 to 31 days, and February has 29 exactly in a leap year |
| Dates.NextDay | src/components/Calendar/index.jsx:97 | the next day is valid and later, and inside a month it is the day number plus one |
| Dates.PrevDay | src/components/Calendar/index.jsx:87 | the previous day is valid and earlier |
| Dates.NextPrevInverse | src/components/Calendar/index.jsx:87-97 | one day forward and one back, in either order, is the identity |
| Dates.AddDays | src/components/Calendar/CalendarViews/WeekView.jsx:42-44 | adding days gives a valid date, later for positive and earlier for negative counts |
| Dates.AddDaysNextCommute | src/components/Calendar/CalendarViews/WeekView.jsx:42-44 | adding days commutes with stepping forward a day |
| Dates.AddDaysPrevCommute | src/components/Calendar/index.jsx:87 | subtracting days commutes with stepping back a day |
| Dates.AddDaysSucc | src/components/Calendar/CalendarViews/WeekView.jsx:42-44 | adding `n + 1` days is adding `n` and then one more |
| Dates.AddDaysCompose | src/components/Calendar/index.jsx:85-95 | adding `a` days then `b` days is adding `a + b` |
| Dates.AddDaysInverse | src/components/Calendar/index.jsx:85-95 | a week forward then a week back (any count) is the identity |
| Dates.AddMonths | src/components/Calendar/index.jsx:83-93 | adding months moves the month index by that much and clamps the day to the new month |
| Dates.MonthIndexDetermines | src/components/Calendar/index.jsx:83-93 | the month index and the day fix the date |
| Dates.AddMonthsInverse | src/components/Calendar/index.jsx:83-93 | moving months forward and back is the identity when the day was not clamped |
| Dates.AddMonthsClampExample | src/components/Calendar/index.jsx:83-93 | January 31 plus a month is February 28, 2023, and going back gives January 28 |
| Dates.StartOfWeek | src/components/Calendar/CalendarViews/WeekView.jsx:20 | the start of the week is a valid date no later than the day |
| Dates.WeekDays | src/components/Calendar/CalendarViews/WeekView.jsx:42-44 | the week has seven valid days |
| Dates.WeekDaysConsecutive | src/components/Calendar/CalendarViews/WeekView.jsx:42-44 | the week starts on its first day and runs over consecutive days ending on or after the current one |
| DateText.Padded | src/components/Calendar/index.jsx:112 | a padded number is a digit string of that value, exactly the width when it fits |
| DateText.Format | src/components/Calendar/index.jsx:112 | `format("YYYY-MM-DD")` is ten characters with dashes at 4 and 7 |
| DateText.ParseDate | src/components/Calendar/CalendarViews/AgendaView.jsx:23 | a parsed date is a valid date with a four-digit year |
| DateText.FormatPieces | src/components/Calendar/index.jsx:112 | the formatted fields read back as the year, month and day |
| DateText.ParseFormat | src/components/Calendar/CalendarViews/AgendaView.jsx:23-32 | parsing a formatted date gives the date back |
| DateText.SameFields | src/components/Calendar/CalendarViews/AgendaView.jsx:23-32 | two date strings with the same fields are the same string |
| DateText.FormatParse | src/components/Calendar/CalendarViews/AgendaView.jsx:23-32 | a string that parses is the canonical form of its date |
| DateText.FormatInjective | src/components/Calendar/index.jsx:112 | different dates have different texts |
| DateText.PaddedOrder | src/components/Calendar/CalendarViews/AgendaView.jsx:60 | zero-padded numbers of one width compare as strings exactly as numbers |
| DateText.FormatOrder | src/components/Calendar/CalendarViews/AgendaView.jsx:60 | comparing date texts as strings is comparing the dates |
| MonthView.FirstOfMonth | src/components/Calendar.jsx:168 | the first of the month is day 1 of the same month and year |
| MonthView.GridLength | src/components/Calendar.jsx:167-177 | the grid is whole weeks long and covers the leading days and the month |
| MonthView.MonthGrid | src/components/Calendar/CalendarViews/MonthView.jsx:69-78 | the grid has that length and holds valid dates |
| MonthView.GridCell | src/components/Calendar/CalendarViews/MonthView.jsx:69-78 | cell `i` is the first of the month moved by `i - firstWeekday` days |
| MonthView.GridConsecutive | src/components/Calendar.jsx:171-177 | the grid runs over consecutive days |
| MonthView.ForwardInMonth | src/components/Calendar.jsx:171-177 | moving forward within a month only changes the day number |
| MonthView.BackwardInMonth | src/components/Calendar.jsx:168 | moving backward within a month only changes the day number |
| MonthView.GridCoversMonth | src/components/Calendar/CalendarViews/MonthView.jsx:69-78 | every day of the month appears, day `k` at cell `firstWeekday + k - 1` |
| MonthView.IsCurrentMonthIff | src/components/Calendar/CalendarViews/MonthView.jsx:115 | a cell is in the current month exactly when it lies in the month's run of cells |
| MonthView.LeadingCell | src/components/Calendar/CalendarViews/MonthView.jsx:69 | the up to six days shown before the 1st belong to another month |
| MonthView.TrailingCell | src/components/Calendar/CalendarViews/MonthView.jsx:70 | the up to six days shown after the month's last day belong to another month |
| MonthView.MonthCell | src/components/Calendar/CalendarViews/MonthView.jsx:113-156 | a cell holds exactly the day's events, each as often as in the list, shows a prefix of them, shows them all up to three, and otherwise two plus a "more" count of the rest |
| MonthView.ShowAllEvents | src/components/Calendar/CalendarViews/MonthView.jsx:186-189 | the "show all" list holds exactly the events of the chosen date, each as often as in the list |
| MonthView.MoreOpensTheWholeDay | src/components/Calendar/CalendarViews/MonthView.jsx:148-189 | the "+N more" entry opens a list holding the shown and the hidden events, as many as the shown ones plus the N on the entry |
| EventList.SubsequenceReflexive | src/components/Calendar/index.jsx:151 | a list is a subsequence of itself |
| EventList.Normalize | src/components/Calendar/index.jsx:66-70 | a loaded event keeps a truthy id or gets the fresh one, is completed only when it said so, and keeps every other field |
| EventList.Load | src/components/Calendar/index.jsx:60-78 | loading normalizes every fetched event in place |
| EventList.LoadKeepsNormalized | src/components/Calendar/index.jsx:66-70 | loading events that are already normalized gives them back unchanged |
| EventList.LoadedIdsTruthy | src/components/Calendar/index.jsx:68 | after loading with truthy fresh ids, every id is truthy |
| EventList.WithId | src/components/Calendar/index.jsx:123-126 | the created event is the form's event with the new id |
| EventList.DefaultDraft | src/components/Calendar/index.jsx:129-137 | the reset form is untitled, on the given date at 09:00, one hour long and not completed |
| EventList.Append | src/components/Calendar/index.jsx:127 | the new event goes at the end and the rest is unchanged |
| EventList.Toggle | src/components/Calendar/index.jsx:141-147 | events with that id flip their completed flag and nothing else changes |
| EventList.ToggleInvolution | src/components/Calendar/index.jsx:141-147 | toggling twice restores the list |
| EventList.ToggleAbsent | src/components/Calendar/index.jsx:141-147 | toggling an id that is not listed changes nothing |
| EventList.Delete | src/components/Calendar/index.jsx:151 | deleting keeps exactly the events with another id, each as often as before, in order |
| EventList.DeleteAbsent | src/components/Calendar/index.jsx:151 | deleting an id that is not listed changes nothing |
| EventList.DeleteUndoesAppend | src/components/Calendar/index.jsx:127-151 | deleting a just-created event with a fresh id restores the list |
| EventList.DeleteAppendLast | src/components/Calendar/index.jsx:127-151 | removing a freshly appended event restores the list |
| EventList.Redate | src/components/Calendar/index.jsx:195-202 | events whose key is the dragged id take the target date and nothing else changes |
| EventList.DragEnd | src/components/Calendar/index.jsx:186-206 | dropping on nothing or on itself changes nothing; otherwise the dragged event is re-dated |
| EventList.DragEndLandsOnTarget | src/components/Calendar/index.jsx:186-206 | after a drop on another target, every event with the dragged key is on the target date and every other event is unchanged |
| EventList.DragEndIdempotent | src/components/Calendar/index.jsx:186-206 | repeating the same drop changes nothing more |
| EventList.FindByKey | src/components/Calendar/index.jsx:182 | `find` by key returns a listed event with that key, or nothing exactly when no event has it |
| EventList.ReplaceById | src/components/Calendar/Modals/EditEventModal.jsx:21-28 | every event with the edited id becomes the edited event, and the others stay |
| EventList.ReplaceByIdIdempotent | src/components/Calendar/Modals/EditEventModal.jsx:21-28 | saving the same edit twice is saving it once |
| EventList.ReplaceWithStored | src/components/Calendar/Modals/EditEventModal.jsx:21-28 | with distinct keys, saving a stored event unchanged leaves the list alone |
| EventList.ReplaceStores | src/components/Calendar/Modals/EditEventModal.jsx:21-28 | after saving an edit of a listed event, the edit is in the list |
| EventList.ConflictingEvents | src/components/Calendar/index.jsx:167-169 | the warning's events are exactly the listed events whose key is in the row's ids, each as often as in the list, in list order |
| EventList.ConflictDetailsExact | src/components/Calendar/index.jsx:165-177 | with distinct keys, the warning lists exactly the other timed events that clash with the row's event |
| App.Next | src/components/Calendar/index.jsx:91-99 | "next" is a day, a week or a month later in those views and does nothing in the agenda |
| App.Prev | src/components/Calendar/index.jsx:81-89 | "previous" is a day, a week or a month earlier in those views and does nothing in the agenda |
| App.PrevUndoesNext | src/components/Calendar/index.jsx:81-99 | outside the month view, next and previous undo each other |
| App.MonthPrevUndoesNext | src/components/Calendar/index.jsx:81-99 | in the month view they undo each other when the day is at most 28 |
| App.HandleNext | src/components/Calendar/index.jsx:91-99 | the handler moves only the current date |
| App.HandlePrev | src/components/Calendar/index.jsx:81-89 | the handler moves only the current date |
| App.HandleOpenModal | src/components/Calendar/index.jsx:104-116 | the clicked date always becomes current; unless skipped, the form takes the date and the modal opens; nothing else changes |
| App.SingleFileOpenModal | src/components/Calendar.jsx:97-103 | the single-file version puts the date in the form and opens the modal, leaving the current date alone |
| App.OpenModalVersionsAgree | src/components/Calendar.jsx:97-103 | the two versions differ only in the current date |
| App.HandleCloseModal | src/components/Calendar/index.jsx:118-120 | closing the modal changes nothing else |
| App.HandleCreateEvent | src/components/Calendar/index.jsx:122-138 | the form's event is appended with id `Date.now()`, the modal closes and the form resets to the current date |
| App.OpenThenCreate | src/components/Calendar/index.jsx:104-138 | clicking a day then creating puts the new event at the end of the list with that day's date |
| App.HandleToggle | src/components/Calendar/index.jsx:141-147 | toggling changes only the list |
| App.HandleToggleInvolution | src/components/Calendar/index.jsx:141-147 | toggling the same id twice restores the state |
| App.HandleDelete | src/components/Calendar/index.jsx:150-162 | deleting removes the id, closes the popup, clears the selection and hides the tooltip |
| App.SingleFileDelete | src/components/Calendar.jsx:137-139 | the single-file delete only filters the list |
| App.CreateThenDelete | src/components/Calendar/index.jsx:122-162 | creating an event and deleting it at once restores the list |
| App.HandleShowConflictDetails | src/components/Calendar/index.jsx:165-177 | the warning opens with the event and the listed events named by the row |
| App.ConflictWarningExact | src/components/Calendar/index.jsx:165-177 | with distinct keys, the warning lists exactly the other timed events that clash with the row's event |
| App.HandleDragStart | src/components/Calendar/index.jsx:180-183 | the dragged event is the one whose key is the dragged id |
| App.HandleDragEnd | src/components/Calendar/index.jsx:186-206 | the drop updates the list and clears the dragged event |
| App.DragMovesTheDraggedEvent | src/components/Calendar/index.jsx:180-206 | after a drag and a drop on another date, the dragged event's copy is on that date |
| App.HandleEventClick | src/components/Calendar/index.jsx:209-212 | the event becomes selected and its popup opens |
| Gestures.OnTouchEnd | src/components/Calendar/CalendarViews/DayView.jsx:46-70 | a swipe calls "next" exactly when it moves more than 50px left, "previous" exactly when more than 50px right, and needs both positions truthy |
| Gestures.SwipeMirror | junk.jsx:46-70 | swiping back along the same path calls the opposite handler |
| Gestures.ShortSwipeDoesNothing | src/components/Calendar/CalendarViews/DayView.jsx:57-58 | a swipe with a missing or zero position does nothing |
| Gestures.ApplySwipe | src/components/Calendar/CalendarViews/DayView.jsx:57-70 | a swipe moves only the current date, by the handler it calls |
| Gestures.SwipeThereAndBack | src/components/Calendar/CalendarViews/DayView.jsx:57-70 | in the Day and Week views, a swipe and its mirror restore the state |
| Gestures.EventClick | src/components/Calendar/CalendarViews/WeekView.jsx:63-71 | a flagged event opens the conflict warning, and any other opens the popup |
| Gestures.EventClickWarnsExactly | src/components/Calendar/CalendarViews/DayView.jsx:272-280 | with distinct keys, a click warns exactly when another timed event clashes, and the warning lists exactly those events |
| Gestures.AllDayClickIsPopup | src/components/Calendar/CalendarViews/AgendaView.jsx:86-100 | an all-day event's click always opens the popup |
| Gestures.MouseEnter | src/components/Calendar/CalendarViews/WeekView.jsx:74-90 | on a large screen entering shows the event's tooltip; on a small one nothing changes |
| Gestures.MouseLeave | src/components/Calendar/CalendarViews/WeekView.jsx:93-100 | on a large screen leaving hides the tooltip; on a small one nothing changes |
| Gestures.MobileNeverShowsTooltip | junk.jsx:275-300 | on a small screen no run of hovers changes the state |
| Gestures.DesktopTooltipFollowsHover | junk.jsx:275-300 | on a large screen the tooltip shows the last event entered, or is hidden after a leave |
| Gestures.WeekDayClick | src/components/Calendar/CalendarViews/WeekView.jsx:47-60 | clicking a day header or column makes that day current and switches to the Day view without opening the modal |
| Gestures.DesktopOnlyOpen | junk.jsx:96-111 | on a large screen the click opens the create modal on that day; on a small one nothing changes |
| Sorting.Insert | src/components/Calendar/CalendarViews/AgendaView.jsx:26-42 | inserting adds one element and keeps every other |
| Sorting.Sort | src/components/Calendar/CalendarViews/AgendaView.jsx:26-42 | sorting permutes the list |
| Sorting.InsertSorted | src/components/Calendar/CalendarViews/AgendaView.jsx:26-42 | inserting into a sorted list keeps it sorted |
| Sorting.SortSorted | src/components/Calendar/CalendarViews/AgendaView.jsx:26-42 | the result is sorted |
| Sorting.Class | src/components/Calendar/CalendarViews/AgendaView.jsx:26-42 | the tie class of `z` holds exactly the elements that compare equal to `z` |
| Sorting.InsertClass | src/components/Calendar/CalendarViews/AgendaView.jsx:26-42 | inserting keeps the order of each tie class, adding the new element at its class's front, so an element inserted later goes ahead of the ties already placed |
| Sorting.SortStable | src/components/Calendar/CalendarViews/AgendaView.jsx:26-42 | sorting keeps the order of each tie class (stability) |
| Sorting.SortKeepsSorted | src/components/Calendar/CalendarViews/AgendaView.jsx:26-42 | a sorted list is left as it is |
| Agenda.OnOrAfter | src/components/Calendar/CalendarViews/AgendaView.jsx:22-25 | the filter test `isAfter(startDate) || isSame(startDate, 'day')`; Agenda.AgendaFilter keeps exactly the events it accepts |
| Agenda.AgendaFilter | src/components/Calendar/CalendarViews/AgendaView.jsx:17-25 | the agenda keeps exactly the events dated on or after today, each as often as in the list, in order |
| Agenda.Compare | src/components/Calendar/CalendarViews/AgendaView.jsx:26-42 | the sort comparator; Agenda.AgendaLeIsCompare and Agenda.AgendaOrderIsTotalPreorder show it orders by date, then all-day first, then start |
| Agenda.AgendaLeIsCompare | src/components/Calendar/CalendarViews/AgendaView.jsx:26-42 | the sort order is "the comparator returns at most 0": date first, then all-day first, then start time |
| Agenda.AgendaOrderIsTotalPreorder | src/components/Calendar/CalendarViews/AgendaView.jsx:26-42 | the comparator is a consistent total preorder |
| Agenda.AgendaEvents | src/components/Calendar/CalendarViews/AgendaView.jsx:21-42 | the agenda's events are a permutation of the filtered events |
| Agenda.AgendaEventsSorted | src/components/Calendar/CalendarViews/AgendaView.jsx:26-42 | the agenda's events are in comparator order |
| Agenda.AgendaSorted | src/components/Calendar/CalendarViews/AgendaView.jsx:26-42 | the agenda runs by date, all-day events of a date come before its timed ones, timed ones run by start, and ties keep list order |
| Agenda.DistinctDates | src/components/Calendar/CalendarViews/AgendaView.jsx:46-52 | the object's keys are the events' dates, each once |
| Agenda.StringOrderIsTotalPreorder | src/components/Calendar/CalendarViews/AgendaView.jsx:60 | the default string sort order is a total preorder |
| Agenda.GroupKeys | src/components/Calendar/CalendarViews/AgendaView.jsx:60 | the sorted keys are exactly the dates that have events |
| Agenda.GroupByDate | src/components/Calendar/CalendarViews/AgendaView.jsx:46-62 | one group per sorted key, holding that date's events in list order |
| Agenda.GroupsCoverTheList | src/components/Calendar.jsx:681-690 | every event is in the group of its date, and every group's date has events |
| Agenda.GroupsInStringOrder | src/components/Calendar/CalendarViews/AgendaView.jsx:60 | group dates are strictly increasing as strings |
| Agenda.DistinctSorted | src/components/Calendar/CalendarViews/AgendaView.jsx:60 | sorting distinct keys keeps them distinct |
| Agenda.DistinctCount | src/components/Calendar/CalendarViews/AgendaView.jsx:46-52 | a key occurs at most once |
| Agenda.TwoCopies | src/components/Calendar/CalendarViews/AgendaView.jsx:60 | a key at two positions occurs twice |
| Agenda.GroupsChronological | src/components/Calendar/CalendarViews/AgendaView.jsx:60 | for well-formed dates, group order is date order |
| Agenda.GroupKeepsAgendaOrder | src/components/Calendar/CalendarViews/AgendaView.jsx:46-62 | within a group, events keep the agenda's sort order |
| Agenda.OnDateSubsequence | src/components/Calendar/CalendarViews/AgendaView.jsx:46-52 | a date's group is a subsequence of the list |
| Agenda.SubsequenceWeaken | src/components/Calendar/CalendarViews/AgendaView.jsx:46-52 | a subsequence of the tail is a subsequence of the list |
| Agenda.SubsequenceSorted | src/components/Calendar/CalendarViews/AgendaView.jsx:46-52 | a subsequence of a sorted list is sorted |
| Agenda.SubsequenceMembers | src/components/Calendar/CalendarViews/AgendaView.jsx:46-52 | a subsequence only holds the list's events |
| Agenda.WhenText | src/components/Calendar/CalendarViews/AgendaView.jsx:114 | "All day" appears exactly for all-day events, and timed ones show their time label |
| Agenda.DurationText | src/components/Calendar/CalendarViews/AgendaView.jsx:115 | the " • duration" suffix appears exactly for a timed event with a duration, and shows it |
| ShowAll.Compare | src/components/Calendar/Modals/ShowAllEventsModal.jsx:82-86 | the timed section's comparator; ShowAll.TimeOrderIsCompare shows it is start-minute order |
| ShowAll.TimeOrderIsCompare | src/components/Calendar/Modals/ShowAllEventsModal.jsx:82-86 | on timed events the sort order is "the comparator returns at most 0", that is start-minute order |
| ShowAll.TimeOrderIsTotalPreorder | src/components/Calendar/Modals/ShowAllEventsModal.jsx:82-86 | the comparator is a total preorder |
| ShowAll.ShowAll | src/components/Calendar/Modals/ShowAllEventsModal.jsx:46-86 | the message appears exactly for no events; otherwise the all-day section holds exactly the all-day events and the timed section exactly the timed ones, splitting the list |
| ShowAll.SortedMembers | src/components/Calendar/Modals/ShowAllEventsModal.jsx:81-86 | sorting keeps the same members |
| ShowAll.HeadersIff | src/components/Calendar/Modals/ShowAllEventsModal.jsx:51-81 | each section header appears exactly when the day has an event of that kind |
| ShowAll.TimedSectionSorted | src/components/Calendar/Modals/ShowAllEventsModal.jsx:76-86 | the timed section runs by start time |
| ShowAll.TimedSectionStable | src/components/Calendar/Modals/ShowAllEventsModal.jsx:82-86 | events starting at the same minute keep the day's order |
| ShowAll.AllDaySectionInOrder | src/components/Calendar/Modals/ShowAllEventsModal.jsx:51-57 | the all-day section keeps the day's order |
| ShowAll.UntimedSubsequence | src/components/Calendar/Modals/ShowAllEventsModal.jsx:56 | the all-day filter is a subsequence of the list |
| DatePicker.DecadeStart | src/components/Calendar/DatePicker.jsx:8 | the decade start is a multiple of ten at or below the year, within ten of it |
| DatePicker.DecadeStartUnique | src/components/Calendar/DatePicker.jsx:8 | that multiple of ten is the only one |
| DatePicker.Init | src/components/Calendar/DatePicker.jsx:6-8 | the picker opens on the days view of the current date, with the decade holding its year |
| DatePicker.Open | src/components/Calendar/DatePicker.jsx:25-30 | reopening resets the view to the days of the current date and keeps the decade |
| DatePicker.Prev | src/components/Calendar/DatePicker.jsx:55-63 | back a month in the days view, a year in the months view, a decade in the years view |
| DatePicker.Next | src/components/Calendar/DatePicker.jsx:65-73 | forward a month in the days view, a year in the months view, a decade in the years view |
| DatePicker.PrevNextInverse | src/components/Calendar/DatePicker.jsx:55-73 | previous and next undo each other in the years view, and elsewhere when the day is at most 28 |
| DatePicker.HeaderClick | src/components/Calendar/DatePicker.jsx:93-100 | the header climbs days to months, then months to years with the decade of the viewed year, and then stays |
| DatePicker.SetMonth | src/components/Calendar/DatePicker.jsx:82-85 | `month(m)` keeps the year, sets the month and clamps the day |
| DatePicker.SetYear | src/components/Calendar/DatePicker.jsx:87-90 | `year(y)` keeps the month, sets the year and clamps the day |
| DatePicker.MonthSelect | src/components/Calendar/DatePicker.jsx:82-85 | choosing a month shows that month's days |
| DatePicker.YearSelect | src/components/Calendar/DatePicker.jsx:87-90 | choosing a year shows that year's months |
| DatePicker.ClimbAndDescend | src/components/Calendar/DatePicker.jsx:82-100 | climbing to the years and choosing a year and a month lands on that month's days |
| DatePicker.YearCells | src/components/Calendar/DatePicker.jsx:234-262 | the years view has twelve consecutive years from the decade start, the last two greyed |
| DatePicker.InFullColourIff | src/components/Calendar/DatePicker.jsx:238-248 | a year is drawn in full colour exactly when it lies in the shown decade |
| DatePicker.DaysGrid | src/components/Calendar/DatePicker.jsx:111-201 | the three loops fill 42 cells: the end of the previous month, the month, and the start of the next |
| DatePicker.TrailingCells | src/components/Calendar/DatePicker.jsx:168-186 | at least five cells of the next month are always shown |
| DatePicker.CellDate | src/components/Calendar/DatePicker.jsx:128-186 | the date a cell picks is valid |
| DatePicker.CellsConsecutive | src/components/Calendar/DatePicker.jsx:128-189 | read left to right, the cells pick 42 consecutive days |
| DatePicker.CellMonth | src/components/Calendar/DatePicker.jsx:128-186 | leading cells pick the month before, current ones the month, trailing ones the month after |
| DatePicker.MonthDayCell | src/components/Calendar/DatePicker.jsx:147-165 | each day of the month has exactly one cell |
| DurationInput.SelectValue | src/components/Calendar/Modals/CreateEventModal.jsx:70-75 | the select shows "custom" exactly when the box is shown, and otherwise the duration itself, always one of its options |
| DurationInput.BoxText | src/components/Calendar/Modals/CreateEventModal.jsx:107 | the box is empty while the sentinel is stored, and shows the duration otherwise |
| DurationInput.OnSelect | src/components/Calendar/Modals/CreateEventModal.jsx:76-88 | a real option is stored as chosen; "Custom..." always opens the box, keeps a custom text, and otherwise shows an empty box |
| DurationInput.SelectShowsTheChoice | src/components/Calendar/Modals/CreateEventModal.jsx:70-88 | after choosing any option, the select shows that option |
| DurationInput.RunEndAt | src/components/Calendar/Modals/CreateEventModal.jsx:117 | a digit run ends at the first non-digit |
| DurationInput.MinutesPart | src/components/Calendar/Modals/CreateEventModal.jsx:117 | the matcher's tail accepts exactly an optional minutes part |
| DurationInput.MatchFormat | src/components/Calendar/Modals/CreateEventModal.jsx:121 | the test `val.match(/^(\d+h)?(\d+m)?$/)`; DurationInput.MatchFormatIff shows it accepts exactly the format |
| DurationInput.MatchFormatIff | src/components/Calendar/Modals/CreateEventModal.jsx:117 | the matcher accepts exactly an optional hours part followed by an optional minutes part |
| DurationInput.MatchFormatSound | src/components/Calendar/Modals/CreateEventModal.jsx:117 | every text the matcher accepts is an optional hours part followed by an optional minutes part |
| DurationInput.MatchFormatComplete | src/components/Calendar/Modals/CreateEventModal.jsx:117 | every optional hours part followed by an optional minutes part passes the matcher |
| DurationInput.PresetsPass | src/components/Calendar/Modals/CreateEventModal.jsx:117 | every preset is in the format |
| DurationInput.OnBlur | src/components/Calendar/Modals/CreateEventModal.jsx:115-126 | leaving the box keeps a non-blank text in the format, untrimmed, and otherwise stores "1h" |
| DurationInput.FocusAsWritten | src/components/Calendar/Modals/CreateEventModal.jsx:109-114 | focusing as written keeps the text the box shows but drops the `custom_` marker, and leaves any other value alone |
| DurationInput.FocusClosesTheCustomBox | src/components/Calendar/Modals/CreateEventModal.jsx:101-114 | as written, "Custom..." on an empty duration opens the box, and its own focus closes it and turns the select back to "Anytime" |
| DurationInput.Focus | src/components/Calendar/Modals/CreateEventModal.jsx:109-114 | focusing as intended keeps the box, its text and the select as they were |
| DurationInput.CustomThenFocusKeepsTheBox | src/components/Calendar/Modals/CreateEventModal.jsx:76-114 | with the corrected focus, "Custom..." then focus leaves the box open, empty unless a custom text was stored |
| DurationInput.Step | src/components/Calendar/Modals/CreateEventModal.jsx:76-126 | one user action on the duration field: a choice in the select, focus (the corrected handler), a change of the box's whole text, or leaving the box |
| DurationInput.Run | src/components/Calendar/Modals/CreateEventModal.jsx:76-126 | a run of those actions in order; DurationInput.CustomThenFocusKeepsTheBox and DurationInput.CustomEntry state what the runs end in |
| DurationInput.CustomEntry | src/components/Calendar/Modals/CreateEventModal.jsx:76-126 | with the corrected focus, "Custom...", entering a text in one change and leaving stores the text when it is non-blank and in the format, and "1h" otherwise |
| DurationInput.SaveEnabledIff | src/components/Calendar/Modals/CreateEventModal.jsx:183 | save is enabled exactly when the title has a non-space character |
| Editing.StartEdit | src/components/Calendar/Modals/EventDetailsModal.jsx:297-300 | "Edit" fills the form from the selected event and changes nothing else |
| Editing.Cancel | src/components/Calendar/Modals/EventDetailsModal.jsx:286-289 | "Cancel" resets the form to the selected event and leaves edit mode |
| Editing.CancelDiscardsTheForm | src/components/Calendar/Modals/EditEventModal.jsx:173-177 | editing then cancelling leaves only view mode behind |
| Editing.Update | src/components/Calendar/Modals/EditEventModal.jsx:21-28 | saving puts the edit at every position with its id, selects it and leaves edit mode, changing no other event |
| Editing.UpdateKeepsSync | src/components/Calendar/Modals/EditEventModal.jsx:21-28 | after saving, the selected event is still stored and the form edits it |
| Editing.UpdateUnchanged | src/components/Calendar/Modals/EditEventModal.jsx:21-28 | with distinct keys, saving an unchanged form changes no stored event |
| Editing.CheckForConflicts | src/components/Calendar/Modals/EditEventModal.jsx:31-46 | a conflict is reported exactly when the edit would be flagged in the list after saving, and it is the edit's row there |
| Editing.ReplaceKeepsUniqueKeys | src/components/Calendar/Modals/EditEventModal.jsx:21-28 | saving keeps the keys distinct |
| Editing.CheckForConflictsExact | src/components/Calendar/Modals/EditEventModal.jsx:31-46 | with distinct keys, a timed edit is reported exactly when another stored timed event clashes with the new times |
| Editing.SaveWithCheck | src/components/Calendar/Modals/EditEventModal.jsx:198-212 | without a conflict the edit is saved; with one it is saved only when confirmed, and otherwise nothing changes |
| Editing.SaveDirect | src/components/Calendar/Modals/EventDetailsModal.jsx:270-278 | the details modal saves without a conflict question: every position with the edited id holds the edit, every other position is unchanged, the edit is selected and edit mode ends |
| Editing.SaveButtonsAgree | src/components/Calendar/Modals/EventDetailsModal.jsx:270-278 | without a conflict both save buttons do the same |
| Editing.DeleteSelected | src/components/Calendar/Modals/EditEventModal.jsx:183-190 | a confirmed delete removes exactly the events with the selected id and closes the popup and form; a declined one changes nothing; the selection and the form are kept (see "## Left out") |
| Editing.MarkComplete | src/components/Calendar/Modals/EventDetailsModal.jsx:96-102 | marking flips the flag of every stored event with the selected id and of the selected copy, and leaves every other event and field as it was |
| Editing.MarkCompleteKeepsSync | src/components/Calendar/Modals/EventDetailsModal.jsx:96-102 | after marking, the selected copy still matches a stored event |
| Editing.MarkCompleteTwice | src/components/Calendar/Modals/EventDetailsModal.jsx:96-102 | marking twice restores the session |
| Editing.ConflictBadge | src/components/Calendar/Modals/EventDetailsModal.jsx:80-92 | the badge appears exactly when the event is flagged, with a positive count |
| Editing.ConflictBadgeExact | src/components/Calendar/Modals/EventDetailsModal.jsx:80-92 | with distinct keys, the badge appears exactly when another timed event clashes, and its count is the number of those events |

## Left out

- Fetching `/events.json`, the loading flag and the error path are left out. The
  fetched list is the input of `EventList.Load`. The fresh ids from
  `Date.now() + Math.random()` and `Date.now()` are parameters.
- Fractional numeric ids are not modelled. `Events.Id` holds integers and
  strings only. The load's fresh id `Date.now() + Math.random()`
  (`index.jsx:68`, `Calendar.jsx:57`) is a fractional number whose `toString()`
  contains a '.', so it is written as `StrId` of that text. Only its key and `===`
  with itself are used, and both agree. The one difference: such a `StrId` would
  equal a string id with the same text, where JavaScript's `===` tells a number
  from a string.
- The drag-and-drop library's sensors and overlays are left out. A drag is its
  active id and its optional drop target.
- Weekdays are not computed. The weekday of the first of the month, or of the
  current date, is a parameter with values 0 to 6.
- dayjs parsing is modelled for canonical `YYYY-MM-DD` strings only. Lenient or
  rolled-over dates such as `2023-02-30` make `ParseDate` return `None`, so
  `Agenda.GroupsChronological` needs well-formed dates.
- The time of day is left out. This covers `.hour(h)` on clicked hour cells,
  "today" highlighting, the current-time line and the "Today" buttons
  (`handleToday`, `handleTodayClick`), all of which read the clock.
- Real arithmetic is left out. Start and end are whole minutes instead of
  fractional hours. `toFixed(2)` slot names are the slot's minute. Pixel sizes
  are Dafny `real`s, not strings.
- Touch positions are integers. JavaScript gives fractional `clientX` values.
- Time strings that are not `HH:MM` with `HH <= 23` and `MM <= 59` are left out.
  The source computes `NaN` for them.
- A missing duration is modelled as the empty string. The guarded readers treat
  both the same. The unguarded `event.duration.match` in `handleEventConflicts`
  and in the single-file day view would throw on a missing duration instead.
- `Slots.SlotConflicts`: an id named like an `Object.prototype` member
  (`"toString"`, `"constructor"`, `"valueOf"`, `"__proto__"`) is not modelled.
  `conflictGroups` is a plain object (`eventUtils.js:90`, and `Calendar.jsx:448`
  in the legacy week view), so for such an id the `!conflictGroups[event.id]`
  test finds the inherited member, no group is created, and the `add` call at
  `eventUtils.js:105` throws. The model files a group under that key instead.
  `Conflicts.DetectExact` is not affected, as `detectEventConflicts` uses a `Map`.
- `Slots.SlotConflicts`: the result is a map keyed by id string, so the order of
  the returned array (`Object.values(conflictGroups)`) is left out. Which event a
  group is opened for follows the order in which the slots were created
  (`Slots.GroupEvent`).
- Strings are sequences of characters. UTF-16 code units and locale formatting
  (`MMMM D, YYYY`, `ddd`) are left out.
- `DateText.Format` covers years 0 to 9999 only, the years dayjs writes with four
  digits.
- Highlighting in the date picker (selected, current month, current year) is left
  out. It reads the clock or is presentational only.
- Mobile detection through `window.innerWidth` and the resize listener is left
  out. Whether the screen is small is a parameter. Click-outside listeners and
  animation timeouts are left out too.
- React's batching and stale closures are left out. Every handler is a function
  from one state to the next.
- Whether unmounting the focused box fires its blur handler is left out.
- Editing.DeleteSelected: the deleted event stays selected and the form keeps its
  text, because the session has no empty selection. The program's `deleteEvent`
  sets the selection to null and hides the tooltip (`index.jsx:150-161`);
  `App.HandleDelete` models that clearing.
- DurationInput.CustomEntry: the text reaches the box in one change. Typed key by
  key, the box is unmounted as soon as the text so far is empty or a preset
  (`CreateEventModal.jsx:101-108`). Typing "2h15m" then stops at "2h", and the
  select shows "2 hours". Entry key by key is not modelled.
- The presentational components are not part of this model: `BaseModal`,
  `CalendarHeader`, `MobileNavDrawer`, `EventTooltip`, `ConflictWarningModal` and
  `DraggableEvent`. Their behaviour reaches the model only through the handlers
  they call.
- The edit modal's duration select offers the presets only. It reuses
  `DurationInput.OnSelect` without the "Custom..." entry.
- `window.alert` in the single-file week view has no state effect and is left
  out. `window.confirm` answers are boolean parameters.
- Dates.StartOfWeek: states only that the result is valid and not after the day.
  The exact weekday alignment follows from the weekday parameter and is shown
  through `Dates.WeekDaysConsecutive`.
- Layout.CountStartNoLater: states only the bound. Its meaning is carried by
  `Layout.IndexCountsEarlierStarts`.
- Sorting.Sort: states only that the result is a permutation. Sortedness and
  stability are the separate lemmas `Sorting.SortSorted` and
  `Sorting.SortStable`, which need a total preorder.

## Findings

| source | as written | input that shows it | evidently intended | confidence | as-written member | corrected member |
|---|---|---|---|---|---|---|
| src/components/Calendar/Modals/CreateEventModal.jsx:109-114 (and EventDetailsModal.jsx:205-209) | the box's focus handler replaces the stored sentinel `custom_` with `""`. The box is rendered with `autoFocus` only while the duration is neither empty nor a preset, so the focus that follows its opening closes it again | duration `""` (Anytime), then choose "Custom..." | the box stays open with empty text, as the sentinel already shows it empty | medium; not executed | DurationInput.FocusAsWritten, DurationInput.FocusClosesTheCustomBox | DurationInput.Focus, DurationInput.CustomThenFocusKeepsTheBox |

=== FILE: agenda.dfy ===
/** The agenda: every event dated on or after the current day (there is no upper
    bound), sorted by day, then all-day events first, then by start time, and shown
    in one group per day, the days in string order. The single-file calendar groups
    its whole list the same way. */
module Agenda {
  import opened Text
  import opened Dates
  import opened DateText
  import opened Events
  import opened EventList
  import opened Sorting
  import opened DateUtils
  import opened Wrappers

  /** `dayjs(event.date).isAfter(startDate) || .isSame(startDate, "day")`, with
      `startDate` the start of the current day. A date that does not read as a day is
      on no day. */
  predicate OnOrAfter(e: Event, start: Date)
  {
    var d := ParseDate(e.date);
    d.Some? && SameOrBefore(start, d.value)
  }

  /** The filter step, order kept. */
  function AgendaFilter(events: seq<Event>, start: Date): (r: seq<Event>)
    ensures forall e :: e in r <==> e in events && OnOrAfter(e, start)
    ensures forall e :: multiset(r)[e] == if OnOrAfter(e, start) then multiset(events)[e] else 0
    ensures Subsequence(r, events)
  {
    if |events| == 0 then []
    else
      assert events == [events[0]] + events[1..];
      if OnOrAfter(events[0], start) then [events[0]] + AgendaFilter(events[1..], start)
      else AgendaFilter(events[1..], start)
  }

  /** The comparator as written, for two events whose dates read as days: the sign of
      `dateA.diff(dateB)` on different days; on one day -1 or 1 for an all-day event
      against a timed one, 0 for two all-day events, and the difference of the start
      minutes for two timed ones. */
  function Compare(a: Event, b: Event): int
    requires ParseDate(a.date).Some? && ParseDate(b.date).Some?
  {
    var da, db := ParseDate(a.date).value, ParseDate(b.date).value;
    if da != db then (if Before(da, db) then -1 else 1)
    else if !IsTimed(a) && IsTimed(b) then -1
    else if IsTimed(a) && !IsTimed(b) then 1
    else if !IsTimed(a) && !IsTimed(b) then 0
    else Start(a) - Start(b)
  }

  /** The same order stated on the date texts, which makes it a total preorder on
      every event: earlier text first, then all-day, then by start minute. */
  predicate AgendaLe(a: Event, b: Event)
  {
    if a.date != b.date then LexLe(a.date, b.date)
    else if !IsTimed(a) then true
    else if !IsTimed(b) then false
    else Start(a) <= Start(b)
  }

  function AgendaOrder(): (Event, Event) -> bool
  {
    (a: Event, b: Event) => AgendaLe(a, b)
  }

  /** For dates in the canonical form, `AgendaLe` is exactly "the comparator returns
      at most 0". */
  lemma AgendaLeIsCompare(a: Event, b: Event)
    requires ParseDate(a.date).Some? && ParseDate(b.date).Some?
    ensures AgendaLe(a, b) <==> Compare(a, b) <= 0
  {
    var da, db := ParseDate(a.date).value, ParseDate(b.date).value;
    FormatParse(a.date);
    FormatParse(b.date);
    FormatOrder(da, db);
  }

  lemma AgendaOrderIsTotalPreorder()
    ensures TotalPreorder(AgendaOrder())
  {
    var le := AgendaOrder();
    forall a: Event, b: Event
      ensures le(a, b) || le(b, a)
    {
      LexLeTotal(a.date, b.date);
    }
    forall a: Event, b: Event, c: Event | le(a, b) && le(b, c)
      ensures le(a, c)
    {
      if a.date != b.date && b.date != c.date {
        LexLeTransitive(a.date, b.date, c.date);
        if a.date == c.date {
          LexLeAntisymmetric(a.date, b.date);
        }
      }
    }
  }

  /** `agendaEvents`: the filtered events, stably sorted by the comparator. */
  function AgendaEvents(events: seq<Event>, start: Date): (r: seq<Event>)
    ensures multiset(r) == multiset(AgendaFilter(events, start))
    ensures forall e :: e in r <==> e in events && OnOrAfter(e, start)
  {
    var f := AgendaFilter(events, start);
    var r := Sort(f, AgendaOrder());
    assert forall e :: e in r <==> e in multiset(r);
    r
  }

  /** Two date texts that read as days, the first on or before the second. */
  predicate DayLe(a: string, b: string)
  {
    ParseDate(a).Some? && ParseDate(b).Some? && SameOrBefore(ParseDate(a).value, ParseDate(b).value)
  }

  lemma AgendaEventsSorted(events: seq<Event>, start: Date)
    ensures Sorted(AgendaEvents(events, start), AgendaOrder())
  {
    AgendaOrderIsTotalPreorder();
    SortSorted(AgendaFilter(events, start), AgendaOrder());
  }

  /** The agenda is in order: day by day, all-day events first within a day, then by
      start time; events the comparator ties keep their list order. */
  lemma AgendaSorted(events: seq<Event>, start: Date)
    ensures var r := AgendaEvents(events, start);
      forall i, j :: 0 <= i < j < |r| ==>
        DayLe(r[i].date, r[j].date)
        && (r[i].date == r[j].date && IsTimed(r[i]) ==> IsTimed(r[j]) && Start(r[i]) <= Start(r[j]))
    ensures forall z :: (Class(AgendaEvents(events, start), z, AgendaOrder())
      == Class(AgendaFilter(events, start), z, AgendaOrder()))
  {
    var r := AgendaEvents(events, start);
    AgendaOrderIsTotalPreorder();
    AgendaEventsSorted(events, start);
    forall i, j | 0 <= i < j < |r|
      ensures DayLe(r[i].date, r[j].date)
    {
      assert r[i] in r && r[j] in r;
      assert AgendaLe(r[i], r[j]);
      FormatParse(r[i].date);
      FormatParse(r[j].date);
      FormatOrder(ParseDate(r[i].date).value, ParseDate(r[j].date).value);
    }
    forall z
      ensures Class(r, z, AgendaOrder()) == Class(AgendaFilter(events, start), z, AgendaOrder())
    {
      SortStable(AgendaFilter(events, start), z, AgendaOrder());
    }
  }

  // ----- grouping -----

  /** The dates of a list, each once, in the order they first appear: the keys of
      `eventsByDate` as they are added. */
  function DistinctDates(events: seq<Event>, seen: set<string>): (r: seq<string>)
    ensures forall d :: d in r <==> d !in seen && exists e :: e in events && e.date == d
    ensures forall i, j :: 0 <= i < j < |r| ==> r[i] != r[j]
  {
    if |events| == 0 then []
    else if events[0].date in seen then DistinctDates(events[1..], seen)
    else [events[0].date] + DistinctDates(events[1..], seen + {events[0].date})
  }

  function StringOrder(): (string, string) -> bool
  {
    (a: string, b: string) => LexLe(a, b)
  }

  lemma StringOrderIsTotalPreorder()
    ensures TotalPreorder(StringOrder())
  {
    forall a: string, b: string
      ensures LexLe(a, b) || LexLe(b, a)
    {
      LexLeTotal(a, b);
    }
    forall a: string, b: string, c: string | LexLe(a, b) && LexLe(b, c)
      ensures LexLe(a, c)
    {
      LexLeTransitive(a, b, c);
    }
  }

  datatype Group = Group(date: string, events: seq<Event>)

  /** `Object.keys(eventsByDate).sort()`: each date of the list once, in string order. */
  function GroupKeys(events: seq<Event>): (keys: seq<string>)
    ensures forall d :: d in keys <==> exists e :: e in events && e.date == d
  {
    var dd := DistinctDates(events, {});
    var keys := Sort(dd, StringOrder());
    assert forall d :: d in keys <==> d in dd by {
      forall d ensures d in keys <==> d in dd {
        assert d in keys <==> d in multiset(keys);
        assert d in dd <==> d in multiset(dd);
      }
    }
    keys
  }

  /** `Object.keys(eventsByDate).sort().map(date => eventsByDate[date])`. */
  function GroupByDate(events: seq<Event>): (r: seq<Group>)
    ensures |r| == |GroupKeys(events)|
    ensures forall i :: 0 <= i < |r| ==> r[i] == Group(GroupKeys(events)[i], OnDate(events, GroupKeys(events)[i]))
  {
    var keys := GroupKeys(events);
    seq(|keys|, i requires 0 <= i < |keys| => Group(keys[i], OnDate(events, keys[i])))
  }

  /** The groups hold every event once, under its own date, and every group has a
      date of the list. */
  lemma GroupsCoverTheList(events: seq<Event>)
    ensures var r := GroupByDate(events);
      (forall g :: g in r ==> g.events == OnDate(events, g.date))
      && (forall g :: g in r ==> exists e :: e in events && e.date == g.date)
      && (forall e :: e in events ==> exists g :: g in r && g.date == e.date)
  {
    var keys := GroupKeys(events);
    var r := GroupByDate(events);
    forall e | e in events
      ensures exists g :: g in r && g.date == e.date
    {
      assert e.date in keys;
      var i :| 0 <= i < |keys| && keys[i] == e.date;
      assert r[i] in r;
    }
    forall g | g in r
      ensures exists e :: e in events && e.date == g.date
    {
      var i :| 0 <= i < |r| && r[i] == g;
      assert keys[i] in keys;
    }
  }

  /** The groups are listed in strictly increasing string order of their dates, so
      each date has one group. */
  lemma GroupsInStringOrder(events: seq<Event>)
    ensures var g := GroupByDate(events);
      forall i, j :: 0 <= i < j < |g| ==> LexLt(g[i].date, g[j].date)
  {
    var dd := DistinctDates(events, {});
    var keys := Sort(dd, StringOrder());
    assert keys == GroupKeys(events);
    StringOrderIsTotalPreorder();
    SortSorted(dd, StringOrder());
    forall i, j | 0 <= i < j < |keys|
      ensures keys[i] != keys[j]
    {
      DistinctSorted(dd, keys, i, j);
    }
  }

  /** A permutation of a list without repeats has no repeats. */
  lemma DistinctSorted(dd: seq<string>, keys: seq<string>, i: int, j: int)
    requires forall a, b :: 0 <= a < b < |dd| ==> dd[a] != dd[b]
    requires multiset(keys) == multiset(dd) && 0 <= i < j < |keys|
    ensures keys[i] != keys[j]
  {
    DistinctCount(dd, keys[i]);
    if keys[i] == keys[j] {
      TwoCopies(keys, i, j);
    }
  }

  lemma {:induction false} DistinctCount(dd: seq<string>, x: string)
    requires forall a, b :: 0 <= a < b < |dd| ==> dd[a] != dd[b]
    ensures multiset(dd)[x] <= 1
  {
    if |dd| > 0 {
      DistinctCount(dd[1..], x);
      assert dd == [dd[0]] + dd[1..];
      if dd[0] == x {
        assert x !in dd[1..];
      }
    }
  }

  lemma TwoCopies(keys: seq<string>, i: int, j: int)
    requires 0 <= i < j < |keys| && keys[i] == keys[j]
    ensures multiset(keys)[keys[i]] >= 2
  {
    var x := keys[i];
    assert keys == keys[..i] + [x] + keys[i + 1..j] + [x] + keys[j + 1..];
  }

  /** Because the date texts are canonical, string order of the group keys is
      chronological order of the days. */
  lemma GroupsChronological(events: seq<Event>, i: int, j: int)
    requires var g := GroupByDate(events);
      0 <= i < j < |g| && ParseDate(g[i].date).Some? && ParseDate(g[j].date).Some?
    ensures var g := GroupByDate(events);
      Before(ParseDate(g[i].date).value, ParseDate(g[j].date).value)
  {
    var g := GroupByDate(events);
    GroupsInStringOrder(events);
    FormatParse(g[i].date);
    FormatParse(g[j].date);
    FormatOrder(ParseDate(g[i].date).value, ParseDate(g[j].date).value);
  }

  /** Within a day's group, the agenda order is kept: all-day events first, then by
      start time. */
  lemma GroupKeepsAgendaOrder(events: seq<Event>, start: Date, k: int)
    requires 0 <= k < |GroupByDate(AgendaEvents(events, start))|
    ensures var grp := GroupByDate(AgendaEvents(events, start))[k].events;
      forall i, j :: 0 <= i < j < |grp| ==>
        (IsTimed(grp[i]) ==> IsTimed(grp[j]) && Start(grp[i]) <= Start(grp[j]))
  {
    var r := AgendaEvents(events, start);
    var keys := GroupKeys(r);
    var day := keys[k];
    var grp := OnDate(r, day);
    assert GroupByDate(r)[k].events == grp;
    AgendaEventsSorted(events, start);
    OnDateSubsequence(r, day);
    SubsequenceSorted(grp, r, AgendaOrder());
    forall i, j | 0 <= i < j < |grp|
      ensures IsTimed(grp[i]) ==> IsTimed(grp[j]) && Start(grp[i]) <= Start(grp[j])
    {
      assert grp[i] in grp && grp[j] in grp;
      assert grp[i].date == day && grp[j].date == day;
      assert AgendaOrder()(grp[i], grp[j]);
    }
  }

  lemma {:induction false} OnDateSubsequence(events: seq<Event>, day: string)
    ensures Subsequence(OnDate(events, day), events)
  {
    if |events| > 0 {
      var e, rest := events[0], events[1..];
      OnDateSubsequence(rest, day);
      if e.date == day {
        var a := OnDate(events, day);
        assert a == [e] + OnDate(rest, day);
        assert a[0] == e && a[1..] == OnDate(rest, day);
      } else {
        assert OnDate(events, day) == OnDate(rest, day);
        SubsequenceWeaken(OnDate(rest, day), events);
      }
    }
  }

  lemma SubsequenceWeaken(a: seq<Event>, b: seq<Event>)
    requires |b| > 0 && Subsequence(a, b[1..])
    ensures Subsequence(a, b)
  {
  }

  /** A subsequence of a sorted list is sorted. */
  lemma {:induction false} SubsequenceSorted(a: seq<Event>, b: seq<Event>, le: (Event, Event) -> bool)
    requires Subsequence(a, b) && Sorted(b, le)
    ensures Sorted(a, le)
    decreases |b|
  {
    if |a| > 0 {
      assert |b| > 0;
      assert Sorted(b[1..], le) by {
        forall i, j | 0 <= i < j < |b[1..]| ensures le(b[1..][i], b[1..][j]) {
          assert b[1..][i] == b[i + 1] && b[1..][j] == b[j + 1];
        }
      }
      if a[0] == b[0] && Subsequence(a[1..], b[1..]) {
        SubsequenceSorted(a[1..], b[1..], le);
        SubsequenceMembers(a[1..], b[1..]);
        forall i, j | 0 <= i < j < |a|
          ensures le(a[i], a[j])
        {
          if i == 0 {
            assert a[j] == a[1..][j - 1] && a[j] in a[1..];
            var m :| 0 <= m < |b[1..]| && b[1..][m] == a[j];
            assert le(b[0], b[m + 1]);
          } else {
            assert a[i] == a[1..][i - 1] && a[j] == a[1..][j - 1];
          }
        }
      } else {
        SubsequenceSorted(a, b[1..], le);
      }
    }
  }

  lemma {:induction false} SubsequenceMembers(a: seq<Event>, b: seq<Event>)
    requires Subsequence(a, b)
    ensures forall x :: x in a ==> x in b
    decreases |b|
  {
    if |a| > 0 {
      if a[0] == b[0] && Subsequence(a[1..], b[1..]) {
        SubsequenceMembers(a[1..], b[1..]);
        assert a == [a[0]] + a[1..];
      } else {
        SubsequenceMembers(a, b[1..]);
      }
    }
  }

  // ----- display -----

  /** The first line under a title: its time or "All day". */
  function WhenText(e: Event): (s: string)
    ensures s == "All day" <==> !IsTimed(e)
    ensures IsTimed(e) ==> s == GetEventTime(e)
  {
    if IsTimed(e) then GetEventTime(e) else "All day"
  }

  /** The duration suffix, written only for a timed event with a duration. */
  function DurationText(e: Event): (s: string)
    ensures s != "" <==> IsTimed(e) && e.duration != ""
    ensures s != "" ==> |s| >= 3 && s[..3] == " • " && s[3..] == e.duration
  {
    if e.duration != "" && IsTimed(e) then " • " + e.duration else ""
  }
}

=== FILE: app.dfy ===
/** The calendar's top-level state and its handlers: navigation between months,
    weeks and days, opening the create form, creating, toggling, deleting, dragging
    and showing conflict details. `Date.now()` is the parameter `now`; the tooltip's
    screen position is not modelled. */
module App {
  import opened Dates
  import opened DateText
  import opened Events
  import opened EventList
  import opened Conflicts
  import opened Wrappers

  datatype View = Month | Week | Day | Agenda

  /** `handleNext`: a month, a week or a day later; the agenda does not move. */
  function Next(view: View, d: Date): (r: Date)
    requires Valid(d)
    ensures Valid(r)
    ensures view == Day ==> r == NextDay(d)
    ensures view == Week ==> r == AddDays(d, 7) && Before(d, r)
    ensures view == Month ==> (MonthIndex(r) == MonthIndex(d) + 1
      && r.day == Min(d.day, DaysInMonth(r.year, r.month)))
    ensures view == Agenda ==> r == d
  {
    match view
    case Month => AddMonths(d, 1)
    case Week => AddDays(d, 7)
    case Day => AddDays(d, 1)
    case Agenda => d
  }

  /** `handlePrev`, the mirror image. */
  function Prev(view: View, d: Date): (r: Date)
    requires Valid(d)
    ensures Valid(r)
    ensures view == Day ==> r == PrevDay(d)
    ensures view == Week ==> r == AddDays(d, -7) && Before(r, d)
    ensures view == Month ==> (MonthIndex(r) == MonthIndex(d) - 1
      && r.day == Min(d.day, DaysInMonth(r.year, r.month)))
    ensures view == Agenda ==> r == d
  {
    match view
    case Month => AddMonths(d, -1)
    case Week => AddDays(d, -7)
    case Day => AddDays(d, -1)
    case Agenda => d
  }

  /** In the Day and Week views, and the agenda, Next then Prev (or Prev then Next)
      returns to the date. */
  lemma PrevUndoesNext(view: View, d: Date)
    requires Valid(d) && view != Month
    ensures Prev(view, Next(view, d)) == d && Next(view, Prev(view, d)) == d
  {
    match view
    case Week =>
      AddDaysInverse(d, 7);
      AddDaysInverse(d, -7);
    case Day =>
      AddDaysInverse(d, 1);
      AddDaysInverse(d, -1);
    case Agenda =>
  }

  /** In the Month view it does too, unless the day had to be clamped. */
  lemma MonthPrevUndoesNext(d: Date)
    requires Valid(d) && d.day <= 28
    ensures Prev(Month, Next(Month, d)) == d && Next(Month, Prev(Month, d)) == d
  {
    AddMonthsInverse(d, 1);
    AddMonthsInverse(d, -1);
  }

  /** The tooltip's visibility and event. */
  datatype Tooltip = Tooltip(visible: bool, event: Option<Event>)

  const HiddenTooltip := Tooltip(false, None)

  /** What the conflict warning shows: the event and the events it conflicts with. */
  datatype ConflictInfo = ConflictInfo(event: Event, conflictingEvents: seq<Event>)

  datatype State = State(
    currentDate: Date,
    view: View,
    events: seq<Event>,
    newEvent: Draft,
    showEventModal: bool,
    selectedEvent: Option<Event>,
    showEventPopup: bool,
    tooltip: Tooltip,
    conflictInfo: Option<ConflictInfo>,
    showConflictWarning: bool,
    draggedEvent: Option<Event>)

  /** The dates the handlers can format. */
  predicate Formattable(d: Date)
  {
    Valid(d) && FourDigitYear(d)
  }

  function HandleNext(s: State): (r: State)
    requires Valid(s.currentDate)
    ensures r.currentDate == Next(s.view, s.currentDate)
    ensures r.(currentDate := s.currentDate) == s
  {
    s.(currentDate := Next(s.view, s.currentDate))
  }

  function HandlePrev(s: State): (r: State)
    requires Valid(s.currentDate)
    ensures r.currentDate == Prev(s.view, s.currentDate)
    ensures r.(currentDate := s.currentDate) == s
  {
    s.(currentDate := Prev(s.view, s.currentDate))
  }

  /** `handleOpenModal(date, skipModal)`: the date always becomes the current date;
      unless `skipModal`, the form takes the date and opens. */
  function HandleOpenModal(s: State, date: Date, skipModal: bool): (r: State)
    requires Formattable(date)
    ensures r.currentDate == date
    ensures r.showEventModal <==> s.showEventModal || !skipModal
    ensures r.newEvent == (if skipModal then s.newEvent else s.newEvent.(date := Format(date)))
    ensures r.(currentDate := s.currentDate, newEvent := s.newEvent, showEventModal := s.showEventModal) == s
  {
    var r := s.(currentDate := date);
    if skipModal then r else r.(newEvent := r.newEvent.(date := Format(date)), showEventModal := true)
  }

  /** The single-file calendar's `handleOpenModal(date)`: the form takes the date and
      opens, and the current date stays. */
  function SingleFileOpenModal(s: State, date: Date): (r: State)
    requires Formattable(date)
    ensures r.newEvent.date == Format(date) && r.showEventModal
    ensures r.(newEvent := s.newEvent, showEventModal := s.showEventModal) == s
  {
    s.(newEvent := s.newEvent.(date := Format(date)), showEventModal := true)
  }

  /** The two versions differ only in whether the current date follows the click. */
  lemma OpenModalVersionsAgree(s: State, date: Date)
    requires Formattable(date)
    ensures HandleOpenModal(s, date, false) == SingleFileOpenModal(s, date).(currentDate := date)
  {
  }

  /** `handleCloseModal`. */
  function HandleCloseModal(s: State): (r: State)
    ensures !r.showEventModal && r.(showEventModal := s.showEventModal) == s
  {
    s.(showEventModal := false)
  }

  /** `handleCreateEvent` with `Date.now()` = `now`: the form's event is appended
      under that id, the form closes and is reset to a blank one on the current
      date. Both copies of the calendar do this. */
  function HandleCreateEvent(s: State, now: int): (r: State)
    requires Formattable(s.currentDate)
    ensures r.events == Append(s.events, s.newEvent, NumId(now))
    ensures !r.showEventModal && r.newEvent == DefaultDraft(Format(s.currentDate))
    ensures r.(events := s.events, showEventModal := s.showEventModal, newEvent := s.newEvent) == s
  {
    s.(events := Append(s.events, s.newEvent, NumId(now)), showEventModal := false,
       newEvent := DefaultDraft(Format(s.currentDate)))
  }

  /** Clicking a day and creating the event puts a new event on that day at the end
      of the list, and leaves a blank form on that day. */
  lemma OpenThenCreate(s: State, date: Date, now: int)
    requires Formattable(date)
    ensures var r := HandleCreateEvent(HandleOpenModal(s, date, false), now);
      |r.events| == |s.events| + 1 && r.events[..|s.events|] == s.events
      && r.events[|s.events|].date == Format(date) && r.events[|s.events|].id == NumId(now)
      && r.newEvent == DefaultDraft(Format(date)) && !r.showEventModal
  {
  }

  /** `toggleEventCompletion(id)`. */
  function HandleToggle(s: State, id: Id): (r: State)
    ensures r.events == Toggle(s.events, id) && r.(events := s.events) == s
  {
    s.(events := Toggle(s.events, id))
  }

  /** Toggling the same event twice restores the state. */
  lemma HandleToggleInvolution(s: State, id: Id)
    ensures HandleToggle(HandleToggle(s, id), id) == s
  {
    ToggleInvolution(s.events, id);
  }

  /** `deleteEvent(id)`: the events with that id go, and the popup, the selection and
      the tooltip are cleared. */
  function HandleDelete(s: State, id: Id): (r: State)
    ensures r.events == Delete(s.events, id)
    ensures !r.showEventPopup && r.selectedEvent.None? && r.tooltip == HiddenTooltip
    ensures r.(events := s.events, showEventPopup := s.showEventPopup,
      selectedEvent := s.selectedEvent, tooltip := s.tooltip) == s
  {
    s.(events := Delete(s.events, id), showEventPopup := false, selectedEvent := None,
       tooltip := HiddenTooltip)
  }

  /** The single-file calendar's `deleteEvent` only filters the list. */
  function SingleFileDelete(s: State, id: Id): (r: State)
    ensures r.events == Delete(s.events, id) && r.(events := s.events) == s
  {
    s.(events := Delete(s.events, id))
  }

  /** Creating an event and deleting it at once restores the list. */
  lemma CreateThenDelete(s: State, now: int)
    requires Formattable(s.currentDate)
    requires forall e :: e in s.events ==> e.id != NumId(now)
    ensures HandleDelete(HandleCreateEvent(s, now), NumId(now)).events == s.events
  {
    DeleteUndoesAppend(s.events, s.newEvent, NumId(now));
  }

  /** `showConflictDetails(event, conflicts)`. */
  function HandleShowConflictDetails(s: State, event: Event, conflicts: ConflictRecord): (r: State)
    ensures r.showConflictWarning
    ensures r.conflictInfo == Some(ConflictInfo(event, ConflictingEvents(s.events, conflicts.conflictIds)))
    ensures r.(conflictInfo := s.conflictInfo, showConflictWarning := s.showConflictWarning) == s
  {
    s.(conflictInfo := Some(ConflictInfo(event, ConflictingEvents(s.events, conflicts.conflictIds))),
       showConflictWarning := true)
  }

  /** For a row of the conflict report, the warning lists exactly the other timed
      events clashing with the row's event (with distinct id strings). */
  lemma ConflictWarningExact(s: State, rec: ConflictRecord, b: Event)
    requires UniqueKeys(s.events) && rec in DetectEventConflicts(s.events)
    ensures var r := HandleShowConflictDetails(s, rec.event, rec);
      b in r.conflictInfo.value.conflictingEvents <==>
        b in s.events && IsTimed(b) && b != rec.event && Clash(rec.event, b)
  {
    ConflictDetailsExact(s.events, rec, b);
  }

  /** `handleDragStart`: the event whose id string is the dragged id. */
  function HandleDragStart(s: State, activeId: string): (r: State)
    ensures r.draggedEvent == FindByKey(s.events, activeId) && r.(draggedEvent := s.draggedEvent) == s
  {
    s.(draggedEvent := FindByKey(s.events, activeId))
  }

  /** `handleDragEnd`: the list update, then no event is being dragged. */
  function HandleDragEnd(s: State, activeId: string, overId: Option<string>): (r: State)
    ensures r.events == DragEnd(s.events, activeId, overId) && r.draggedEvent.None?
    ensures r.(events := s.events, draggedEvent := s.draggedEvent) == s
  {
    s.(events := DragEnd(s.events, activeId, overId), draggedEvent := None)
  }

  /** A drag that starts on an event and ends on another day moves that event there. */
  lemma DragMovesTheDraggedEvent(s: State, activeId: string, target: string)
    requires target != activeId
    requires HandleDragStart(s, activeId).draggedEvent.Some?
    ensures var e := HandleDragStart(s, activeId).draggedEvent.value;
      var r := HandleDragEnd(HandleDragStart(s, activeId), activeId, Some(target));
      e in s.events && exists i :: 0 <= i < |r.events| && s.events[i] == e && r.events[i] == e.(date := target)
  {
    var e := HandleDragStart(s, activeId).draggedEvent.value;
    var i :| 0 <= i < |s.events| && s.events[i] == e;
    DragEndLandsOnTarget(s.events, activeId, target);
    var r := HandleDragEnd(HandleDragStart(s, activeId), activeId, Some(target));
    assert r.events[i] == e.(date := target);
  }

  /** `handleEventClick`: select the event and open its popup. */
  function HandleEventClick(s: State, event: Event): (r: State)
    ensures r.selectedEvent == Some(event) && r.showEventPopup
    ensures r.(selectedEvent := s.selectedEvent, showEventPopup := s.showEventPopup) == s
  {
    s.(selectedEvent := Some(event), showEventPopup := true)
  }
}

=== FILE: clock.dfy ===
/** The "HH:MM" 24-hour time of day carried by a timed event, and how the views read it:
    `time.split(":").map(Number)` gives the hour and minute, and two times are compared
    as strings when the overlap layout orders the events of a group. */
module Clock {
  import opened Text

  predicate IsClock(s: string)
  {
    && |s| == 5
    && IsDigit(s[0]) && IsDigit(s[1]) && s[2] == ':' && IsDigit(s[3]) && IsDigit(s[4])
    && DigitOf(s[0]) * 10 + DigitOf(s[1]) <= 23
    && DigitOf(s[3]) * 10 + DigitOf(s[4]) <= 59
  }

  /** A zero-padded 24-hour time of day such as "09:05". */
  type Clock = s: string | IsClock(s) witness "00:00"

  /** `Number(hh)` of the text before the colon. */
  function Hour(t: Clock): (h: nat)
    ensures h <= 23
  {
    TwoDigits(t[0], t[1])
  }

  /** `Number(mm)` of the text after the colon. */
  function Minute(t: Clock): (m: nat)
    ensures m <= 59
  {
    TwoDigits(t[3], t[4])
  }

  /** `Number` of a two-character digit string. */
  function TwoDigits(a: char, b: char): (n: nat)
    requires IsDigit(a) && IsDigit(b)
    ensures n == DigitOf(a) * 10 + DigitOf(b)
  {
    assert [a, b][..1] == [a] && [a][..0] == [];
    assert DigitsValue([a]) == DigitOf(a);
    DigitsValue([a, b])
  }

  /** Minutes since midnight, `hour * 60 + minute`. */
  function MinuteOfDay(t: Clock): (m: nat)
    ensures m < 24 * 60
    ensures m / 60 == Hour(t) && m % 60 == Minute(t)
  {
    Hour(t) * 60 + Minute(t)
  }

  /** The time of day with the given hour and minute, zero-padded. */
  function MakeClock(h: nat, m: nat): (t: Clock)
    requires h <= 23 && m <= 59
    ensures Hour(t) == h && Minute(t) == m
  {
    [DigitChar(h / 10), DigitChar(h % 10), ':', DigitChar(m / 10), DigitChar(m % 10)]
  }

  /** A time of day is determined by its minute of the day. */
  lemma MinuteOfDayInjective(a: Clock, b: Clock)
    requires MinuteOfDay(a) == MinuteOfDay(b)
    ensures a == b
  {
    assert Hour(a) == Hour(b) && Minute(a) == Minute(b);
    assert DigitOf(a[0]) == DigitOf(b[0]) && DigitOf(a[1]) == DigitOf(b[1]);
    assert DigitOf(a[3]) == DigitOf(b[3]) && DigitOf(a[4]) == DigitOf(b[4]);
  }

  /** Comparing two digits as characters is comparing their values. */
  lemma DigitCharOrder(a: char, b: char)
    requires IsDigit(a) && IsDigit(b)
    ensures a < b <==> DigitOf(a) < DigitOf(b)
    ensures a == b <==> DigitOf(a) == DigitOf(b)
  {
  }

  /** Because both strings are zero-padded "HH:MM", JavaScript's string comparison
      `a <= b` orders two times of day exactly as their minutes since midnight. */
  lemma {:induction false} ClockStringOrder(a: Clock, b: Clock)
    ensures LexLe(a, b) <==> MinuteOfDay(a) <= MinuteOfDay(b)
  {
    DigitCharOrder(a[0], b[0]);
    DigitCharOrder(a[1], b[1]);
    DigitCharOrder(a[3], b[3]);
    DigitCharOrder(a[4], b[4]);
    assert a[1..][1..][1..][1..][1..] == [] && b[1..][1..][1..][1..][1..] == [];
    assert LexLe(a[1..][1..][1..][1..], b[1..][1..][1..][1..])
      <==> a[4] <= b[4];
    assert LexLe(a[1..][1..][1..], b[1..][1..][1..])
      <==> a[3] < b[3] || (a[3] == b[3] && a[4] <= b[4]);
    assert LexLe(a[1..][1..], b[1..][1..])
      <==> a[3] < b[3] || (a[3] == b[3] && a[4] <= b[4]);
    assert LexLe(a[1..], b[1..])
      <==> a[1] < b[1] || (a[1] == b[1] && (a[3] < b[3] || (a[3] == b[3] && a[4] <= b[4])));
  }
}

=== FILE: conflicts.dfy ===
/** `detectEventConflicts`: the pairwise conflict report used by the Day view's
    highlight, the event details badge, the edit modal's warning and the draggable
    event chip.

    First pass: the timed events are filed in a map under `id.toString()`, the first
    event of each key winning. Second pass: every pair of entries `i < j` in map order
    with equal `date` strings is put to the three-clause test with entry `i` first; a
    hit adds each key to the other's conflict set. The result lists, in map order,
    the entries whose set is not empty, with the set's size and contents. */
module Conflicts {
  import opened Text
  import opened Events
  import opened Overlap
  import opened Wrappers

  /** Event `k` is the first timed event of its key, and that key is not in `seen`. */
  predicate FirstNew(events: seq<Event>, seen: set<string>, k: int)
    requires 0 <= k < |events|
  {
    && IsTimed(events[k])
    && Key(events[k].id) !in seen
    && forall m :: 0 <= m < k ==> !(IsTimed(events[m]) && Key(events[m].id) == Key(events[k].id))
  }

  /** The first pass, continuing after the keys in `seen` have been filed: the map's
      values in insertion order. */
  function FirstPerKey(events: seq<Event>, seen: set<string>): (r: seq<Event>)
    ensures forall e :: e in r ==> e in events && IsTimed(e) && Key(e.id) !in seen
    ensures forall i, j :: 0 <= i < j < |r| ==> Key(r[i].id) != Key(r[j].id)
  {
    if |events| == 0 then []
    else
      var e := events[0];
      if IsTimed(e) && Key(e.id) !in seen then [e] + FirstPerKey(events[1..], seen + {Key(e.id)})
      else FirstPerKey(events[1..], seen)
  }

  /** The map built by the first pass: exactly the timed events that are the first of
      their key. */
  function Entries(events: seq<Event>): seq<Event>
  {
    FirstPerKey(events, {})
  }

  /** The first pass keeps an event exactly when it is the first timed event of a key
      not already filed. */
  lemma {:induction false} FirstPerKeySpec(events: seq<Event>, seen: set<string>)
    ensures forall e :: e in FirstPerKey(events, seen) <==>
      exists k :: 0 <= k < |events| && events[k] == e && FirstNew(events, seen, k)
  {
    if |events| > 0 {
      var e, rest := events[0], events[1..];
      var seen' := if IsTimed(e) && Key(e.id) !in seen then seen + {Key(e.id)} else seen;
      FirstPerKeySpec(rest, seen');
      forall k | 1 <= k < |events|
        ensures FirstNew(events, seen, k) <==> FirstNew(rest, seen', k - 1)
      {
        assert events[k] == rest[k - 1];
        if FirstNew(rest, seen', k - 1) {
          forall m | 0 <= m < k
            ensures !(IsTimed(events[m]) && Key(events[m].id) == Key(events[k].id))
          {
            if m > 0 {
              assert events[m] == rest[m - 1];
            }
          }
        }
        if FirstNew(events, seen, k) {
          forall m | 0 <= m < k - 1
            ensures !(IsTimed(rest[m]) && Key(rest[m].id) == Key(rest[k - 1].id))
          {
            assert rest[m] == events[m + 1];
          }
        }
      }
      forall f
        ensures f in FirstPerKey(events, seen) <==>
          exists k :: 0 <= k < |events| && events[k] == f && FirstNew(events, seen, k)
      {
        if f in FirstPerKey(events, seen) {
          if IsTimed(e) && Key(e.id) !in seen && f == e {
            assert events[0] == f && FirstNew(events, seen, 0);
          } else {
            var k :| 0 <= k < |rest| && rest[k] == f && FirstNew(rest, seen', k);
            assert events[k + 1] == f && FirstNew(events, seen, k + 1);
          }
        }
        if exists k :: 0 <= k < |events| && events[k] == f && FirstNew(events, seen, k) {
          var k :| 0 <= k < |events| && events[k] == f && FirstNew(events, seen, k);
          if k > 0 {
            assert rest[k - 1] == f && FirstNew(rest, seen', k - 1);
          }
        }
      }
    }
  }

  /** With no key repeated among its timed events, the first pass keeps every timed
      event in order. */
  lemma {:induction false} FirstPerKeyUnique(events: seq<Event>, seen: set<string>)
    requires UniqueKeys(events)
    requires forall k :: 0 <= k < |events| ==> Key(events[k].id) !in seen
    ensures FirstPerKey(events, seen) == TimedOf(events)
  {
    if |events| > 0 {
      var e, rest := events[0], events[1..];
      var seen' := if IsTimed(e) then seen + {Key(e.id)} else seen;
      forall k | 0 <= k < |rest|
        ensures Key(rest[k].id) !in seen'
      {
        assert rest[k] == events[k + 1];
      }
      assert UniqueKeys(rest) by {
        forall i, j | 0 <= i < j < |rest|
          ensures Key(rest[i].id) != Key(rest[j].id)
        {
          assert rest[i] == events[i + 1] && rest[j] == events[j + 1];
        }
      }
      FirstPerKeyUnique(rest, seen');
    }
  }

  predicate AllTimed(es: seq<Event>)
  {
    forall k :: 0 <= k < |es| ==> IsTimed(es[k])
  }

  /** Same date string, and the three-clause test with `a` as the first interval. */
  predicate Clash(a: Event, b: Event)
    requires IsTimed(a) && IsTimed(b)
  {
    a.date == b.date && ThreeClause(Start(a), End(a), Start(b), End(b))
  }

  /** Entries `i` and `j` are recorded as conflicting: the pair is visited once, with
      the earlier entry first. */
  predicate Hit(es: seq<Event>, i: int, j: int)
    requires AllTimed(es) && 0 <= i < |es| && 0 <= j < |es|
  {
    i != j && (if i < j then Clash(es[i], es[j]) else Clash(es[j], es[i]))
  }

  /** The conflict keys of entry `i` among entries `j..`, in the order the second pass
      adds them (increasing entry position). */
  function PartnersFrom(es: seq<Event>, i: int, j: nat): (r: seq<string>)
    requires AllTimed(es) && 0 <= i < |es| && j <= |es|
    ensures forall x :: x in r <==> exists k :: j <= k < |es| && Hit(es, i, k) && x == Key(es[k].id)
    decreases |es| - j
  {
    if j == |es| then []
    else (if Hit(es, i, j) then [Key(es[j].id)] else []) + PartnersFrom(es, i, j + 1)
  }

  /** `Array.from(data.conflicts)` for entry `i`. */
  function Partners(es: seq<Event>, i: int): seq<string>
    requires AllTimed(es) && 0 <= i < |es|
  {
    PartnersFrom(es, i, 0)
  }

  /** An output row: the event's fields, `conflictCount` and `conflictIds`. */
  datatype ConflictRecord = ConflictRecord(event: Event, conflictCount: nat, conflictIds: seq<string>)

  function RecordOf(es: seq<Event>, i: int): ConflictRecord
    requires AllTimed(es) && 0 <= i < |es|
  {
    ConflictRecord(es[i], |Partners(es, i)|, Partners(es, i))
  }

  /** The rows for entries `i..` whose conflict set is not empty, in entry order. */
  function RecordsFrom(es: seq<Event>, i: nat): (r: seq<ConflictRecord>)
    requires AllTimed(es) && i <= |es|
    ensures forall rec :: rec in r <==>
      exists k :: i <= k < |es| && |Partners(es, k)| > 0 && rec == RecordOf(es, k)
    decreases |es| - i
  {
    if i == |es| then []
    else (if |Partners(es, i)| > 0 then [RecordOf(es, i)] else []) + RecordsFrom(es, i + 1)
  }

  /** `detectEventConflicts(events)`. */
  function DetectEventConflicts(events: seq<Event>): seq<ConflictRecord>
  {
    var es := Entries(events);
    assert AllTimed(es) by {
      forall k | 0 <= k < |es| ensures IsTimed(es[k]) { assert es[k] in es; }
    }
    RecordsFrom(es, 0)
  }

  lemma EntriesTimed(events: seq<Event>)
    ensures AllTimed(Entries(events))
  {
    var es := Entries(events);
    forall k | 0 <= k < |es| ensures IsTimed(es[k]) { assert es[k] in es; }
  }

  /** Every output row belongs to an entry with a non-empty conflict set. */
  lemma RecordIsEntry(events: seq<Event>, rec: ConflictRecord)
    requires rec in DetectEventConflicts(events)
    ensures AllTimed(Entries(events))
    ensures exists k :: (0 <= k < |Entries(events)| && |Partners(Entries(events), k)| > 0
      && rec == RecordOf(Entries(events), k))
  {
    EntriesTimed(events);
  }

  /** Keys of distinct entries differ, so no key is added twice to one set and the
      entry's own key is never added: the list is duplicate-free and without self. */
  lemma {:induction false} PartnersFromDistinct(es: seq<Event>, i: int, j: nat)
    requires AllTimed(es) && 0 <= i < |es| && j <= |es|
    requires forall a, b :: 0 <= a < b < |es| ==> Key(es[a].id) != Key(es[b].id)
    ensures Key(es[i].id) !in PartnersFrom(es, i, j)
    ensures forall a, b :: 0 <= a < b < |PartnersFrom(es, i, j)| ==>
      PartnersFrom(es, i, j)[a] != PartnersFrom(es, i, j)[b]
    decreases |es| - j
  {
    if j < |es| {
      PartnersFromDistinct(es, i, j + 1);
      var rest := PartnersFrom(es, i, j + 1);
      if Hit(es, i, j) {
        assert Key(es[j].id) !in rest;
        assert PartnersFrom(es, i, j) == [Key(es[j].id)] + rest;
      }
    }
  }

  /** Each row is a timed event of the input, its `conflictCount` is the number of
      distinct ids in `conflictIds` and at least one, and the event's own key is not
      among them. */
  lemma DetectRecordShape(events: seq<Event>, rec: ConflictRecord)
    requires rec in DetectEventConflicts(events)
    ensures rec.event in events && IsTimed(rec.event)
    ensures rec.conflictCount == |rec.conflictIds| >= 1
    ensures Key(rec.event.id) !in rec.conflictIds
    ensures forall a, b :: 0 <= a < b < |rec.conflictIds| ==> rec.conflictIds[a] != rec.conflictIds[b]
  {
    RecordIsEntry(events, rec);
    var es := Entries(events);
    var k :| 0 <= k < |es| && |Partners(es, k)| > 0 && rec == RecordOf(es, k);
    assert es[k] in es;
    PartnersFromDistinct(es, k, 0);
  }

  /** An all-day event is never reported. */
  lemma DetectSkipsUntimed(events: seq<Event>, e: Event)
    requires !IsTimed(e)
    ensures forall rec :: rec in DetectEventConflicts(events) ==> rec.event != e
  {
    forall rec | rec in DetectEventConflicts(events)
      ensures rec.event != e
    {
      DetectRecordShape(events, rec);
    }
  }

  /** The entry holding a key, when there is one. */
  lemma EntryOfKey(es: seq<Event>, x: string, a: int, b: int)
    requires forall p, q :: 0 <= p < q < |es| ==> Key(es[p].id) != Key(es[q].id)
    requires 0 <= a < |es| && 0 <= b < |es| && Key(es[a].id) == x && Key(es[b].id) == x
    ensures a == b
  {
  }

  /** Conflicts are symmetric: when one row lists a key, the row of that key lists the
      first row's key back, and both events fall on the same date. */
  lemma DetectSymmetric(events: seq<Event>, rec: ConflictRecord, x: string)
    requires rec in DetectEventConflicts(events) && x in rec.conflictIds
    ensures exists rec2 :: (rec2 in DetectEventConflicts(events) && Key(rec2.event.id) == x
      && Key(rec.event.id) in rec2.conflictIds && rec2.event.date == rec.event.date)
  {
    RecordIsEntry(events, rec);
    var es := Entries(events);
    var i :| 0 <= i < |es| && |Partners(es, i)| > 0 && rec == RecordOf(es, i);
    var j :| 0 <= j < |es| && Hit(es, i, j) && x == Key(es[j].id);
    HitBack(es, i, j);
    var rec2 := RecordOf(es, j);
    assert rec2.event == es[j] && rec.event == es[i];
  }

  /** A hit from entry `i` to entry `j` gives `j` a row that lists `i`'s key, and the
      two entries share a date. */
  lemma HitBack(es: seq<Event>, i: int, j: int)
    requires AllTimed(es) && 0 <= i < |es| && 0 <= j < |es| && Hit(es, i, j)
    ensures Key(es[i].id) in Partners(es, j) && es[i].date == es[j].date
    ensures RecordOf(es, j) in RecordsFrom(es, 0)
  {
    assert Hit(es, j, i);
  }

  /** A conflict between two different entries, in either orientation of the test. */
  lemma HitIsClash(es: seq<Event>, i: int, j: int)
    requires AllTimed(es) && 0 <= i < |es| && 0 <= j < |es| && i != j
    ensures Hit(es, i, j) <==> Clash(es[i], es[j])
  {
    ThreeClauseSymmetric(Start(es[i]), End(es[i]), Start(es[j]), End(es[j]));
  }

  /** Between distinct entries, a key is in the partner list exactly when the test
      hits. */
  lemma PartnerIff(es: seq<Event>, i: int, j: int)
    requires AllTimed(es) && 0 <= i < |es| && 0 <= j < |es| && i != j
    requires forall p, q :: 0 <= p < q < |es| ==> Key(es[p].id) != Key(es[q].id)
    ensures Key(es[j].id) in Partners(es, i) <==> Clash(es[i], es[j])
  {
    HitIsClash(es, i, j);
    if Key(es[j].id) in Partners(es, i) {
      var m :| 0 <= m < |es| && Hit(es, i, m) && Key(es[j].id) == Key(es[m].id);
      EntryOfKey(es, Key(es[j].id), j, m);
    }
  }

  /** The row of an entry, when the entry has one. */
  lemma RowOfEntry(es: seq<Event>, i: int, rec: ConflictRecord)
    requires AllTimed(es) && 0 <= i < |es|
    requires forall p, q :: 0 <= p < q < |es| ==> Key(es[p].id) != Key(es[q].id)
    requires rec in RecordsFrom(es, 0) && rec.event == es[i]
    ensures rec == RecordOf(es, i)
  {
    var k :| 0 <= k < |es| && |Partners(es, k)| > 0 && rec == RecordOf(es, k);
    EntryOfKey(es, Key(es[i].id), i, k);
  }

  /** With every id string distinct, the report is exact: a timed event's row lists
      another timed event's key iff the two share a date and pass the three-clause
      test (in either order: the test is symmetric here). */
  lemma DetectExact(events: seq<Event>, a: Event, b: Event)
    requires UniqueKeys(events)
    requires a in events && b in events && IsTimed(a) && IsTimed(b) && a != b
    ensures (exists rec :: rec in DetectEventConflicts(events) && rec.event == a && Key(b.id) in rec.conflictIds)
      <==> Clash(a, b)
  {
    if Clash(a, b) {
      ClashIsReported(events, a, b);
    }
    if exists rec :: rec in DetectEventConflicts(events) && rec.event == a && Key(b.id) in rec.conflictIds {
      var rec :| rec in DetectEventConflicts(events) && rec.event == a && Key(b.id) in rec.conflictIds;
      ReportIsClash(events, a, b, rec);
    }
  }

  /** A clash between two timed events gets reported in the first one's row. */
  lemma ClashIsReported(events: seq<Event>, a: Event, b: Event)
    requires UniqueKeys(events)
    requires a in events && b in events && IsTimed(a) && IsTimed(b) && a != b && Clash(a, b)
    ensures exists rec :: rec in DetectEventConflicts(events) && rec.event == a && Key(b.id) in rec.conflictIds
  {
    FirstPerKeyUnique(events, {});
    EntriesTimed(events);
    var es := Entries(events);
    assert a in es && b in es;
    var i :| 0 <= i < |es| && es[i] == a;
    var j :| 0 <= j < |es| && es[j] == b;
    PartnerIff(es, i, j);
    EntryRowListed(es, i);
    assert RecordOf(es, i).event == a;
  }

  /** A key listed in an event's row belongs to an event that clashes with it. */
  lemma ReportIsClash(events: seq<Event>, a: Event, b: Event, rec: ConflictRecord)
    requires UniqueKeys(events)
    requires a in events && b in events && IsTimed(a) && IsTimed(b) && a != b
    requires rec in DetectEventConflicts(events) && rec.event == a && Key(b.id) in rec.conflictIds
    ensures Clash(a, b)
  {
    FirstPerKeyUnique(events, {});
    EntriesTimed(events);
    var es := Entries(events);
    assert a in es && b in es;
    var i :| 0 <= i < |es| && es[i] == a;
    var j :| 0 <= j < |es| && es[j] == b;
    PartnerIff(es, i, j);
    RowOfEntry(es, i, rec);
  }

  /** An entry with a partner has its row in the report. */
  lemma EntryRowListed(es: seq<Event>, i: int)
    requires AllTimed(es) && 0 <= i < |es| && |Partners(es, i)| > 0
    ensures RecordOf(es, i) in RecordsFrom(es, 0)
  {
  }

  /** An event has at most one row. */
  lemma DetectRowUnique(events: seq<Event>, r1: ConflictRecord, r2: ConflictRecord)
    requires r1 in DetectEventConflicts(events) && r2 in DetectEventConflicts(events)
    requires r1.event == r2.event
    ensures r1 == r2
  {
    RecordIsEntry(events, r1);
    RecordIsEntry(events, r2);
    var es := Entries(events);
    var k1 :| 0 <= k1 < |es| && |Partners(es, k1)| > 0 && r1 == RecordOf(es, k1);
    var k2 :| 0 <= k2 < |es| && |Partners(es, k2)| > 0 && r2 == RecordOf(es, k2);
    EntryOfKey(es, Key(r1.event.id), k1, k2);
  }

  /** `records.find(e => e.id === id)`. */
  function FindById(records: seq<ConflictRecord>, id: Id): (r: Option<ConflictRecord>)
    ensures r.Some? ==> r.value in records && r.value.event.id == id
    ensures r.None? <==> forall rec :: rec in records ==> rec.event.id != id
  {
    if |records| == 0 then None
    else if records[0].event.id == id then Some(records[0])
    else FindById(records[1..], id)
  }

  /** The Day view's and the details modal's `conflicts && conflicts.conflictCount > 0`. */
  predicate HasConflicts(events: seq<Event>, e: Event)
  {
    var found := FindById(DetectEventConflicts(events), e.id);
    found.Some? && found.value.conflictCount > 0
  }

  /** With distinct id strings, a timed event is flagged exactly when another timed
      event of the list shares its date and passes the test with it. */
  lemma HasConflictsExact(events: seq<Event>, e: Event)
    requires UniqueKeys(events) && e in events && IsTimed(e)
    ensures HasConflicts(events, e) <==>
      exists b :: b in events && IsTimed(b) && b != e && Clash(e, b)
  {
    var out := DetectEventConflicts(events);
    var found := FindById(out, e.id);
    if found.Some? {
      var rec := found.value;
      DetectRecordShape(events, rec);
      UniqueKeysSameId(events, rec.event, e);
      var x := rec.conflictIds[0];
      DetectSymmetric(events, rec, x);
      var rec2 :| rec2 in out && Key(rec2.event.id) == x && Key(rec.event.id) in rec2.conflictIds
        && rec2.event.date == rec.event.date;
      DetectRecordShape(events, rec2);
      var b := rec2.event;
      assert b != e;
      DetectExact(events, e, b);
    }
    if exists b :: b in events && IsTimed(b) && b != e && Clash(e, b) {
      var b :| b in events && IsTimed(b) && b != e && Clash(e, b);
      DetectExact(events, e, b);
      var rec :| rec in out && rec.event == e && Key(b.id) in rec.conflictIds;
      DetectRecordShape(events, rec);
      assert found.Some?;
      DetectRecordShape(events, found.value);
      UniqueKeysSameId(events, found.value.event, e);
    }
  }
}

=== FILE: datepicker.dfy ===
/** The header's date picker: a days view (a 42-cell grid of the viewed month padded
    with the tail of the previous month and the head of the next), a months view and
    a years view (twelve years from the start of a decade), the prev/next arrows of
    each, and the header click that climbs from days to months to years. The weekday
    of the first of the month is a parameter. */
module DatePicker {
  import opened Dates

  datatype Mode = Days | Months | Years

  /** `viewMode`, `viewDate` and `decadeStart`. */
  datatype Picker = Picker(mode: Mode, viewDate: Date, decadeStart: int)

  /** `Math.floor(year / 10) * 10`; Dafny's division by a positive number floors. */
  function DecadeStart(year: int): (d: int)
    ensures d % 10 == 0 && d <= year < d + 10
  {
    (year / 10) * 10
  }

  /** There is exactly one such decade start: any multiple of ten within nine below
      the year is the one computed. */
  lemma DecadeStartUnique(year: int, d: int)
    requires d % 10 == 0 && d <= year < d + 10
    ensures d == DecadeStart(year)
  {
    var e := DecadeStart(year);
    assert (d - e) % 10 == 0;
    assert -10 < d - e < 10;
  }

  /** The initial state for the calendar's current date. */
  function Init(currentDate: Date): (p: Picker)
    ensures p.mode == Days && p.viewDate == currentDate
    ensures p.decadeStart <= currentDate.year < p.decadeStart + 10
  {
    Picker(Days, currentDate, DecadeStart(currentDate.year))
  }

  /** Opening the picker shows the current date's month in the days view again;
      the decade is left as it was. */
  function Open(p: Picker, currentDate: Date): (r: Picker)
    ensures r.mode == Days && r.viewDate == currentDate && r.decadeStart == p.decadeStart
  {
    p.(mode := Days, viewDate := currentDate)
  }

  /** The previous month, year or decade. */
  function Prev(p: Picker): (r: Picker)
    requires Valid(p.viewDate)
    ensures Valid(r.viewDate) && r.mode == p.mode
    ensures p.mode == Days ==> r.decadeStart == p.decadeStart && MonthIndex(r.viewDate) == MonthIndex(p.viewDate) - 1
    ensures p.mode == Months ==>
      (r.decadeStart == p.decadeStart && r.viewDate.year == p.viewDate.year - 1
       && r.viewDate.month == p.viewDate.month)
    ensures p.mode == Years ==> r.viewDate == p.viewDate && r.decadeStart == p.decadeStart - 10
  {
    match p.mode
    case Days => p.(viewDate := AddMonths(p.viewDate, -1))
    case Months => p.(viewDate := AddMonths(p.viewDate, -12))
    case Years => p.(decadeStart := p.decadeStart - 10)
  }

  /** The next month, year or decade. */
  function Next(p: Picker): (r: Picker)
    requires Valid(p.viewDate)
    ensures Valid(r.viewDate) && r.mode == p.mode
    ensures p.mode == Days ==> r.decadeStart == p.decadeStart && MonthIndex(r.viewDate) == MonthIndex(p.viewDate) + 1
    ensures p.mode == Months ==>
      (r.decadeStart == p.decadeStart && r.viewDate.year == p.viewDate.year + 1
       && r.viewDate.month == p.viewDate.month)
    ensures p.mode == Years ==> r.viewDate == p.viewDate && r.decadeStart == p.decadeStart + 10
  {
    match p.mode
    case Days => p.(viewDate := AddMonths(p.viewDate, 1))
    case Months => p.(viewDate := AddMonths(p.viewDate, 12))
    case Years => p.(decadeStart := p.decadeStart + 10)
  }

  /** In the years view the arrows undo each other. In the other views they do too
      unless a day past the 28th was clamped on the way. */
  lemma PrevNextInverse(p: Picker)
    requires Valid(p.viewDate) && (p.mode == Years || p.viewDate.day <= 28)
    ensures Prev(Next(p)) == p && Next(Prev(p)) == p
  {
    if p.mode == Days {
      AddMonthsInverse(p.viewDate, 1);
      AddMonthsInverse(p.viewDate, -1);
    } else if p.mode == Months {
      AddMonthsInverse(p.viewDate, 12);
      AddMonthsInverse(p.viewDate, -12);
    }
  }

  /** The header click: days to months, months to years (showing the decade of the
      viewed year), and nothing in the years view. */
  function HeaderClick(p: Picker): (r: Picker)
    ensures r.viewDate == p.viewDate
    ensures p.mode == Days ==> r == p.(mode := Months)
    ensures p.mode == Months ==>
      (r.mode == Years && r.decadeStart <= p.viewDate.year < r.decadeStart + 10)
    ensures p.mode == Years ==> r == p
  {
    match p.mode
    case Days => p.(mode := Months)
    case Months => p.(mode := Years, decadeStart := DecadeStart(p.viewDate.year))
    case Years => p
  }

  /** `date.month(m)` and `date.year(y)`: the field is set and the day is clamped to
      the new month's length. */
  function SetMonth(d: Date, month0: int): (r: Date)
    requires Valid(d) && 0 <= month0 < 12
    ensures Valid(r) && r.year == d.year && r.month == month0 + 1
    ensures r.day == Min(d.day, DaysInMonth(r.year, r.month))
  {
    Date(d.year, month0 + 1, Min(d.day, DaysInMonth(d.year, month0 + 1)))
  }

  function SetYear(d: Date, year: int): (r: Date)
    requires Valid(d)
    ensures Valid(r) && r.year == year && r.month == d.month
    ensures r.day == Min(d.day, DaysInMonth(r.year, r.month))
  {
    Date(year, d.month, Min(d.day, DaysInMonth(year, d.month)))
  }

  /** Picking a month (0-based, as the twelve buttons pass it) opens its days. */
  function MonthSelect(p: Picker, month0: int): (r: Picker)
    requires Valid(p.viewDate) && 0 <= month0 < 12
    ensures r.mode == Days && r.decadeStart == p.decadeStart
    ensures r.viewDate.year == p.viewDate.year && r.viewDate.month == month0 + 1
  {
    p.(viewDate := SetMonth(p.viewDate, month0), mode := Days)
  }

  /** Picking a year opens its months. */
  function YearSelect(p: Picker, year: int): (r: Picker)
    requires Valid(p.viewDate)
    ensures r.mode == Months && r.decadeStart == p.decadeStart
    ensures r.viewDate.year == year && r.viewDate.month == p.viewDate.month
  {
    p.(viewDate := SetYear(p.viewDate, year), mode := Months)
  }

  /** Climbing to the years view and choosing a year, then a month, lands in the
      days view of that month and year. */
  lemma ClimbAndDescend(p: Picker, year: int, month0: int)
    requires Valid(p.viewDate) && p.mode == Months && 0 <= month0 < 12
    ensures var r := MonthSelect(YearSelect(HeaderClick(p), year), month0);
      r.mode == Days && r.viewDate.year == year && r.viewDate.month == month0 + 1
  {
  }

  // ----- the years view -----

  /** One button of the years view; the two past the decade are greyed. */
  datatype YearCell = YearCell(year: int, greyed: bool)

  /** The twelve years `decadeStart .. decadeStart + 11`. */
  method YearCells(decadeStart: int) returns (cells: seq<YearCell>)
    ensures |cells| == 12
    ensures forall i :: 0 <= i < 12 ==> cells[i].year == decadeStart + i
    ensures forall i :: 0 <= i < 12 ==> (cells[i].greyed <==> i >= 10)
  {
    cells := [];
    var year := decadeStart;
    while year < decadeStart + 12
      invariant decadeStart <= year <= decadeStart + 12
      invariant |cells| == year - decadeStart
      invariant forall i :: 0 <= i < |cells| ==> cells[i].year == decadeStart + i
      invariant forall i :: 0 <= i < |cells| ==> (cells[i].greyed <==> i >= 10)
    {
      cells := cells + [YearCell(year, year < decadeStart || year >= decadeStart + 10)];
      year := year + 1;
    }
  }

  /** A year is drawn in full colour exactly when its decade is the one shown. */
  lemma InFullColourIff(decadeStart: int, year: int)
    requires decadeStart % 10 == 0
    ensures (decadeStart <= year < decadeStart + 10) <==> DecadeStart(year) == decadeStart
  {
    if decadeStart <= year < decadeStart + 10 {
      DecadeStartUnique(year, decadeStart);
    }
  }

  // ----- the days view -----

  datatype Part = Leading | Current | Trailing

  /** A cell of the days grid: its number and which month it belongs to. */
  datatype DayCell = DayCell(number: int, part: Part)

  /** Cell `i` of the grid: the last `first` days of the previous month, the days of
      the viewed month, and the first days of the next month up to 42 cells. */
  function CellAt(view: Date, first: int, i: int): (c: DayCell)
    requires Valid(view) && 0 <= first <= 6 && 0 <= i < 42
  {
    var dim := DaysInMonth(view.year, view.month);
    var last := AddMonths(view, -1);
    var dimLast := DaysInMonth(last.year, last.month);
    if i < first then DayCell(dimLast - first + i + 1, Leading)
    else if i < first + dim then DayCell(i - first + 1, Current)
    else DayCell(i - first - dim + 1, Trailing)
  }

  /** `renderDaysView`: the three loops that fill the 42 cells. */
  method DaysGrid(view: Date, first: int) returns (cells: seq<DayCell>)
    requires Valid(view) && 0 <= first <= 6
    ensures |cells| == 42
    ensures forall i :: 0 <= i < 42 ==> cells[i] == CellAt(view, first, i)
  {
    var daysInMonth := DaysInMonth(view.year, view.month);
    var lastMonth := AddMonths(view, -1);
    var daysInLastMonth := DaysInMonth(lastMonth.year, lastMonth.month);
    var prev: seq<DayCell> := [];
    var i := 0;
    while i < first
      invariant 0 <= i <= first
      invariant |prev| == i
      invariant forall k :: 0 <= k < i ==> prev[k] == CellAt(view, first, k)
    {
      prev := prev + [DayCell(daysInLastMonth - first + i + 1, Leading)];
      i := i + 1;
    }
    var current: seq<DayCell> := [];
    var day := 1;
    while day <= daysInMonth
      invariant 1 <= day <= daysInMonth + 1
      invariant |current| == day - 1
      invariant forall k :: 0 <= k < |current| ==> current[k] == CellAt(view, first, first + k)
    {
      current := current + [DayCell(day, Current)];
      day := day + 1;
    }
    var remaining := 42 - |prev| - |current|;
    var next: seq<DayCell> := [];
    day := 1;
    while day <= remaining
      invariant 1 <= day <= remaining + 1
      invariant |next| == day - 1
      invariant forall k :: 0 <= k < |next| ==> next[k] == CellAt(view, first, first + daysInMonth + k)
    {
      next := next + [DayCell(day, Trailing)];
      day := day + 1;
    }
    cells := prev + current + next;
    forall k | 0 <= k < 42
      ensures cells[k] == CellAt(view, first, k)
    {
      if k < first {
        assert cells[k] == prev[k];
      } else if k < first + daysInMonth {
        assert cells[k] == current[k - first];
      } else {
        assert cells[k] == next[k - first - daysInMonth];
      }
    }
  }

  /** At least five cells of the next month are always shown. */
  lemma TrailingCells(view: Date, first: int)
    requires Valid(view) && 0 <= first <= 6
    ensures var n := 42 - first - DaysInMonth(view.year, view.month);
      5 <= n && forall i :: 42 - n <= i < 42 ==> CellAt(view, first, i).part == Trailing
  {
  }

  /** The date a cell stands for, which is also what clicking it picks:
      `viewDate.subtract(1, "month").date(day)`, `viewDate.date(day)` or
      `viewDate.add(1, "month").date(day)`. */
  function CellDate(view: Date, first: int, i: int): (d: Date)
    requires Valid(view) && 0 <= first <= 6 && 0 <= i < 42
    ensures Valid(d)
  {
    var c := CellAt(view, first, i);
    match c.part
    case Leading =>
      var m := AddMonths(view, -1);
      Date(m.year, m.month, c.number)
    case Current => Date(view.year, view.month, c.number)
    case Trailing =>
      var m := AddMonths(view, 1);
      Date(m.year, m.month, c.number)
  }

  /** Read left to right, the grid shows 42 consecutive days. */
  lemma CellsConsecutive(view: Date, first: int, i: int)
    requires Valid(view) && 0 <= first <= 6 && 0 <= i < 41
    ensures CellDate(view, first, i + 1) == NextDay(CellDate(view, first, i))
  {
    var dim := DaysInMonth(view.year, view.month);
    var prev, next := AddMonths(view, -1), AddMonths(view, 1);
    if i + 1 == first {
      assert CellDate(view, first, i) == Date(prev.year, prev.month, DaysInMonth(prev.year, prev.month));
      if prev.month < 12 {
        assert prev.year == view.year && prev.month + 1 == view.month;
      } else {
        assert prev.year + 1 == view.year && view.month == 1;
      }
    } else if i + 1 == first + dim {
      if view.month < 12 {
        assert next.year == view.year && next.month == view.month + 1;
      } else {
        assert next.year == view.year + 1 && next.month == 1;
      }
    }
  }

  /** A leading cell lies in the month before the viewed one, a trailing cell in the
      month after it, and a current cell in the viewed month. */
  lemma CellMonth(view: Date, first: int, i: int)
    requires Valid(view) && 0 <= first <= 6 && 0 <= i < 42
    ensures var c := CellAt(view, first, i);
      MonthIndex(CellDate(view, first, i)) == MonthIndex(view)
        + (match c.part case Leading => -1 case Current => 0 case Trailing => 1)
  {
  }

  /** Every day of the viewed month has exactly one cell, at `first + day - 1`. */
  lemma MonthDayCell(view: Date, first: int, day: int)
    requires Valid(view) && 0 <= first <= 6 && 1 <= day <= DaysInMonth(view.year, view.month)
    ensures CellDate(view, first, first + day - 1) == Date(view.year, view.month, day)
    ensures forall i :: 0 <= i < 42 && CellDate(view, first, i) == Date(view.year, view.month, day) ==> i == first + day - 1
  {
    forall i | 0 <= i < 42 && CellDate(view, first, i) == Date(view.year, view.month, day)
      ensures i == first + day - 1
    {
      CellMonth(view, first, i);
    }
  }
}

=== FILE: dates.dfy ===
/** Calendar dates as the views step through them with dayjs: the proleptic Gregorian
    calendar, `add(n, "day")`, `add(n, "month")` with the day clamped to the length
    of the target month, and `startOf("week")` given the date's weekday (Sunday = 0,
    the default locale). Times of day are not modelled. */
module Dates {

  datatype Date = Date(year: int, month: int, day: int)

  predicate IsLeapYear(y: int)
  {
    (y % 4 == 0 && y % 100 != 0) || y % 400 == 0
  }

  /** `daysInMonth()`. */
  function DaysInMonth(y: int, m: int): (n: int)
    requires 1 <= m <= 12
    ensures 28 <= n <= 31
    ensures m == 2 ==> (n == 29 <==> IsLeapYear(y))
  {
    if m == 2 then (if IsLeapYear(y) then 29 else 28)
    else if m == 4 || m == 6 || m == 9 || m == 11 then 30
    else 31
  }

  predicate Valid(d: Date)
  {
    1 <= d.month <= 12 && 1 <= d.day <= DaysInMonth(d.year, d.month)
  }

  /** Chronological order. */
  predicate Before(a: Date, b: Date)
  {
    a.year < b.year
    || (a.year == b.year && (a.month < b.month || (a.month == b.month && a.day < b.day)))
  }

  predicate SameOrBefore(a: Date, b: Date)
  {
    Before(a, b) || a == b
  }

  /** The following day. */
  function NextDay(d: Date): (r: Date)
    requires Valid(d)
    ensures Valid(r) && Before(d, r)
    ensures r.month == d.month ==> r.year == d.year && r.day == d.day + 1
  {
    if d.day < DaysInMonth(d.year, d.month) then Date(d.year, d.month, d.day + 1)
    else if d.month < 12 then Date(d.year, d.month + 1, 1)
    else Date(d.year + 1, 1, 1)
  }

  /** The preceding day. */
  function PrevDay(d: Date): (r: Date)
    requires Valid(d)
    ensures Valid(r) && Before(r, d)
  {
    if d.day > 1 then Date(d.year, d.month, d.day - 1)
    else if d.month > 1 then Date(d.year, d.month - 1, DaysInMonth(d.year, d.month - 1))
    else Date(d.year - 1, 12, 31)
  }

  /** Stepping a day forward and back, or back and forward, returns to the date. */
  lemma NextPrevInverse(d: Date)
    requires Valid(d)
    ensures PrevDay(NextDay(d)) == d && NextDay(PrevDay(d)) == d
  {
  }

  /** `add(n, "day")` for any whole `n`, negative meaning `subtract`. */
  function AddDays(d: Date, n: int): (r: Date)
    requires Valid(d)
    ensures Valid(r)
    ensures n > 0 ==> Before(d, r)
    ensures n < 0 ==> Before(r, d)
    ensures n == 0 ==> r == d
    decreases if n >= 0 then n else -n
  {
    if n == 0 then d
    else if n > 0 then
      var r := AddDays(NextDay(d), n - 1);
      assert SameOrBefore(NextDay(d), r);
      r
    else
      var r := AddDays(PrevDay(d), n + 1);
      assert SameOrBefore(r, PrevDay(d));
      r
  }

  lemma {:induction false} AddDaysNextCommute(d: Date, n: nat)
    requires Valid(d)
    decreases n
    ensures AddDays(NextDay(d), n) == NextDay(AddDays(d, n))
  {
    if n > 0 {
      AddDaysNextCommute(NextDay(d), n - 1);
    }
  }

  lemma {:induction false} AddDaysPrevCommute(d: Date, n: int)
    requires Valid(d) && n >= 0
    ensures AddDays(PrevDay(d), -n) == PrevDay(AddDays(d, -n))
    decreases n
  {
    if n > 0 {
      AddDaysPrevCommute(PrevDay(d), n - 1);
    }
  }

  /** One more day is the next day, for any count. */
  lemma AddDaysSucc(d: Date, n: int)
    requires Valid(d)
    ensures AddDays(d, n + 1) == NextDay(AddDays(d, n))
  {
    if n >= 0 {
      AddDaysNextCommute(d, n);
    } else {
      AddDaysPrevCommute(d, -(n + 1));
      NextPrevInverse(AddDays(d, n + 1));
    }
  }

  /** Adding `a` days then `b` days is adding `a + b` days. */
  lemma {:induction false} AddDaysCompose(d: Date, a: int, b: int)
    requires Valid(d)
    ensures AddDays(AddDays(d, a), b) == AddDays(d, a + b)
    decreases if b >= 0 then b else -b
  {
    var x := AddDays(d, a);
    if b > 0 {
      AddDaysCompose(d, a, b - 1);
      AddDaysSucc(x, b - 1);
      AddDaysSucc(d, a + b - 1);
    } else if b < 0 {
      AddDaysCompose(d, a, b + 1);
      AddDaysSucc(x, b);
      AddDaysSucc(d, a + b);
      NextPrevInverse(AddDays(x, b));
      NextPrevInverse(AddDays(d, a + b));
    }
  }

  /** Adding then subtracting the same number of days returns to the date. */
  lemma AddDaysInverse(d: Date, n: int)
    requires Valid(d)
    ensures AddDays(AddDays(d, n), -n) == d
  {
    AddDaysCompose(d, n, -n);
  }

  function Min(a: int, b: int): int
  {
    if a <= b then a else b
  }

  /** The number of whole months since year 0. */
  function MonthIndex(d: Date): int
  {
    d.year * 12 + d.month - 1
  }

  /** `add(n, "month")`: the month moves by `n`, and the day is kept when the target
      month is long enough, otherwise clamped to its last day. */
  function AddMonths(d: Date, n: int): (r: Date)
    requires Valid(d)
    ensures Valid(r)
    ensures MonthIndex(r) == MonthIndex(d) + n
    ensures r.day == Min(d.day, DaysInMonth(r.year, r.month))
  {
    var mi := MonthIndex(d) + n;
    var y, m := mi / 12, mi % 12 + 1;
    Date(y, m, Min(d.day, DaysInMonth(y, m)))
  }

  /** A date is determined by its month index and its day. */
  lemma MonthIndexDetermines(a: Date, b: Date)
    requires Valid(a) && Valid(b) && MonthIndex(a) == MonthIndex(b) && a.day == b.day
    ensures a == b
  {
  }

  /** A month forward and back returns to the date when no clamping happens. */
  lemma AddMonthsInverse(d: Date, n: int)
    requires Valid(d)
    requires d.day <= DaysInMonth(AddMonths(d, n).year, AddMonths(d, n).month)
    ensures AddMonths(AddMonths(d, n), -n) == d
  {
    var e := AddMonths(d, n);
    var back := AddMonths(e, -n);
    MonthIndexDetermines(back, d);
  }

  /** With clamping it does not: 31 January 2023 goes to 28 February and back to
      28 January. */
  lemma AddMonthsClampExample()
    ensures AddMonths(Date(2023, 1, 31), 1) == Date(2023, 2, 28)
    ensures AddMonths(Date(2023, 2, 28), -1) == Date(2023, 1, 28)
  {
  }

  /** `startOf("week")` of a date whose weekday is `weekday` (0 = Sunday). */
  function StartOfWeek(d: Date, weekday: int): (r: Date)
    requires Valid(d) && 0 <= weekday <= 6
    ensures Valid(r) && SameOrBefore(r, d)
  {
    AddDays(d, -weekday)
  }

  /** The seven days `startOfWeek.add(i, "day")`, i = 0..6. */
  function WeekDays(d: Date, weekday: int): (r: seq<Date>)
    requires Valid(d) && 0 <= weekday <= 6
    ensures |r| == 7
    ensures forall i :: 0 <= i < 7 ==> Valid(r[i])
  {
    var s := StartOfWeek(d, weekday);
    seq(7, i requires 0 <= i < 7 => AddDays(s, i))
  }

  /** The week runs over seven consecutive days, starts on a Sunday, and contains the
      date at position `weekday`. */
  lemma WeekDaysConsecutive(d: Date, weekday: int)
    requires Valid(d) && 0 <= weekday <= 6
    ensures var w := WeekDays(d, weekday);
      (forall i :: 0 <= i < 6 ==> w[i + 1] == NextDay(w[i])) && w[weekday] == d
  {
    var s := StartOfWeek(d, weekday);
    forall i | 0 <= i < 6
      ensures WeekDays(d, weekday)[i + 1] == NextDay(WeekDays(d, weekday)[i])
    {
      AddDaysSucc(s, i);
    }
    AddDaysCompose(d, -weekday, weekday);
  }
}

=== FILE: datetext.dfy ===
/** The "YYYY-MM-DD" text of a date: `format("YYYY-MM-DD")`, which is what every event
    stores in its `date` field and what every view compares against, and the reading
    back of such a text with `dayjs(event.date)`. */
module DateText {
  import opened Text
  import opened Dates
  import opened Wrappers

  /** `String(n).padStart(width, "0")`. */
  function Padded(n: nat, width: nat): (s: string)
    ensures |s| >= width && AllDigits(s) && DigitsValue(s) == n
    ensures n < Pow10(width) && width >= 1 ==> |s| == width
  {
    var t := NatToString(n);
    NatToStringRoundTrip(n);
    ZeroPadded(t, width);
    if n < Pow10(width) && width >= 1 then
      NatToStringLength(n, width);
      PadStart(t, width, '0')
    else PadStart(t, width, '0')
  }

  /** Years that print as four digits. */
  predicate FourDigitYear(d: Date)
  {
    0 <= d.year <= 9999
  }

  /** `format("YYYY-MM-DD")`. */
  function Format(d: Date): (s: string)
    requires Valid(d) && FourDigitYear(d)
    ensures |s| == 10 && s[4] == '-' && s[7] == '-'
  {
    assert Pow10(4) == 10000 && Pow10(2) == 100;
    Padded(d.year, 4) + ("-" + (Padded(d.month, 2) + ("-" + Padded(d.day, 2))))
  }

  /** The canonical "YYYY-MM-DD" text of a real date, or None. */
  function ParseDate(s: string): (r: Option<Date>)
    ensures r.Some? ==> Valid(r.value) && FourDigitYear(r.value)
  {
    if |s| == 10 && AllDigits(s[0..4]) && s[4] == '-' && AllDigits(s[5..7]) && s[7] == '-'
      && AllDigits(s[8..10])
    then
      DigitsValueBound(s[0..4]);
      assert Pow10(4) == 10000;
      var d := Date(DigitsValue(s[0..4]), DigitsValue(s[5..7]), DigitsValue(s[8..10]));
      if Valid(d) then Some(d) else None
    else None
  }

  lemma FormatPieces(d: Date)
    requires Valid(d) && FourDigitYear(d)
    ensures var s := Format(d);
      s[0..4] == Padded(d.year, 4) && s[5..7] == Padded(d.month, 2)
      && s[8..10] == Padded(d.day, 2)
  {
    assert Pow10(4) == 10000 && Pow10(2) == 100;
    JoinedFields(Padded(d.year, 4), Padded(d.month, 2), Padded(d.day, 2));
  }

  /** Where the three fields sit in `year-month-day`. */
  lemma JoinedFields(y: string, m: string, dd: string)
    requires |y| == 4 && |m| == 2 && |dd| == 2
    ensures var s := y + ("-" + (m + ("-" + dd)));
      s[0..4] == y && s[5..7] == m && s[8..10] == dd
  {
    var tail := m + ("-" + dd);
    var s := y + ("-" + tail);
    assert s[0..4] == y;
    assert s[5..] == tail;
    assert tail[0..2] == m && tail[3..5] == dd;
  }

  /** Reading back the text of a date gives the date. */
  lemma ParseFormat(d: Date)
    requires Valid(d) && FourDigitYear(d)
    ensures ParseDate(Format(d)) == Some(d)
  {
    FormatPieces(d);
  }

  lemma SameFields(s: string, t: string)
    requires |s| == 10 && |t| == 10 && s[4] == t[4] && s[7] == t[7]
    requires s[0..4] == t[0..4] && s[5..7] == t[5..7] && s[8..10] == t[8..10]
    ensures s == t
  {
    forall i | 0 <= i < 10
      ensures s[i] == t[i]
    {
      if i < 4 {
        assert s[i] == s[0..4][i];
      } else if 5 <= i < 7 {
        assert s[i] == s[5..7][i - 5];
      } else if 8 <= i {
        assert s[i] == s[8..10][i - 8];
      }
    }
  }

  /** A text that reads as a date is that date's text: the format is canonical. */
  lemma FormatParse(s: string)
    requires ParseDate(s).Some?
    ensures Format(ParseDate(s).value) == s
  {
    var d := ParseDate(s).value;
    var f := Format(d);
    FormatPieces(d);
    assert DigitsValue(f[0..4]) == DigitsValue(s[0..4]);
    assert DigitsValue(f[5..7]) == DigitsValue(s[5..7]);
    assert DigitsValue(f[8..10]) == DigitsValue(s[8..10]);
    DigitsValueInjective(f[0..4], s[0..4]);
    DigitsValueInjective(f[5..7], s[5..7]);
    DigitsValueInjective(f[8..10], s[8..10]);
    SameFields(f, s);
  }

  /** Different dates have different texts. */
  lemma FormatInjective(a: Date, b: Date)
    requires Valid(a) && FourDigitYear(a) && Valid(b) && FourDigitYear(b)
    requires Format(a) == Format(b)
    ensures a == b
  {
    ParseFormat(a);
    ParseFormat(b);
  }

  lemma PaddedOrder(m: nat, n: nat, width: nat)
    requires width >= 1 && m < Pow10(width) && n < Pow10(width)
    ensures LexLe(Padded(m, width), Padded(n, width)) <==> m <= n
    ensures Padded(m, width) == Padded(n, width) <==> m == n
    ensures LexLt(Padded(m, width), Padded(n, width)) <==> m < n
  {
    DigitsLexOrder(Padded(m, width), Padded(n, width));
  }

  /** Sorting "YYYY-MM-DD" texts as strings sorts the dates chronologically. */
  lemma FormatOrder(a: Date, b: Date)
    requires Valid(a) && FourDigitYear(a) && Valid(b) && FourDigitYear(b)
    ensures LexLe(Format(a), Format(b)) <==> SameOrBefore(a, b)
  {
    assert Pow10(4) == 10000 && Pow10(2) == 100;
    var ya, yb := Padded(a.year, 4), Padded(b.year, 4);
    var ma, mb := Padded(a.month, 2), Padded(b.month, 2);
    var da, db := Padded(a.day, 2), Padded(b.day, 2);
    PaddedOrder(a.year, b.year, 4);
    PaddedOrder(a.month, b.month, 2);
    PaddedOrder(a.day, b.day, 2);
    LexConcat(ya, yb, "-" + (ma + ("-" + da)), "-" + (mb + ("-" + db)));
    LexConcat("-", "-", ma + ("-" + da), mb + ("-" + db));
    LexConcat(ma, mb, "-" + da, "-" + db);
    LexConcat("-", "-", da, db);
  }
}

=== FILE: dateutils.dfy ===
/** The display helpers of `utils/dateUtils.js` (and their verbatim copies in the
    single-file calendar): the 12-hour time label of an event and the month-cell
    truncation rule. */
module DateUtils {
  import opened Text
  import opened Clock
  import opened Events
  import opened Wrappers

  /** `hours % 12 || 12`: the hour on a 12-hour dial. */
  function DialHour(h: nat): (d: nat)
    requires h <= 23
    ensures 1 <= d <= 12
    ensures d % 12 == h % 12
  {
    if h % 12 == 0 then 12 else h % 12
  }

  /** `hours >= 12 ? "pm" : "am"`. */
  function Meridiem(h: nat): string
  {
    if h >= 12 then "pm" else "am"
  }

  /** `getEventTime(event)`: "" for an all-day event, otherwise the dial hour without
      a leading zero, the minute text as written, and "am" or "pm". */
  function GetEventTime(e: Event): (s: string)
    ensures !IsTimed(e) <==> s == ""
    ensures IsTimed(e) ==> |s| >= 7 && s[|s| - 2..] == Meridiem(Hour(e.time.value))
    ensures IsTimed(e) ==> s[|s| - 5..|s| - 3] == e.time.value[3..5]
    ensures IsTimed(e) ==> s[|s| - 6] == ':' && s[|s| - 3] == ' '
    ensures IsTimed(e) ==>
      var p := s[..|s| - 6];
      1 <= |p| <= 2 && AllDigits(p) && (|p| == 1 || p[0] != '0')
      && DigitsValue(p) == DialHour(Hour(e.time.value))
  {
    if !IsTimed(e) then ""
    else
      var t := e.time.value;
      NatToStringRoundTrip(DialHour(Hour(t)));
      NatToString(DialHour(Hour(t))) + ":" + t[3..5] + " " + Meridiem(Hour(t))
  }

  /** The dial hour and the am/pm suffix together determine the 24-hour hour. */
  lemma DialAndMeridiemDetermineHour(h1: nat, h2: nat)
    requires h1 <= 23 && h2 <= 23
    requires DialHour(h1) == DialHour(h2) && Meridiem(h1) == Meridiem(h2)
    ensures h1 == h2
  {
  }

  /** The label determines the time: two timed events with the same label have the
      same `time`. */
  lemma GetEventTimeInjective(a: Event, b: Event)
    requires IsTimed(a) && IsTimed(b) && GetEventTime(a) == GetEventTime(b)
    ensures a.time == b.time
  {
    var ta, tb := a.time.value, b.time.value;
    var pa, pb := NatToString(DialHour(Hour(ta))), NatToString(DialHour(Hour(tb)));
    var s := GetEventTime(a);
    assert s == pa + ":" + ta[3..5] + " " + Meridiem(Hour(ta));
    assert s == pb + ":" + tb[3..5] + " " + Meridiem(Hour(tb));
    assert |pa| == |pb|;
    assert pa == s[..|pa|] == pb;
    NatToStringInjective(DialHour(Hour(ta)), DialHour(Hour(tb)));
    assert s[|s| - 2..] == Meridiem(Hour(ta)) == Meridiem(Hour(tb));
    DialAndMeridiemDetermineHour(Hour(ta), Hour(tb));
    assert ta[3..5] == s[|s| - 5..|s| - 3] == tb[3..5];
    assert ta[3] == tb[3] && ta[4] == tb[4];
    MinuteOfDayInjective(ta, tb);
  }

  /** Midnight and noon read as 12, and a leading zero is dropped. */
  lemma GetEventTimeExamples(e: Event)
    ensures e.time == Some("00:15") ==> GetEventTime(e) == "12:15 am"
    ensures e.time == Some("12:30") ==> GetEventTime(e) == "12:30 pm"
    ensures e.time == Some("09:05") ==> GetEventTime(e) == "9:05 am"
    ensures e.time == Some("23:59") ==> GetEventTime(e) == "11:59 pm"
  {
    if e.time == Some("00:15") {
      assert Hour("00:15") == 0;
    } else if e.time == Some("12:30") {
      assert Hour("12:30") == 12;
      assert NatToString(12) == "12";
    } else if e.time == Some("09:05") {
      assert Hour("09:05") == 9;
    } else if e.time == Some("23:59") {
      assert Hour("23:59") == 23;
      assert NatToString(11) == "11";
    }
  }

  /** The label the Week grids build inline:
      `${hour % 12 || 12}:${String(minute).padStart(2, '0')} ${hour >= 12 ? 'pm' : 'am'}`. */
  function InlineTime(t: Clock): string
  {
    NatToString(DialHour(Hour(t))) + ":" + PadStart(NatToString(Minute(t)), 2, '0') + " " + Meridiem(Hour(t))
  }

  /** Re-padding the parsed minute gives back the two minute characters. */
  lemma PaddedMinuteIsWritten(t: Clock)
    ensures PadStart(NatToString(Minute(t)), 2, '0') == t[3..5]
  {
    var m := Minute(t);
    DigitRoundTrip(t[3]);
    DigitRoundTrip(t[4]);
    if m < 10 {
      assert DigitOf(t[3]) == 0;
      assert PadStart(NatToString(m), 2, '0') == ['0'] + NatToString(m);
    } else {
      assert NatToString(m) == NatToString(m / 10) + [DigitChar(m % 10)];
      assert m / 10 == DigitOf(t[3]) && m % 10 == DigitOf(t[4]);
    }
  }

  /** For a valid time the inline label and `getEventTime` agree. */
  lemma InlineTimeAgrees(e: Event)
    requires IsTimed(e)
    ensures InlineTime(e.time.value) == GetEventTime(e)
  {
    PaddedMinuteIsWritten(e.time.value);
  }

  /** `getMonthEventStyles(dayEvents)`. */
  datatype MonthStyles = MonthStyles(maxToShow: nat, hasMore: bool, moreCount: nat)

  function GetMonthEventStyles(count: nat): (st: MonthStyles)
    ensures st.maxToShow + st.moreCount == count
    ensures st.hasMore <==> st.moreCount > 0
    ensures st.hasMore <==> count > 3
    ensures st.maxToShow <= 3 && (count <= 3 ==> st.maxToShow == count)
    ensures st.hasMore ==> st.maxToShow == 2 && st.moreCount >= 2
  {
    if count > 3 then MonthStyles(2, true, count - 2)
    else MonthStyles(count, false, 0)
  }
}

=== FILE: duration.dfy ===
/** The duration parser that every copy of the calendar code inlines:

      const durationMatch = event.duration.match(/(\d+)([hm])/);
      durationHours = durationMatch ? (unit == 'h' ? n : n / 60) : 1

    Only the FIRST match of `(\d+)([hm])` is read, so "1h30m" counts as one hour. A
    missing, empty or unmatched duration counts as one hour. Durations are measured
    here in whole minutes instead of the source's decimal hours. */
module Duration {
  import opened Text
  import opened Wrappers

  datatype Unit = Hours | Minutes

  /** The two capture groups of a match: the digits as a number, and the unit letter. */
  datatype DurationMatch = DurationMatch(amount: nat, unit: Unit)

  predicate IsUnit(c: char)
  {
    c == 'h' || c == 'm'
  }

  function UnitOf(c: char): Unit
    requires IsUnit(c)
  {
    if c == 'h' then Hours else Minutes
  }

  /** The end of the run of digits that starts at `i`. */
  function DigitRunEnd(s: string, i: nat): (j: nat)
    requires i <= |s|
    ensures i <= j <= |s|
    ensures AllDigits(s[i..j])
    ensures j < |s| ==> !IsDigit(s[j])
    decreases |s| - i
  {
    if i < |s| && IsDigit(s[i]) then
      var j := DigitRunEnd(s, i + 1);
      assert s[i..j] == [s[i]] + s[i + 1..j];
      j
    else i
  }

  /** Reference semantics of the regular expression: `(\d+)([hm])` matches the text
      `s[i..j+1]` when `s[i..j]` is a non-empty run of digits and `s[j]` is a unit. */
  predicate MatchAt(s: string, i: int, j: int)
  {
    0 <= i < j < |s| && AllDigits(s[i..j]) && IsUnit(s[j])
  }

  function MatchOf(s: string, i: int, j: int): DurationMatch
    requires MatchAt(s, i, j)
  {
    DurationMatch(DigitsValue(s[i..j]), UnitOf(s[j]))
  }

  /** The left-most match that starts at or after `i`, scanning run by run. */
  function FirstMatchFrom(s: string, i: nat): Option<DurationMatch>
    requires i <= |s|
    decreases |s| - i
  {
    if i == |s| then None
    else if !IsDigit(s[i]) then FirstMatchFrom(s, i + 1)
    else
      var j := DigitRunEnd(s, i);
      if j < |s| && IsUnit(s[j]) then Some(DurationMatch(DigitsValue(s[i..j]), UnitOf(s[j])))
      else FirstMatchFrom(s, j)
  }

  /** `duration.match(/(\d+)([hm])/)`: null, or the first match's groups. */
  function FirstMatch(s: string): Option<DurationMatch>
  {
    FirstMatchFrom(s, 0)
  }

  /** The parsed length of an event in minutes (`durationHours * 60`). */
  function DurationMinutes(s: string): nat
  {
    match FirstMatch(s)
    case None => 60
    case Some(DurationMatch(n, Hours)) => 60 * n
    case Some(DurationMatch(n, Minutes)) => n
  }

  /** A run of digits ends where a non-digit is; any match starting inside it ends there. */
  lemma MatchEndIsRunEnd(s: string, i: nat, k: int, j: int)
    requires i <= k && i < |s| && AllDigits(s[i..DigitRunEnd(s, i)]) && k < DigitRunEnd(s, i)
    requires MatchAt(s, k, j)
    ensures j == DigitRunEnd(s, i)
  {
    var e := DigitRunEnd(s, i);
    if j < e {
      assert false;
    } else if j > e {
      assert false;
    }
  }

  /** `FirstMatchFrom(s, i)` is the left-most regular-expression match starting at or
      after `i`, and there is none exactly when no such match exists. */
  lemma {:induction false} FirstMatchFromIsLeftmost(s: string, i: nat)
    requires i <= |s|
    ensures FirstMatchFrom(s, i).None? <==> forall k, j :: i <= k ==> !MatchAt(s, k, j)
    ensures FirstMatchFrom(s, i).Some? ==>
      exists k, j :: i <= k && MatchAt(s, k, j) && FirstMatchFrom(s, i) == Some(MatchOf(s, k, j))
        && forall k2, j2 :: i <= k2 < k ==> !MatchAt(s, k2, j2)
    decreases |s| - i
  {
    if i == |s| {
    } else if !IsDigit(s[i]) {
      FirstMatchFromIsLeftmost(s, i + 1);
      forall j | true
        ensures !MatchAt(s, i, j)
      {
        if MatchAt(s, i, j) {
          assert false;
        }
      }
    } else {
      var e := DigitRunEnd(s, i);
      assert e > i;
      forall k, j | i <= k < e && MatchAt(s, k, j)
        ensures j == e
      {
        MatchEndIsRunEnd(s, i, k, j);
      }
      if e < |s| && IsUnit(s[e]) {
        assert MatchAt(s, i, e);
      } else {
        FirstMatchFromIsLeftmost(s, e);
        forall k, j | i <= k < e
          ensures !MatchAt(s, k, j)
        {
          if MatchAt(s, k, j) {
            MatchEndIsRunEnd(s, i, k, j);
          }
        }
      }
    }
  }

  /** The whole-string version: `match` returns null exactly when the pattern occurs
      nowhere, and otherwise the groups of its left-most occurrence. */
  lemma FirstMatchIsLeftmost(s: string)
    ensures FirstMatch(s).None? <==> forall k, j :: !MatchAt(s, k, j)
    ensures FirstMatch(s).Some? ==>
      exists k, j :: MatchAt(s, k, j) && FirstMatch(s) == Some(MatchOf(s, k, j))
        && forall k2, j2 :: 0 <= k2 < k ==> !MatchAt(s, k2, j2)
  {
    FirstMatchFromIsLeftmost(s, 0);
  }

  /** The parse reads the left-most `<digits><unit>` token only: N h is 60*N minutes,
      N m is N minutes, and a string with no such token is one hour. */
  lemma DurationMinutesSpec(s: string)
    ensures (forall k, j :: !MatchAt(s, k, j)) ==> DurationMinutes(s) == 60
    ensures forall k, j :: MatchAt(s, k, j) && (forall k2, j2 :: 0 <= k2 < k ==> !MatchAt(s, k2, j2)) ==>
      DurationMinutes(s) == (if s[j] == 'h' then 60 else 1) * DigitsValue(s[k..j])
  {
    FirstMatchIsLeftmost(s);
    forall k, j | MatchAt(s, k, j) && (forall k2, j2 :: 0 <= k2 < k ==> !MatchAt(s, k2, j2))
      ensures DurationMinutes(s) == (if s[j] == 'h' then 60 else 1) * DigitsValue(s[k..j])
    {
      var k1, j1 :| MatchAt(s, k1, j1) && FirstMatch(s) == Some(MatchOf(s, k1, j1))
        && forall k2, j2 :: 0 <= k2 < k1 ==> !MatchAt(s, k2, j2);
      assert k1 == k;
      if j1 != j {
        assert false;
      }
    }
  }

  /** "1h30m" is read as its first token only: one hour. */
  lemma HourAndMinutesCountsOnlyTheHours()
    ensures DurationMinutes("1h30m") == 60
  {
    assert DigitRunEnd("1h30m", 0) == 1;
    assert "1h30m"[0..1] == "1" && "1"[..0] == [];
  }

  lemma ExampleDurations()
    ensures DurationMinutes("45m") == 45
    ensures DurationMinutes("2h") == 120
    ensures DurationMinutes("") == 60
    ensures DurationMinutes("garbage") == 60
    ensures DurationMinutes("0h") == 0
  {
    assert "45m"[0..2] == "45" && "45"[..1] == "4" && "4"[..0] == [];
    assert DigitRunEnd("45m", 0) == 2;
    assert "2h"[0..1] == "2" && "2"[..0] == [];
    assert DigitRunEnd("2h", 0) == 1;
    assert "0h"[0..1] == "0" && "0"[..0] == [];
    assert DigitRunEnd("0h", 0) == 1;
    assert FirstMatchFrom("garbage", 0) == None by {
      var g := "garbage";
      assert forall i :: 0 <= i < |g| ==> !IsDigit(g[i]);
    }
  }
}

=== FILE: durationinput.dfy ===
/** The duration field of the create modal and of the details modal's edit form: a
    select of presets with a "Custom..." entry, and a free-text box that is shown
    while the duration is neither empty nor a preset. Choosing "Custom..." on an empty
    or preset duration stores the sentinel "custom_", which opens the box with empty
    text; leaving the box checks the text against `^(\d+h)?(\d+m)?$` and falls back
    to "1h". */
module DurationInput {
  import opened Text
  import opened Duration

  const Presets: seq<string> := ["30m", "1h", "1h30m", "2h", "3h", "4h"]
  const Sentinel: string := "custom_"
  const CustomOption: string := "custom"
  const Fallback: string := "1h"

  /** The values of the select's options: "Anytime", the presets, "Custom...". */
  const SelectOptions: seq<string> := [""] + Presets + [CustomOption]

  predicate IsPreset(d: string)
  {
    d in Presets
  }

  /** The condition under which the free-text box is rendered. */
  predicate ShowCustomBox(d: string)
  {
    d != "" && !IsPreset(d)
  }

  /** The option the select shows for the stored duration. */
  function SelectValue(d: string): (v: string)
    ensures v == CustomOption <==> ShowCustomBox(d)
    ensures v != CustomOption ==> v == d
    ensures v in SelectOptions
  {
    if d == "" || IsPreset(d) then d else CustomOption
  }

  /** The text the box shows: nothing while the sentinel is stored. */
  function BoxText(d: string): (t: string)
    ensures StartsWith(d, Sentinel) ==> t == ""
    ensures !StartsWith(d, Sentinel) ==> t == d
  {
    if StartsWith(d, Sentinel) then "" else d
  }

  /** The select's change handler. */
  function OnSelect(d: string, chosen: string): (r: string)
    ensures chosen != CustomOption ==> r == chosen
    ensures chosen == CustomOption ==> ShowCustomBox(r)
    ensures chosen == CustomOption && ShowCustomBox(d) ==> r == d
    ensures chosen == CustomOption && !ShowCustomBox(d) ==> BoxText(r) == ""
  {
    if chosen == CustomOption then
      (if d == "" || IsPreset(d) then Sentinel else d)
    else chosen
  }

  /** Choosing an option makes the select show that option, whatever was stored. */
  lemma SelectShowsTheChoice(d: string, chosen: string)
    requires chosen in SelectOptions
    ensures SelectValue(OnSelect(d, chosen)) == chosen
  {
  }

  // ----- the format check -----

  /** One optional part of the format: empty, or digits followed by the unit. */
  predicate UnitPart(p: string, unit: char)
  {
    p == "" || (|p| >= 2 && AllDigits(p[..|p| - 1]) && p[|p| - 1] == unit)
  }

  /** Reference reading of `^(\d+h)?(\d+m)?$`: an hours part followed by a minutes
      part, each optional. */
  predicate FormatOk(s: string)
  {
    exists k :: 0 <= k <= |s| && UnitPart(s[..k], 'h') && UnitPart(s[k..], 'm')
  }

  /** The matcher: read a run of digits and an 'h' if there is one, then the rest must
      be empty or a run of digits ending the text with an 'm'. */
  function MatchFormat(s: string): bool
  {
    var j := DigitRunEnd(s, 0);
    var rest := if 0 < j < |s| && s[j] == 'h' then s[j + 1..] else s;
    rest == "" || (var k := DigitRunEnd(rest, 0); 0 < k && k == |rest| - 1 && rest[k] == 'm')
  }

  /** A run of digits ends at the first non-digit. */
  lemma RunEndAt(s: string, n: int)
    requires 0 <= n <= |s| && AllDigits(s[..n]) && (n == |s| || !IsDigit(s[n]))
    ensures DigitRunEnd(s, 0) == n
  {
    var j := DigitRunEnd(s, 0);
    assert forall k :: 0 <= k < n ==> s[..n][k] == s[k];
    assert forall k :: 0 <= k < j ==> s[0..j][k] == s[k];
  }

  /** A minutes part is what the second half of the matcher accepts. */
  lemma MinutesPart(rest: string)
    ensures (rest == "" || (var k := DigitRunEnd(rest, 0); 0 < k && k == |rest| - 1 && rest[k] == 'm'))
      <==> UnitPart(rest, 'm')
  {
    if UnitPart(rest, 'm') && rest != "" {
      RunEndAt(rest, |rest| - 1);
    }
    if rest != "" {
      var k := DigitRunEnd(rest, 0);
      if 0 < k && k == |rest| - 1 && rest[k] == 'm' {
        assert rest[..|rest| - 1] == rest[0..k];
      }
    }
  }

  /** The matcher accepts exactly the texts of the reference reading. */
  lemma MatchFormatIff(s: string)
    ensures MatchFormat(s) <==> FormatOk(s)
  {
    if MatchFormat(s) { MatchFormatSound(s); }
    if FormatOk(s) { MatchFormatComplete(s); }
  }

  /** What the matcher accepts splits into an hours part and a minutes part. */
  lemma MatchFormatSound(s: string)
    requires MatchFormat(s)
    ensures FormatOk(s)
  {
    var j := DigitRunEnd(s, 0);
    var hours := 0 < j < |s| && s[j] == 'h';
    var rest := if hours then s[j + 1..] else s;
    MinutesPart(rest);
    if hours {
      assert s[..j + 1][..j] == s[0..j];
      assert UnitPart(s[..j + 1], 'h');
      assert s[j + 1..] == rest;
    } else {
      assert s[..0] == "" && s[0..] == s;
    }
  }

  /** A text made of an hours part and a minutes part passes the matcher. */
  lemma MatchFormatComplete(s: string)
    requires FormatOk(s)
    ensures MatchFormat(s)
  {
    var k :| 0 <= k <= |s| && UnitPart(s[..k], 'h') && UnitPart(s[k..], 'm');
    if k == 0 {
      assert s[0..] == s;
      MinutesOnlyMatches(s);
    } else {
      HoursThenMinutesMatches(s, k);
    }
  }

  /** A bare minutes part (or the empty text) passes the matcher. */
  lemma MinutesOnlyMatches(s: string)
    requires UnitPart(s, 'm')
    ensures MatchFormat(s)
  {
    MinutesPart(s);
    if s != "" {
      RunEndAt(s, |s| - 1);
    }
  }

  /** An hours part ending at `k` followed by a minutes part passes the matcher. */
  lemma HoursThenMinutesMatches(s: string, k: int)
    requires 0 < k <= |s| && UnitPart(s[..k], 'h') && UnitPart(s[k..], 'm')
    ensures MatchFormat(s)
  {
    assert s[..k - 1] == s[..k][..k - 1];
    RunEndAt(s, k - 1);
    assert DigitRunEnd(s, 0) == k - 1 && s[k - 1] == 'h';
    MinutesPart(s[k..]);
  }

  /** Every preset passes the check. */
  lemma PresetsPass()
    ensures forall p :: p in Presets ==> FormatOk(p)
  {
    assert UnitPart("30m"[..0], 'h') && UnitPart("30m"[0..], 'm') by {
      assert "30m"[..2] == "30";
    }
    assert UnitPart("1h"[..2], 'h') && UnitPart("1h"[2..], 'm') by {
      assert "1h"[..2][..1] == "1";
    }
    assert UnitPart("1h30m"[..2], 'h') && UnitPart("1h30m"[2..], 'm') by {
      assert "1h30m"[..2] == "1h" && "1h"[..1] == "1";
      assert "1h30m"[2..] == "30m" && "30m"[..2] == "30";
    }
    assert UnitPart("2h"[..2], 'h') && UnitPart("2h"[2..], 'm') by {
      assert "2h"[..2][..1] == "2";
    }
    assert UnitPart("3h"[..2], 'h') && UnitPart("3h"[2..], 'm') by {
      assert "3h"[..2][..1] == "3";
    }
    assert UnitPart("4h"[..2], 'h') && UnitPart("4h"[2..], 'm') by {
      assert "4h"[..2][..1] == "4";
    }
  }

  // ----- focus, typing, blur -----

  /** Leaving the box: the trimmed text shown in the box must be non-empty and in the
      format, otherwise the duration becomes "1h". A passing text is kept as stored,
      untrimmed. */
  function OnBlur(d: string): (r: string)
    ensures var t := Trim(BoxText(d)); t != "" && FormatOk(t) ==> r == d
    ensures var t := Trim(BoxText(d)); !(t != "" && FormatOk(t)) ==> r == Fallback
  {
    var t := Trim(BoxText(d));
    MatchFormatIff(t);
    if t == "" then Fallback
    else if !MatchFormat(t) then Fallback
    else d
  }

  /** Focusing the box as written: the sentinel is replaced by the empty string. The
      box shows the same text before and after, but the marker that kept it open is
      gone; any other value is left alone. */
  function FocusAsWritten(d: string): (r: string)
    ensures BoxText(r) == BoxText(d)
    ensures !StartsWith(r, Sentinel)
    ensures !StartsWith(d, Sentinel) ==> r == d
  {
    if StartsWith(d, Sentinel) then "" else d
  }

  /** As written, choosing "Custom..." on an empty duration opens the box, and the
      box's own focus (it is rendered with `autoFocus`) clears the sentinel, which
      closes the box again and turns the select back to "Anytime". */
  lemma FocusClosesTheCustomBox()
    ensures ShowCustomBox(OnSelect("", CustomOption))
    ensures FocusAsWritten(OnSelect("", CustomOption)) == ""
    ensures !ShowCustomBox(FocusAsWritten(OnSelect("", CustomOption)))
    ensures SelectValue(FocusAsWritten(OnSelect("", CustomOption))) == ""
  {
    assert Sentinel[..|Sentinel|] == Sentinel;
  }

  /** Focusing the box as intended: the sentinel stays stored (the box already shows
      it as empty text), so the box stays open with the same text. */
  function Focus(d: string): (r: string)
    ensures ShowCustomBox(r) <==> ShowCustomBox(d)
    ensures BoxText(r) == BoxText(d)
    ensures SelectValue(r) == SelectValue(d)
  {
    d
  }

  /** An input to the field. */
  datatype Input = Select(chosen: string) | FocusBox | Type(text: string) | BlurBox

  function Step(d: string, i: Input): string
  {
    match i
    case Select(chosen) => OnSelect(d, chosen)
    case FocusBox => Focus(d)
    case Type(text) => text
    case BlurBox => OnBlur(d)
  }

  function Run(d: string, inputs: seq<Input>): string
    decreases |inputs|
  {
    if |inputs| == 0 then d else Run(Step(d, inputs[0]), inputs[1..])
  }

  /** With focus keeping the sentinel, "Custom..." then focus leaves the box open and
      empty when the duration was empty or a preset, and shows the stored custom
      text otherwise. */
  lemma CustomThenFocusKeepsTheBox(d: string)
    ensures var r := Run(d, [Select(CustomOption), FocusBox]);
      ShowCustomBox(r) && SelectValue(r) == CustomOption
      && (ShowCustomBox(d) ==> BoxText(r) == BoxText(d))
      && (!ShowCustomBox(d) ==> BoxText(r) == "")
  {
    var inputs := [Select(CustomOption), FocusBox];
    var r1 := OnSelect(d, CustomOption);
    assert inputs[1..] == [FocusBox];
    assert Run(d, inputs) == Run(r1, [FocusBox]);
    assert Run(r1, [FocusBox]) == Focus(r1);
  }

  /** Choosing "Custom...", typing a text and leaving the box stores the text when it
      is in the format and "1h" otherwise. */
  lemma CustomEntry(d: string, text: string)
    requires !StartsWith(text, Sentinel)
    ensures Run(d, [Select(CustomOption), FocusBox, Type(text), BlurBox])
      == if Trim(text) != "" && FormatOk(Trim(text)) then text else Fallback
  {
    var inputs := [Select(CustomOption), FocusBox, Type(text), BlurBox];
    var r1 := OnSelect(d, CustomOption);
    assert inputs[1..] == [FocusBox, Type(text), BlurBox];
    assert Run(d, inputs) == Run(r1, [FocusBox, Type(text), BlurBox]);
    assert [FocusBox, Type(text), BlurBox][1..] == [Type(text), BlurBox];
    assert Run(r1, [FocusBox, Type(text), BlurBox]) == Run(r1, [Type(text), BlurBox]);
    assert [Type(text), BlurBox][1..] == [BlurBox];
    assert Run(r1, [Type(text), BlurBox]) == Run(text, [BlurBox]);
    assert Run(text, [BlurBox]) == OnBlur(text);
  }

  // ----- save -----

  /** `disabled={!title.trim()}`. */
  predicate SaveEnabled(title: string)
  {
    Trim(title) != ""
  }

  /** Save is enabled exactly when the title has a character that is not white space. */
  lemma SaveEnabledIff(title: string)
    ensures SaveEnabled(title) <==> exists i :: 0 <= i < |title| && !IsJsSpace(title[i])
  {
    TrimEmpty(title);
  }
}

=== FILE: editing.dfy ===
/** Editing an existing event from its details: the view/edit switch, saving the
    edited copy back by id (with the edit modal's conflict check and confirmation),
    cancelling, deleting after confirmation, marking complete, and the conflict
    badge. The answers to `window.confirm` are parameters. */
module Editing {
  import opened Events
  import opened EventList
  import opened Conflicts
  import opened DurationInput
  import opened Wrappers

  /** The state the details and edit modals work on. */
  datatype Session = Session(
    events: seq<Event>,
    selected: Event,
    edited: Event,
    isEditing: bool,
    showPopup: bool)

  /** The selected event is the stored one, and the form edits a copy of it (the form
      has no id field, so the id never changes while editing). */
  predicate InSync(s: Session)
  {
    s.selected in s.events && s.edited.id == s.selected.id
  }

  /** "Edit Event": the form starts from the selected event. */
  function StartEdit(s: Session): (r: Session)
    ensures r.isEditing && r.edited == s.selected
    ensures r.(edited := s.edited, isEditing := s.isEditing) == s
  {
    s.(edited := s.selected, isEditing := true)
  }

  /** "Cancel": back to the details, the form reset to the selected event. */
  function Cancel(s: Session): (r: Session)
    ensures !r.isEditing && r.edited == s.selected
    ensures r.(edited := s.edited, isEditing := s.isEditing) == s
  {
    s.(isEditing := false, edited := s.selected)
  }

  /** Whatever was typed, opening the form and cancelling leaves only the view mode
      behind. */
  lemma CancelDiscardsTheForm(s: Session)
    ensures Cancel(StartEdit(s)) == s.(edited := s.selected, isEditing := false)
  {
  }

  /** `handleUpdateEvent`: every event with the edited id becomes the edited copy,
      which becomes the selected event, and the form closes. */
  function Update(s: Session): (r: Session)
    ensures r.selected == s.edited && r.edited == s.edited && !r.isEditing && r.showPopup == s.showPopup
    ensures |r.events| == |s.events|
    ensures forall i :: 0 <= i < |s.events| ==>
      (s.events[i].id == s.edited.id ==> r.events[i] == s.edited)
      && (s.events[i].id != s.edited.id ==> r.events[i] == s.events[i])
  {
    s.(events := ReplaceById(s.events, s.edited), selected := s.edited, isEditing := false)
  }

  /** Saving keeps the selected event the stored one. */
  lemma UpdateKeepsSync(s: Session)
    requires InSync(s)
    ensures InSync(Update(s))
  {
    ReplaceStores(s.events, s.edited);
  }

  /** Saving an unchanged form changes no stored event when ids are unique. */
  lemma UpdateUnchanged(s: Session)
    requires InSync(s) && UniqueKeys(s.events) && s.edited == s.selected
    ensures Update(s).events == s.events
  {
    var i :| 0 <= i < |s.events| && s.events[i] == s.selected;
    ReplaceWithStored(s.events, i);
  }

  /** The edit modal's `checkForConflicts`: the conflict row of the edited event in
      the list as it would be after saving, when it has a conflict. */
  function CheckForConflicts(events: seq<Event>, edited: Event): (r: Option<ConflictRecord>)
    ensures r.Some? <==> HasConflicts(ReplaceById(events, edited), edited)
    ensures r.Some? ==>
      (r.value in DetectEventConflicts(ReplaceById(events, edited))
       && r.value.event.id == edited.id && r.value.conflictCount > 0)
  {
    var found := FindById(DetectEventConflicts(ReplaceById(events, edited)), edited.id);
    if found.Some? && found.value.conflictCount > 0 then found else None
  }

  /** Replacing by id keeps the id at every position, so ids stay unique. */
  lemma ReplaceKeepsUniqueKeys(events: seq<Event>, edited: Event)
    requires UniqueKeys(events)
    ensures UniqueKeys(ReplaceById(events, edited))
  {
    var r := ReplaceById(events, edited);
    assert forall i :: 0 <= i < |r| ==> r[i].id == events[i].id;
  }

  /** With unique ids and a timed edit of a stored event, the edit is reported as
      conflicting exactly when some other stored event is timed and clashes with the
      edited times. */
  lemma CheckForConflictsExact(events: seq<Event>, edited: Event)
    requires UniqueKeys(events) && IsTimed(edited)
    requires exists e :: e in events && e.id == edited.id
    ensures CheckForConflicts(events, edited).Some? <==>
      exists b :: b in events && b.id != edited.id && IsTimed(b) && Clash(edited, b)
  {
    var temp := ReplaceById(events, edited);
    ReplaceKeepsUniqueKeys(events, edited);
    ReplaceStores(events, edited);
    HasConflictsExact(temp, edited);
    OthersAfterReplace(events, edited);
  }

  /** After replacing by id, the timed events other than the edit that clash with it
      are the stored events with another id that do. */
  lemma OthersAfterReplace(events: seq<Event>, edited: Event)
    requires IsTimed(edited)
    ensures (exists b :: b in ReplaceById(events, edited) && IsTimed(b) && b != edited && Clash(edited, b))
      <==> (exists b :: b in events && b.id != edited.id && IsTimed(b) && Clash(edited, b))
  {
    var temp := ReplaceById(events, edited);
    if exists b :: b in temp && IsTimed(b) && b != edited && Clash(edited, b) {
      var b :| b in temp && IsTimed(b) && b != edited && Clash(edited, b);
      var i :| 0 <= i < |temp| && temp[i] == b;
      assert events[i] == b && b.id != edited.id;
    }
    if exists b :: b in events && b.id != edited.id && IsTimed(b) && Clash(edited, b) {
      var b :| b in events && b.id != edited.id && IsTimed(b) && Clash(edited, b);
      var i :| 0 <= i < |events| && events[i] == b;
      assert temp[i] == b && b in temp;
    }
  }

  /** "Save Changes" in the edit modal, given the answer the user would give to the
      conflict question. Without a conflict the edit is saved at once; with one it is
      saved only when confirmed. */
  function SaveWithCheck(s: Session, confirmed: bool): (r: Session)
    ensures CheckForConflicts(s.events, s.edited).None? || confirmed ==> r == Update(s)
    ensures CheckForConflicts(s.events, s.edited).Some? && !confirmed ==> r == s
  {
    if CheckForConflicts(s.events, s.edited).Some? then
      (if confirmed then Update(s) else s)
    else Update(s)
  }

  /** The details modal's "Save Changes": no conflict check, so the edit is stored
      whatever it clashes with. */
  function SaveDirect(s: Session): (r: Session)
    ensures r.selected == s.edited && !r.isEditing && r.showPopup == s.showPopup
    ensures |r.events| == |s.events|
    ensures forall i :: 0 <= i < |s.events| ==>
      r.events[i] == if s.events[i].id == s.edited.id then s.edited else s.events[i]
  {
    Update(s)
  }

  /** Without a conflict both save buttons do the same. */
  lemma SaveButtonsAgree(s: Session, confirmed: bool)
    requires CheckForConflicts(s.events, s.edited).None?
    ensures SaveWithCheck(s, confirmed) == SaveDirect(s)
  {
  }

  /** Both save buttons are disabled while the title is blank. */
  predicate CanSave(s: Session)
  {
    SaveEnabled(s.edited.title)
  }

  /** "Delete" after the confirmation: every event with the selected id goes, and the
      popup and the form close. A declined confirmation changes nothing. The session
      has no empty selection, so the deleted event stays selected and the form keeps
      its text; `App.HandleDelete` models the program clearing the selection. */
  function DeleteSelected(s: Session, confirmed: bool): (r: Session)
    ensures !confirmed ==> r == s
    ensures confirmed ==>
      (!r.showPopup && !r.isEditing
       && (forall e :: e in r.events <==> e in s.events && e.id != s.selected.id))
    ensures r.selected == s.selected && r.edited == s.edited
  {
    if confirmed then s.(events := Delete(s.events, s.selected.id), showPopup := false, isEditing := false)
    else s
  }

  /** "Mark Complete" / "Mark Undone": the stored events with the selected id and the
      selected copy flip together. */
  function MarkComplete(s: Session): (r: Session)
    ensures r.selected == s.selected.(completed := !s.selected.completed)
    ensures r.(events := s.events, selected := s.selected) == s
    ensures |r.events| == |s.events|
    ensures forall i :: 0 <= i < |s.events| ==>
      r.events[i] == if s.events[i].id == s.selected.id
        then s.events[i].(completed := !s.events[i].completed) else s.events[i]
  {
    s.(events := Toggle(s.events, s.selected.id), selected := s.selected.(completed := !s.selected.completed))
  }

  /** The selected copy still matches the stored event after marking it. */
  lemma MarkCompleteKeepsSync(s: Session)
    requires InSync(s)
    ensures InSync(MarkComplete(s))
  {
    var i :| 0 <= i < |s.events| && s.events[i] == s.selected;
    var r := MarkComplete(s);
    assert r.events[i] == r.selected;
  }

  /** Marking twice restores the session. */
  lemma MarkCompleteTwice(s: Session)
    ensures MarkComplete(MarkComplete(s)) == s
  {
    ToggleInvolution(s.events, s.selected.id);
  }

  /** The details view's badge: the number of conflicts of the selected event, when
      it has any. */
  function ConflictBadge(events: seq<Event>, selected: Event): (n: Option<nat>)
    ensures n.Some? <==> HasConflicts(events, selected)
    ensures n.Some? ==> n.value > 0
  {
    var found := FindById(DetectEventConflicts(events), selected.id);
    if found.Some? && found.value.conflictCount > 0 then Some(found.value.conflictCount) else None
  }

  /** With unique ids the badge shows exactly for a stored timed event that clashes
      with another, and its number counts those events. */
  lemma ConflictBadgeExact(events: seq<Event>, selected: Event)
    requires UniqueKeys(events) && selected in events && IsTimed(selected)
    ensures ConflictBadge(events, selected).Some? <==>
      exists b :: b in events && IsTimed(b) && b != selected && Clash(selected, b)
    ensures ConflictBadge(events, selected).Some? ==>
      exists rec :: rec in DetectEventConflicts(events) && rec.event.id == selected.id
        && ConflictBadge(events, selected).value == |rec.conflictIds|
        && forall b :: b in ConflictingEvents(events, rec.conflictIds) <==>
          b in events && IsTimed(b) && b != rec.event && Clash(rec.event, b)
  {
    HasConflictsExact(events, selected);
    var found := FindById(DetectEventConflicts(events), selected.id);
    if found.Some? && found.value.conflictCount > 0 {
      var rec := found.value;
      DetectRecordShape(events, rec);
      forall b
        ensures b in ConflictingEvents(events, rec.conflictIds) <==>
          b in events && IsTimed(b) && b != rec.event && Clash(rec.event, b)
      {
        ConflictDetailsExact(events, rec, b);
      }
    }
  }
}

=== FILE: eventlist.dfy ===
/** The updates the calendar applies to its list of events: loading, creating,
    toggling completion, deleting, moving to another day by drag and drop, replacing
    an edited event, and collecting the events a conflict row names. Every update is
    a new list; ids come from the caller. */
module EventList {
  import opened Text
  import opened Clock
  import opened Events
  import opened Conflicts
  import opened Wrappers

  /** `b` with some of its elements removed, the rest in their order. */
  predicate Subsequence(a: seq<Event>, b: seq<Event>)
    decreases |b|
  {
    |a| == 0 || (|b| > 0 && ((a[0] == b[0] && Subsequence(a[1..], b[1..])) || Subsequence(a, b[1..])))
  }

  lemma {:induction false} SubsequenceReflexive(a: seq<Event>)
    ensures Subsequence(a, a)
  {
    if |a| > 0 {
      SubsequenceReflexive(a[1..]);
    }
  }

  // ----- loading -----

  /** An event as read from the JSON file: the id may be missing, and `completed`
      may be missing. */
  datatype RawEvent = RawEvent(
    id: Option<Id>,
    title: string,
    date: string,
    time: Option<Clock>,
    duration: string,
    description: string,
    color: string,
    completed: Option<bool>)

  /** JavaScript truthiness of an id: a missing id, `0` and `""` are falsy. */
  predicate TruthyId(id: Option<Id>)
  {
    id.Some? && id.value != NumId(0) && id.value != StrId("")
  }

  /** `{...event, id: event.id || newId, completed: event.completed || false}`. */
  function Normalize(raw: RawEvent, newId: Id): (e: Event)
    ensures TruthyId(raw.id) ==> e.id == raw.id.value
    ensures !TruthyId(raw.id) ==> e.id == newId
    ensures e.completed <==> raw.completed == Some(true)
    ensures e.title == raw.title && e.date == raw.date && e.time == raw.time
    ensures e.duration == raw.duration && e.description == raw.description && e.color == raw.color
  {
    Event(if TruthyId(raw.id) then raw.id.value else newId,
      raw.title, raw.date, raw.time, raw.duration, raw.description, raw.color,
      raw.completed == Some(true))
  }

  /** The load step: every raw event normalised, order kept; `newIds[i]` stands for
      `Date.now() + Math.random()` at position `i`. */
  function Load(raws: seq<RawEvent>, newIds: seq<Id>): (r: seq<Event>)
    requires |newIds| == |raws|
    ensures |r| == |raws|
    ensures forall i :: 0 <= i < |raws| ==> r[i] == Normalize(raws[i], newIds[i])
  {
    if |raws| == 0 then []
    else [Normalize(raws[0], newIds[0])] + Load(raws[1..], newIds[1..])
  }

  /** An event written back out with all its fields. */
  function ToRaw(e: Event): RawEvent
  {
    RawEvent(Some(e.id), e.title, e.date, e.time, e.duration, e.description, e.color, Some(e.completed))
  }

  /** Loading keeps a loaded event as it is: normalising is idempotent. */
  lemma LoadKeepsNormalized(events: seq<Event>, newIds: seq<Id>)
    requires |newIds| == |events|
    requires forall i :: 0 <= i < |events| ==> TruthyId(Some(events[i].id))
    ensures Load(seq(|events|, i requires 0 <= i < |events| => ToRaw(events[i])), newIds) == events
  {
  }

  /** With truthy new ids, every loaded event has a truthy id. */
  lemma LoadedIdsTruthy(raws: seq<RawEvent>, newIds: seq<Id>)
    requires |newIds| == |raws| && forall i :: 0 <= i < |newIds| ==> TruthyId(Some(newIds[i]))
    ensures forall e :: e in Load(raws, newIds) ==> TruthyId(Some(e.id))
  {
  }

  // ----- creating -----

  /** The `newEvent` form: an event without its id. */
  datatype Draft = Draft(
    title: string,
    date: string,
    time: Option<Clock>,
    duration: string,
    description: string,
    color: string,
    completed: bool)

  /** `{...newEvent, id}`. */
  function WithId(d: Draft, id: Id): (e: Event)
    ensures e.id == id && e.title == d.title && e.date == d.date && e.time == d.time
    ensures e.duration == d.duration && e.description == d.description
    ensures e.color == d.color && e.completed == d.completed
  {
    Event(id, d.title, d.date, d.time, d.duration, d.description, d.color, d.completed)
  }

  /** The blank form: "09:00", one hour, the default blue, not completed. */
  function DefaultDraft(date: string): (d: Draft)
    ensures d.date == date && d.title == "" && d.description == ""
    ensures d.time.Some? && Hour(d.time.value) == 9 && Minute(d.time.value) == 0
    ensures d.duration == "1h" && !d.completed
  {
    Draft("", date, Some(MakeClock(9, 0)), "1h", "", "#4285F4", false)
  }

  /** `[...events, createdEvent]`. */
  function Append(events: seq<Event>, d: Draft, id: Id): (r: seq<Event>)
    ensures |r| == |events| + 1 && r[..|events|] == events && r[|events|] == WithId(d, id)
  {
    events + [WithId(d, id)]
  }

  // ----- toggling -----

  /** `events.map(e => e.id === id ? {...e, completed: !e.completed} : e)`. */
  function Toggle(events: seq<Event>, id: Id): (r: seq<Event>)
    ensures |r| == |events|
    ensures forall i :: 0 <= i < |events| ==>
      r[i].(completed := events[i].completed) == events[i]
      && (r[i].completed <==> (events[i].completed != (events[i].id == id)))
  {
    if |events| == 0 then []
    else
      var e := events[0];
      [if e.id == id then e.(completed := !e.completed) else e] + Toggle(events[1..], id)
  }

  /** Toggling twice restores the list. */
  lemma {:induction false} ToggleInvolution(events: seq<Event>, id: Id)
    ensures Toggle(Toggle(events, id), id) == events
  {
    if |events| > 0 {
      ToggleInvolution(events[1..], id);
    }
  }

  /** Toggling an id no event carries changes nothing. */
  lemma ToggleAbsent(events: seq<Event>, id: Id)
    requires forall e :: e in events ==> e.id != id
    ensures Toggle(events, id) == events
  {
  }

  // ----- deleting -----

  /** `events.filter(e => e.id !== id)`. */
  function Delete(events: seq<Event>, id: Id): (r: seq<Event>)
    ensures forall e :: e in r <==> e in events && e.id != id
    ensures forall e :: multiset(r)[e] == if e.id != id then multiset(events)[e] else 0
    ensures Subsequence(r, events)
  {
    if |events| == 0 then []
    else
      assert events == [events[0]] + events[1..];
      if events[0].id == id then Delete(events[1..], id)
      else [events[0]] + Delete(events[1..], id)
  }

  /** Deleting an id no event carries changes nothing. */
  lemma {:induction false} DeleteAbsent(events: seq<Event>, id: Id)
    requires forall e :: e in events ==> e.id != id
    ensures Delete(events, id) == events
  {
    if |events| > 0 {
      DeleteAbsent(events[1..], id);
    }
  }

  /** Creating an event under a new id and deleting that id restores the list. */
  lemma DeleteUndoesAppend(events: seq<Event>, d: Draft, id: Id)
    requires forall e :: e in events ==> e.id != id
    ensures Delete(Append(events, d, id), id) == events
  {
    DeleteAppendLast(events, WithId(d, id));
  }

  lemma {:induction false} DeleteAppendLast(events: seq<Event>, e: Event)
    requires forall x :: x in events ==> x.id != e.id
    ensures Delete(events + [e], e.id) == events
  {
    if |events| == 0 {
    } else {
      assert (events + [e])[1..] == events[1..] + [e];
      DeleteAppendLast(events[1..], e);
    }
  }

  // ----- drag and drop -----

  /** Move every event whose id string is `key` to `date`. */
  function Redate(events: seq<Event>, key: string, date: string): (r: seq<Event>)
    ensures |r| == |events|
    ensures forall i :: 0 <= i < |events| ==>
      r[i].(date := events[i].date) == events[i]
      && r[i].date == (if Key(events[i].id) == key then date else events[i].date)
  {
    if |events| == 0 then []
    else
      var e := events[0];
      [if Key(e.id) == key then e.(date := date) else e] + Redate(events[1..], key, date)
  }

  /** `handleDragEnd`: with a drop target whose id (a day's text) differs from the
      dragged id, the dragged event moves to that day; otherwise nothing changes. */
  function DragEnd(events: seq<Event>, activeId: string, overId: Option<string>): (r: seq<Event>)
    ensures overId.None? || overId == Some(activeId) ==> r == events
    ensures overId.Some? && overId.value != activeId ==> r == Redate(events, activeId, overId.value)
  {
    if overId.Some? && activeId != overId.value then Redate(events, activeId, overId.value) else events
  }

  /** After a drop, the dragged event is on the target day, and an event that was not
      dragged keeps its day. */
  lemma DragEndLandsOnTarget(events: seq<Event>, activeId: string, target: string)
    requires target != activeId
    ensures var r := DragEnd(events, activeId, Some(target));
      forall i :: 0 <= i < |events| ==>
        (Key(events[i].id) == activeId ==> r[i].date == target)
        && (Key(events[i].id) != activeId ==> r[i] == events[i])
  {
  }

  /** Dropping the same event on the same day twice is the same as once. */
  lemma DragEndIdempotent(events: seq<Event>, activeId: string, overId: Option<string>)
    ensures DragEnd(DragEnd(events, activeId, overId), activeId, overId) == DragEnd(events, activeId, overId)
  {
    var once := DragEnd(events, activeId, overId);
    var twice := DragEnd(once, activeId, overId);
    assert |twice| == |once|;
    forall i | 0 <= i < |once|
      ensures twice[i] == once[i]
    {
    }
  }

  /** `events.find(e => e.id.toString() === activeId)`: the dragged event. */
  function FindByKey(events: seq<Event>, key: string): (r: Option<Event>)
    ensures r.Some? ==> r.value in events && Key(r.value.id) == key
    ensures r.None? <==> forall e :: e in events ==> Key(e.id) != key
  {
    if |events| == 0 then None
    else if Key(events[0].id) == key then Some(events[0])
    else FindByKey(events[1..], key)
  }

  // ----- editing -----

  /** `events.map(e => e.id === edited.id ? edited : e)`. */
  function ReplaceById(events: seq<Event>, edited: Event): (r: seq<Event>)
    ensures |r| == |events|
    ensures forall i :: 0 <= i < |events| ==> r[i] == (if events[i].id == edited.id then edited else events[i])
  {
    if |events| == 0 then []
    else [if events[0].id == edited.id then edited else events[0]] + ReplaceById(events[1..], edited)
  }

  /** Saving the same edit twice is the same as once. */
  lemma ReplaceByIdIdempotent(events: seq<Event>, edited: Event)
    ensures ReplaceById(ReplaceById(events, edited), edited) == ReplaceById(events, edited)
  {
    var once := ReplaceById(events, edited);
    var twice := ReplaceById(once, edited);
    forall i | 0 <= i < |once|
      ensures twice[i] == once[i]
    {
    }
  }

  /** Saving an event unchanged leaves the list as it was, when ids are distinct. */
  lemma ReplaceWithStored(events: seq<Event>, i: int)
    requires UniqueKeys(events) && 0 <= i < |events|
    ensures ReplaceById(events, events[i]) == events
  {
    var r := ReplaceById(events, events[i]);
    forall k | 0 <= k < |events|
      ensures r[k] == events[k]
    {
    }
  }

  /** After a save, the edited event is in the list whenever its id was. */
  lemma ReplaceStores(events: seq<Event>, edited: Event)
    requires exists e :: e in events && e.id == edited.id
    ensures edited in ReplaceById(events, edited)
  {
    var e :| e in events && e.id == edited.id;
    var i :| 0 <= i < |events| && events[i] == e;
    assert ReplaceById(events, edited)[i] == edited;
  }

  // ----- conflict details -----

  /** `events.filter(e => conflictIds.includes(e.id.toString()))`. */
  function ConflictingEvents(events: seq<Event>, conflictIds: seq<string>): (r: seq<Event>)
    ensures forall e :: e in r <==> e in events && Key(e.id) in conflictIds
    ensures forall e :: multiset(r)[e] == if Key(e.id) in conflictIds then multiset(events)[e] else 0
    ensures Subsequence(r, events)
  {
    if |events| == 0 then []
    else
      assert events == [events[0]] + events[1..];
      if Key(events[0].id) in conflictIds then [events[0]] + ConflictingEvents(events[1..], conflictIds)
      else ConflictingEvents(events[1..], conflictIds)
  }

  /** With distinct id strings, the conflict details of a row are exactly the other
      timed events that clash with the row's event. */
  lemma ConflictDetailsExact(events: seq<Event>, rec: ConflictRecord, b: Event)
    requires UniqueKeys(events) && rec in DetectEventConflicts(events)
    ensures b in ConflictingEvents(events, rec.conflictIds) <==>
      b in events && IsTimed(b) && b != rec.event && Clash(rec.event, b)
  {
    var a := rec.event;
    DetectRecordShape(events, rec);
    if b in ConflictingEvents(events, rec.conflictIds) {
      DetectSymmetric(events, rec, Key(b.id));
      var rec2 :| rec2 in DetectEventConflicts(events) && Key(rec2.event.id) == Key(b.id)
        && Key(a.id) in rec2.conflictIds && rec2.event.date == a.date;
      DetectRecordShape(events, rec2);
      UniqueKeysSameId(events, rec2.event, b);
      DetectExact(events, a, b);
      var rec3 :| rec3 in DetectEventConflicts(events) && rec3.event == a && Key(b.id) in rec3.conflictIds;
      DetectRowUnique(events, rec, rec3);
    }
    if b in events && IsTimed(b) && b != a && Clash(a, b) {
      DetectExact(events, a, b);
      var rec3 :| rec3 in DetectEventConflicts(events) && rec3.event == a && Key(b.id) in rec3.conflictIds;
      DetectRowUnique(events, rec, rec3);
    }
  }
}

=== FILE: events.dfy ===
/** The calendar event record shared by every view and modal, and the quantities the
    views derive from it: start and end in minutes since midnight, and the
    `id.toString()` text under which the conflict code files an event. */
module Events {
  import opened Text
  import opened Clock
  import opened Duration
  import opened Wrappers

  /** An event id: an integer (from the JSON file or from `Date.now()`) or a string.
      `===` on ids is equality of this datatype. The fractional id a load gives an
      id-less event (`Date.now() + Math.random()`) has no constructor of its own; it
      is written as `StrId` of its decimal text, which has the same key and the same
      truthiness. */
  datatype Id = NumId(n: int) | StrId(s: string)

  /** `id.toString()`. A number and its decimal text share a key. */
  function Key(id: Id): (k: string)
    ensures id.NumId? ==> |k| >= 1
  {
    match id
    case NumId(n) => IntToString(n)
    case StrId(s) => s
  }

  /** One calendar entry. `time` is None for an all-day event (an absent or empty
      `time` field, the values `!event.time` treats as missing). An absent `duration`
      is the empty string, which every guarded parse reads as one hour. */
  datatype Event = Event(
    id: Id,
    title: string,
    date: string,
    time: Option<Clock>,
    duration: string,
    description: string,
    color: string,
    completed: bool)

  predicate IsTimed(e: Event)
  {
    e.time.Some?
  }

  /** `hours * 60 + minutes` of `event.time`. */
  function Start(e: Event): (m: nat)
    requires IsTimed(e)
    ensures m < 24 * 60
  {
    MinuteOfDay(e.time.value)
  }

  /** The parsed duration in minutes. */
  function Length(e: Event): nat
  {
    DurationMinutes(e.duration)
  }

  function End(e: Event): (m: nat)
    requires IsTimed(e)
    ensures Start(e) <= m
  {
    Start(e) + Length(e)
  }

  /** No two events share an `id.toString()`; this is what makes id comparisons and
      key comparisons agree. */
  predicate UniqueKeys(events: seq<Event>)
  {
    forall i, j :: 0 <= i < j < |events| ==> Key(events[i].id) != Key(events[j].id)
  }

  /** Ids whose keys differ are different ids. */
  lemma KeyDistinguishes(a: Id, b: Id)
    requires Key(a) != Key(b)
    ensures a != b
  {
  }

  /** On numbers, `toString` loses nothing: two numeric ids with the same key are
      the same id. */
  lemma {:induction false} NumericKeyInjective(a: int, b: int)
    requires Key(NumId(a)) == Key(NumId(b))
    ensures a == b
  {
    if a >= 0 && b >= 0 {
      NatToStringInjective(a, b);
    } else if a < 0 && b < 0 {
      assert IntToString(a)[1..] == NatToString(-a);
      assert IntToString(b)[1..] == NatToString(-b);
      NatToStringInjective(-a, -b);
    }
  }

  /** The one way two different ids meet under one key: a number and its text. */
  lemma SameKeyDifferentIds()
    ensures NumId(5) != StrId("5") && Key(NumId(5)) == Key(StrId("5"))
  {
  }

  /** `events.filter(e => e.date === day)`, order kept. */
  function OnDate(events: seq<Event>, day: string): (r: seq<Event>)
    ensures |r| <= |events|
    ensures forall e :: e in r <==> e in events && e.date == day
    ensures forall e :: multiset(r)[e] == if e.date == day then multiset(events)[e] else 0
  {
    if |events| == 0 then []
    else
      assert events == [events[0]] + events[1..];
      (if events[0].date == day then [events[0]] else []) + OnDate(events[1..], day)
  }

  /** The timed events of a list, order kept: what the grids draw. */
  function TimedOf(events: seq<Event>): (r: seq<Event>)
    ensures |r| <= |events|
    ensures forall e :: e in r <==> e in events && IsTimed(e)
  {
    if |events| == 0 then []
    else (if IsTimed(events[0]) then [events[0]] else []) + TimedOf(events[1..])
  }

  /** The all-day events of a list, order kept: what the all-day lanes draw. */
  function UntimedOf(events: seq<Event>): (r: seq<Event>)
    ensures |r| <= |events|
    ensures forall e :: e in r <==> e in events && !IsTimed(e)
  {
    if |events| == 0 then []
    else (if IsTimed(events[0]) then [] else [events[0]]) + UntimedOf(events[1..])
  }

  /** The grid and the all-day lane split a day's events: each event lands in exactly
      one of the two, and together they hold every event once. */
  lemma {:induction false} TimedUntimedPartition(events: seq<Event>)
    ensures multiset(TimedOf(events)) + multiset(UntimedOf(events)) == multiset(events)
    ensures |TimedOf(events)| + |UntimedOf(events)| == |events|
    ensures forall e :: e in TimedOf(events) ==> e !in UntimedOf(events)
  {
    TimedUntimedMultiset(events);
    assert |multiset(TimedOf(events)) + multiset(UntimedOf(events))| == |multiset(events)|;
  }

  lemma {:induction false} TimedUntimedMultiset(events: seq<Event>)
    ensures multiset(TimedOf(events)) + multiset(UntimedOf(events)) == multiset(events)
  {
    if |events| > 0 {
      var e, rest := events[0], events[1..];
      TimedUntimedMultiset(rest);
      assert events == [e] + rest;
      if IsTimed(e) {
        assert TimedOf(events) == [e] + TimedOf(rest);
        assert UntimedOf(events) == UntimedOf(rest);
      } else {
        assert TimedOf(events) == TimedOf(rest);
        assert UntimedOf(events) == [e] + UntimedOf(rest);
      }
      SplitStep(e, rest, TimedOf(rest), UntimedOf(rest), TimedOf(events), UntimedOf(events));
    }
  }

  /** Putting `e` in front of one of two parts that split `rest` splits `[e] + rest`. */
  lemma SplitStep(e: Event, rest: seq<Event>, t: seq<Event>, u: seq<Event>, t': seq<Event>, u': seq<Event>)
    requires multiset(t) + multiset(u) == multiset(rest)
    requires (t' == [e] + t && u' == u) || (t' == t && u' == [e] + u)
    ensures multiset(t') + multiset(u') == multiset([e] + rest)
  {
  }

  /** A list with distinct id strings keeps them after dropping its first event. */
  lemma UniqueKeysTail(events: seq<Event>)
    requires UniqueKeys(events) && |events| > 0
    ensures UniqueKeys(events[1..])
  {
    var rest := events[1..];
    forall i, j | 0 <= i < j < |rest|
      ensures Key(rest[i].id) != Key(rest[j].id)
    {
      assert rest[i] == events[i + 1] && rest[j] == events[j + 1];
    }
  }

  /** Filtering by date keeps the id strings distinct. */
  lemma {:induction false} OnDateUnique(events: seq<Event>, day: string)
    requires UniqueKeys(events)
    ensures UniqueKeys(OnDate(events, day))
  {
    if |events| > 0 {
      var e, rest := events[0], events[1..];
      UniqueKeysTail(events);
      OnDateUnique(rest, day);
      HeadKeyIsNew(events);
      if e.date == day {
        var tail := OnDate(rest, day);
        assert OnDate(events, day) == [e] + tail;
        ConsUnique(e, tail);
      }
    }
  }

  /** With distinct id strings, no later event shares the first event's id string. */
  lemma HeadKeyIsNew(events: seq<Event>)
    requires UniqueKeys(events) && |events| > 0
    ensures forall x :: x in events[1..] ==> Key(events[0].id) != Key(x.id)
  {
    forall x | x in events[1..]
      ensures Key(events[0].id) != Key(x.id)
    {
      var m :| 0 <= m < |events| - 1 && events[1..][m] == x;
      assert events[m + 1] == x;
    }
  }

  /** Putting an event in front of a list keeps the id strings distinct when its own
      id string is new. */
  lemma ConsUnique(e: Event, tail: seq<Event>)
    requires UniqueKeys(tail) && forall x :: x in tail ==> Key(e.id) != Key(x.id)
    ensures UniqueKeys([e] + tail)
  {
    var s := [e] + tail;
    forall p, q | 0 <= p < q < |s|
      ensures Key(s[p].id) != Key(s[q].id)
    {
      assert s[q] == tail[q - 1] && s[q] in tail;
      if p > 0 { assert s[p] == tail[p - 1]; }
    }
  }

  /** Under distinct id strings, the id string determines the event. */
  lemma UniqueKeysSameId(events: seq<Event>, a: Event, b: Event)
    requires UniqueKeys(events) && a in events && b in events && Key(a.id) == Key(b.id)
    ensures a == b
  {
    var i :| 0 <= i < |events| && events[i] == a;
    var j :| 0 <= j < |events| && events[j] == b;
  }
}

=== FILE: gestures.dfy ===
/** How the Day and Week views react to the user: a horizontal swipe steps to the
    next or previous period, a click on an event opens either its conflict details or
    its popup, hovering shows a tooltip except on small screens, and clicks on day
    headers and hour cells open the create form or switch to the Day view. Screen
    width is the `mobile` flag; touch positions are whole pixels. */
module Gestures {
  import opened Dates
  import opened DateText
  import opened Events
  import opened Conflicts
  import opened App
  import opened Wrappers

  // ----- swipes -----

  /** `minSwipeDistance`. */
  const MinSwipeDistance := 50

  datatype Nav = GoNext | GoPrev

  /** A touch position as JavaScript tests it: null and 0 are falsy. */
  predicate Truthy(x: Option<int>)
  {
    x.Some? && x.value != 0
  }

  /** `onTouchEnd`: the navigation handlers it calls, in order. */
  function OnTouchEnd(touchStart: Option<int>, touchEnd: Option<int>): (calls: seq<Nav>)
    ensures |calls| <= 1
    ensures calls == [GoNext] <==>
      Truthy(touchStart) && Truthy(touchEnd) && touchStart.value - touchEnd.value > MinSwipeDistance
    ensures calls == [GoPrev] <==>
      Truthy(touchStart) && Truthy(touchEnd) && touchStart.value - touchEnd.value < -MinSwipeDistance
  {
    if !Truthy(touchStart) || !Truthy(touchEnd) then []
    else
      var distance := touchStart.value - touchEnd.value;
      var left := if distance > MinSwipeDistance then [GoNext] else [];
      var right := if distance < -MinSwipeDistance then [GoPrev] else [];
      assert left == [] || right == [];
      assert left + [] == left && [] + right == right;
      left + right
  }

  /** Swiping back along the same path calls the opposite handler. */
  lemma SwipeMirror(a: int, b: int)
    ensures OnTouchEnd(Some(a), Some(b)) == [GoNext] <==> OnTouchEnd(Some(b), Some(a)) == [GoPrev]
    ensures OnTouchEnd(Some(a), Some(b)) == [] <==> OnTouchEnd(Some(b), Some(a)) == []
  {
  }

  /** A short swipe, or one that starts or ends at pixel 0, does nothing. */
  lemma ShortSwipeDoesNothing(touchStart: Option<int>, touchEnd: Option<int>)
    requires !Truthy(touchStart) || !Truthy(touchEnd)
      || -MinSwipeDistance <= touchStart.value - touchEnd.value <= MinSwipeDistance
    ensures OnTouchEnd(touchStart, touchEnd) == []
  {
  }

  /** The state after the handlers a swipe calls. */
  function ApplySwipe(s: State, touchStart: Option<int>, touchEnd: Option<int>): (r: State)
    requires Valid(s.currentDate)
    ensures Valid(r.currentDate) && r.(currentDate := s.currentDate) == s
    ensures OnTouchEnd(touchStart, touchEnd) == [GoNext] ==> r.currentDate == Next(s.view, s.currentDate)
    ensures OnTouchEnd(touchStart, touchEnd) == [GoPrev] ==> r.currentDate == Prev(s.view, s.currentDate)
    ensures OnTouchEnd(touchStart, touchEnd) == [] ==> r == s
  {
    var calls := OnTouchEnd(touchStart, touchEnd);
    if calls == [GoNext] then HandleNext(s)
    else if calls == [GoPrev] then HandlePrev(s)
    else s
  }

  /** In the Day and Week views, swiping one way and then back the same distance
      returns to the date. */
  lemma SwipeThereAndBack(s: State, a: int, b: int)
    requires Valid(s.currentDate) && (s.view == Day || s.view == Week)
    ensures ApplySwipe(ApplySwipe(s, Some(a), Some(b)), Some(b), Some(a)) == s
  {
    SwipeMirror(a, b);
    PrevUndoesNext(s.view, s.currentDate);
  }

  // ----- clicks on events -----

  /** The click handler of a timed event in the Day and Week grids: an event with a
      conflict row whose count is positive opens the conflict warning, any other the
      event popup. */
  function EventClick(s: State, event: Event): (r: State)
    ensures HasConflicts(s.events, event) ==>
      r.showConflictWarning && r.conflictInfo.Some? && r.conflictInfo.value.event == event
      && r.(conflictInfo := s.conflictInfo, showConflictWarning := s.showConflictWarning) == s
    ensures !HasConflicts(s.events, event) ==> r == HandleEventClick(s, event)
  {
    var conflicts := FindById(DetectEventConflicts(s.events), event.id);
    if conflicts.Some? && conflicts.value.conflictCount > 0 then
      HandleShowConflictDetails(s, event, conflicts.value)
    else HandleEventClick(s, event)
  }

  /** With distinct id strings, clicking a timed event warns exactly when another
      timed event clashes with it, and the warning lists exactly those events. */
  lemma EventClickWarnsExactly(s: State, event: Event, b: Event)
    requires UniqueKeys(s.events) && event in s.events && IsTimed(event)
    ensures EventClick(s, event).showConflictWarning && !s.showConflictWarning <==>
      !s.showConflictWarning && exists x :: x in s.events && IsTimed(x) && x != event && Clash(event, x)
    ensures HasConflicts(s.events, event) ==>
      (b in EventClick(s, event).conflictInfo.value.conflictingEvents <==>
        b in s.events && IsTimed(b) && b != event && Clash(event, b))
  {
    HasConflictsExact(s.events, event);
    var found := FindById(DetectEventConflicts(s.events), event.id);
    if HasConflicts(s.events, event) {
      var rec := found.value;
      DetectRecordShape(s.events, rec);
      UniqueKeysSameId(s.events, rec.event, event);
      ConflictWarningExact(s, rec, b);
    }
  }

  /** An all-day event's click (the lanes above the grid) always opens the popup;
      routing it through the grid's handler would do the same, since all-day events
      are never in the conflict report. */
  lemma AllDayClickIsPopup(s: State, event: Event)
    requires UniqueKeys(s.events) && event in s.events && !IsTimed(event)
    ensures EventClick(s, event) == HandleEventClick(s, event)
  {
    var found := FindById(DetectEventConflicts(s.events), event.id);
    if found.Some? {
      DetectRecordShape(s.events, found.value);
      UniqueKeysSameId(s.events, found.value.event, event);
      DetectSkipsUntimed(s.events, event);
    }
  }

  // ----- tooltips -----

  /** The Week view's `handleEventMouseEnter` and the older week view's inline one. */
  function MouseEnter(mobile: bool, s: State, event: Event): (r: State)
    ensures mobile ==> r == s
    ensures !mobile ==> r.tooltip == Tooltip(true, Some(event)) && r.(tooltip := s.tooltip) == s
  {
    if mobile then s else s.(tooltip := Tooltip(true, Some(event)))
  }

  /** `handleEventMouseLeave`. */
  function MouseLeave(mobile: bool, s: State): (r: State)
    ensures mobile ==> r == s
    ensures !mobile ==> r.tooltip == HiddenTooltip && r.(tooltip := s.tooltip) == s
  {
    if mobile then s else s.(tooltip := HiddenTooltip)
  }

  datatype Hover = Enter(event: Event) | Leave

  /** The state after a run of hover events. */
  function Hovering(mobile: bool, s: State, hovers: seq<Hover>): State
    decreases |hovers|
  {
    if |hovers| == 0 then s
    else
      var h := hovers[|hovers| - 1];
      var before := Hovering(mobile, s, hovers[..|hovers| - 1]);
      match h
      case Enter(e) => MouseEnter(mobile, before, e)
      case Leave => MouseLeave(mobile, before)
  }

  /** On a small screen no run of hovers changes the state: tooltips are never set. */
  lemma {:induction false} MobileNeverShowsTooltip(s: State, hovers: seq<Hover>)
    ensures Hovering(true, s, hovers) == s
    decreases |hovers|
  {
    if |hovers| > 0 {
      MobileNeverShowsTooltip(s, hovers[..|hovers| - 1]);
    }
  }

  /** On a large screen the tooltip shows the last event entered, until it is left;
      nothing else changes. */
  lemma {:induction false} DesktopTooltipFollowsHover(s: State, hovers: seq<Hover>)
    requires |hovers| > 0
    ensures var r := Hovering(false, s, hovers);
      r.(tooltip := s.tooltip) == s
      && r.tooltip == match hovers[|hovers| - 1]
        case Enter(e) => Tooltip(true, Some(e))
        case Leave => HiddenTooltip
    decreases |hovers|
  {
    if |hovers| > 1 {
      DesktopTooltipFollowsHover(s, hovers[..|hovers| - 1]);
    }
  }

  // ----- clicks on the grid -----

  /** The Week view's day-header and day-column click: the day becomes current and
      the Day view opens, without the create form. The hour-cell click is the same,
      the hour aside. */
  function WeekDayClick(s: State, day: Date): (r: State)
    requires Formattable(day)
    ensures r.currentDate == day && r.view == Day
    ensures r.showEventModal == s.showEventModal && r.newEvent == s.newEvent
    ensures r.(currentDate := s.currentDate, view := s.view) == s
  {
    HandleOpenModal(s, day, true).(view := Day)
  }

  /** The older week view's day-header and hour-cell clicks, and the Day view's
      hour-cell click: open the create form on that day, on large screens only. */
  function DesktopOnlyOpen(mobile: bool, s: State, day: Date): (r: State)
    requires Formattable(day)
    ensures mobile ==> r == s
    ensures !mobile ==> r == HandleOpenModal(s, day, false) && r.showEventModal && r.newEvent.date == Format(day)
  {
    if mobile then s else HandleOpenModal(s, day, false)
  }
}

=== FILE: layout.dfy ===
/** Placement of timed events in the Day and Week time grids.

    Vertical: an event starts `48 * hour + 0.8 * minute` pixels down the column and is
    `48 * durationHours` pixels tall (48 px per hour).

    Horizontal: the events an event overlaps are laid out side by side. The overlap set
    is computed per drawn event; `totalOverlapping` is its size plus one, and
    `overlapIndex` the number of its members whose time string is `<=` the drawn
    event's. The width is `1/total` of the column and the left offset `index/total`,
    each adjusted by a few pixels that differ between the copies. */
module Layout {
  import opened Text
  import opened Clock
  import opened Duration
  import opened Events
  import opened Overlap
  import opened Conflicts

  /** `e` overlaps the drawn event `ev`, as the layout filters test it: `e` is the
      first interval of the three-clause test. */
  predicate OverlapsDrawn(e: Event, ev: Event)
    requires IsTimed(e) && IsTimed(ev)
  {
    ThreeClause(Start(e), End(e), Start(ev), End(ev))
  }

  /** The Day view's overlap set for the event drawn at position `i` of the day's
      events (DayView.jsx and the single-file day view): the other timed events of the
      day, excluded by position (`e === event`), that overlap it. Positions `k..` only. */
  function DayOverlappingFrom(today: seq<Event>, i: int, k: nat): (r: seq<Event>)
    requires 0 <= i < |today| && IsTimed(today[i]) && k <= |today|
    ensures |r| <= |today| - k
    ensures forall e :: e in r ==> IsTimed(e) && OverlapsDrawn(e, today[i])
    decreases |today| - k
  {
    if k == |today| then []
    else
      var e := today[k];
      (if k != i && IsTimed(e) && OverlapsDrawn(e, today[i]) then [e] else [])
        + DayOverlappingFrom(today, i, k + 1)
  }

  function DayOverlapping(today: seq<Event>, i: int): seq<Event>
    requires 0 <= i < |today| && IsTimed(today[i])
  {
    DayOverlappingFrom(today, i, 0)
  }

  /** The Week view's overlap set (WeekView.jsx and the older week view): every event
      of the whole list with a different id, dated `day`, timed, overlapping `ev`. */
  function WeekOverlapping(events: seq<Event>, day: string, ev: Event): (r: seq<Event>)
    requires IsTimed(ev)
    ensures forall e :: e in r <==>
      e in events && e.id != ev.id && e.date == day && IsTimed(e) && OverlapsDrawn(e, ev)
  {
    if |events| == 0 then []
    else
      var e := events[0];
      (if e.id != ev.id && e.date == day && IsTimed(e) && OverlapsDrawn(e, ev) then [e] else [])
        + WeekOverlapping(events[1..], day, ev)
  }

  /** `overlapping.filter(e => e.time <= event.time).length`. */
  function CountTimeLe(overlapping: seq<Event>, t: Clock): (n: nat)
    requires AllTimed(overlapping)
    ensures n <= |overlapping|
    ensures n == |overlapping| <==> forall k :: 0 <= k < |overlapping| ==> LexLe(overlapping[k].time.value, t)
    ensures n == 0 <==> forall k :: 0 <= k < |overlapping| ==> !LexLe(overlapping[k].time.value, t)
  {
    if |overlapping| == 0 then 0
    else
      var rest := overlapping[1..];
      assert forall k :: 0 <= k < |rest| ==> rest[k] == overlapping[k + 1];
      (if LexLe(overlapping[0].time.value, t) then 1 else 0) + CountTimeLe(rest, t)
  }

  /** Reference count on minutes: the members that start no later than `m`. */
  function CountStartNoLater(overlapping: seq<Event>, m: int): (n: nat)
    requires AllTimed(overlapping)
    ensures n <= |overlapping|
  {
    if |overlapping| == 0 then 0
    else (if Start(overlapping[0]) <= m then 1 else 0) + CountStartNoLater(overlapping[1..], m)
  }

  /** `totalOverlapping` and `overlapIndex` of a drawn event. */
  datatype Slot = Slot(total: nat, index: nat)

  function SlotOf(overlapping: seq<Event>, ev: Event): (s: Slot)
    requires IsTimed(ev) && AllTimed(overlapping)
    ensures s.total == |overlapping| + 1 >= 1
    ensures s.index <= s.total - 1
  {
    Slot(|overlapping| + 1, CountTimeLe(overlapping, ev.time.value))
  }

  /** A CSS `calc(P% + Npx)` pair for `left` and for `width`: a fraction of the column
      plus a pixel adjustment. */
  datatype Box = Box(leftFrac: real, leftPx: int, widthFrac: real, widthPx: int)

  /** The box's left and right edge in a column `columnPx` wide. */
  function LeftEdge(b: Box, columnPx: real): real
  {
    b.leftFrac * columnPx + b.leftPx as real
  }

  function RightEdge(b: Box, columnPx: real): real
  {
    LeftEdge(b, columnPx) + b.widthFrac * columnPx + b.widthPx as real
  }

  predicate WellPlaced(s: Slot)
  {
    s.total >= 1 && s.index <= s.total - 1
  }

  /** DayView.jsx and the single-file day view: shared events get `1/total - 4px` at
      `index/total + 4px`; a lone event `100% - 8px` at `4px`. */
  function DayBox(s: Slot): (b: Box)
    requires WellPlaced(s)
    ensures s.total > 1 ==> b.widthFrac * s.total as real == 1.0 && b.leftFrac * s.total as real == s.index as real
    ensures s.total == 1 ==> b.leftFrac == 0.0 && b.widthFrac == 1.0
    ensures b.leftPx >= 0 && b.leftPx + b.widthPx <= 0
  {
    if s.total > 1 then Box(s.index as real / s.total as real, 4, 1.0 / s.total as real, -4)
    else Box(0.0, 4, 1.0, -8)
  }

  /** WeekView.jsx: as the Day view, but shared events sit at `index/total + 2px`. */
  function WeekBox(s: Slot): (b: Box)
    requires WellPlaced(s)
    ensures s.total > 1 ==> b.widthFrac * s.total as real == 1.0 && b.leftFrac * s.total as real == s.index as real
    ensures s.total == 1 ==> b.leftFrac == 0.0 && b.widthFrac == 1.0
    ensures b.leftPx >= 0 && b.leftPx + b.widthPx <= 0
  {
    if s.total > 1 then Box(s.index as real / s.total as real, 2, 1.0 / s.total as real, -4)
    else Box(0.0, 4, 1.0, -8)
  }

  /** The older week view: the width loses 2px on mobile and 4px otherwise, shared or
      not; the left offset is `index/total + 2px`, or `2px` alone. */
  function OlderWeekBox(s: Slot, mobile: bool): (b: Box)
    requires WellPlaced(s)
    ensures s.total > 1 ==> b.widthFrac * s.total as real == 1.0 && b.leftFrac * s.total as real == s.index as real
    ensures s.total == 1 ==> b.leftFrac == 0.0 && b.widthFrac == 1.0
    ensures b.widthPx == (if mobile then -2 else -4)
    ensures b.leftPx >= 0 && b.leftPx + b.widthPx <= 0
  {
    var adjust := if mobile then -2 else -4;
    if s.total > 1 then Box(s.index as real / s.total as real, 2, 1.0 / s.total as real, adjust)
    else Box(0.0, 2, 1.0, adjust)
  }

  /** The fractions never run past the column: `index/total + 1/total <= 1`. */
  lemma {:induction false} FractionsFit(s: Slot)
    requires WellPlaced(s)
    ensures DayBox(s).leftFrac + DayBox(s).widthFrac <= 1.0
    ensures WeekBox(s).leftFrac + WeekBox(s).widthFrac <= 1.0
    ensures forall m :: OlderWeekBox(s, m).leftFrac + OlderWeekBox(s, m).widthFrac <= 1.0
    ensures DayBox(s).leftFrac >= 0.0 && WeekBox(s).leftFrac >= 0.0
  {
    if s.total > 1 {
      var t := s.total as real;
      assert (s.index as real) / t + 1.0 / t == (s.index as real + 1.0) / t;
      assert s.index as real + 1.0 <= t;
    }
  }

  /** A box whose fractions fit the column and whose pixel adjustments only shrink it
      lies inside the column. */
  lemma EdgesInside(b: Box, columnPx: real)
    requires b.leftFrac >= 0.0 && b.widthFrac >= 0.0 && b.leftFrac + b.widthFrac <= 1.0
    requires b.leftPx >= 0 && b.leftPx + b.widthPx <= 0 && columnPx >= 0.0
    ensures LeftEdge(b, columnPx) >= 0.0 && RightEdge(b, columnPx) <= columnPx
  {
    assert b.leftFrac * columnPx + b.widthFrac * columnPx == (b.leftFrac + b.widthFrac) * columnPx;
  }

  /** In pixels, every box of every copy lies inside a column of any width. */
  lemma BoxesInsideColumn(s: Slot, columnPx: real, mobile: bool)
    requires WellPlaced(s) && columnPx >= 0.0
    ensures LeftEdge(DayBox(s), columnPx) >= 0.0 && RightEdge(DayBox(s), columnPx) <= columnPx
    ensures LeftEdge(WeekBox(s), columnPx) >= 0.0 && RightEdge(WeekBox(s), columnPx) <= columnPx
    ensures LeftEdge(OlderWeekBox(s, mobile), columnPx) >= 0.0
      && RightEdge(OlderWeekBox(s, mobile), columnPx) <= columnPx
  {
    FractionsFit(s);
    EdgesInside(DayBox(s), columnPx);
    EdgesInside(WeekBox(s), columnPx);
    EdgesInside(OlderWeekBox(s, mobile), columnPx);
  }

  /** The Day view's slot for the event at position `i`. */
  function DaySlot(today: seq<Event>, i: int): (s: Slot)
    requires 0 <= i < |today| && IsTimed(today[i])
    ensures WellPlaced(s)
  {
    SlotOf(DayOverlapping(today, i), today[i])
  }

  /** The Week view's slot for `ev` in the column of `day`. */
  function WeekSlot(events: seq<Event>, day: string, ev: Event): (s: Slot)
    requires IsTimed(ev)
    ensures WellPlaced(s)
  {
    SlotOf(WeekOverlapping(events, day, ev), ev)
  }

  /** For zero-padded times, the string test `e.time <= event.time` is the start-minute
      test: an event that starts strictly before every event it overlaps gets the
      left-most column. */
  lemma EarliestGetsIndexZero(overlapping: seq<Event>, ev: Event)
    requires IsTimed(ev) && AllTimed(overlapping)
    requires forall k :: 0 <= k < |overlapping| ==> Start(ev) < Start(overlapping[k])
    ensures SlotOf(overlapping, ev).index == 0
  {
    forall k | 0 <= k < |overlapping|
      ensures !LexLe(overlapping[k].time.value, ev.time.value)
    {
      ClockStringOrder(overlapping[k].time.value, ev.time.value);
    }
  }

  /** The latest-starting event gets the right-most column. */
  lemma LatestGetsLastIndex(overlapping: seq<Event>, ev: Event)
    requires IsTimed(ev) && AllTimed(overlapping)
    requires forall k :: 0 <= k < |overlapping| ==> Start(overlapping[k]) <= Start(ev)
    ensures SlotOf(overlapping, ev).index == SlotOf(overlapping, ev).total - 1
  {
    forall k | 0 <= k < |overlapping|
      ensures LexLe(overlapping[k].time.value, ev.time.value)
    {
      ClockStringOrder(overlapping[k].time.value, ev.time.value);
    }
  }

  /** The index counts exactly the overlapping events that start no later: comparing
      the zero-padded strings is comparing start minutes. */
  lemma {:induction false} IndexCountsEarlierStarts(overlapping: seq<Event>, t: Clock)
    requires AllTimed(overlapping)
    ensures CountTimeLe(overlapping, t) == CountStartNoLater(overlapping, MinuteOfDay(t))
  {
    if |overlapping| > 0 {
      IndexCountsEarlierStarts(overlapping[1..], t);
      ClockStringOrder(overlapping[0].time.value, t);
    }
  }

  /** Two timed events of the day with the same time string always overlap (the
      three-clause test holds whenever the starts are equal), so each is in the other's
      overlap set and, its time string being `<=` the other's, counted in the other's
      index: neither of them is drawn in the left-most column. */
  lemma EqualTimesShareColumn(today: seq<Event>, i: int, j: int)
    requires 0 <= i < |today| && 0 <= j < |today| && i != j
    requires IsTimed(today[i]) && IsTimed(today[j]) && today[i].time == today[j].time
    ensures today[j] in DayOverlapping(today, i) && today[i] in DayOverlapping(today, j)
    ensures LexLe(today[j].time.value, today[i].time.value)
    ensures DaySlot(today, i).index >= 1 && DaySlot(today, j).index >= 1
  {
    LexLeReflexive(today[i].time.value);
    KeptInScan(today, i, j, 0);
    KeptInScan(today, j, i, 0);
    ScanAllTimed(today, i, 0);
    ScanAllTimed(today, j, 0);
    CountedMember(DayOverlapping(today, i), today[j], today[i].time.value);
    CountedMember(DayOverlapping(today, j), today[i], today[j].time.value);
  }

  /** With the same time and the same duration the two events get the same slot: the
      same number of overlapping events and the same index. */
  lemma EqualEventsSameSlot(today: seq<Event>, i: int, j: int)
    requires 0 <= i < |today| && 0 <= j < |today| && i != j
    requires IsTimed(today[i]) && IsTimed(today[j]) && today[i].time == today[j].time
    requires today[i].duration == today[j].duration
    ensures DaySlot(today, i) == DaySlot(today, j)
  {
    SameScan(today, i, j, 0);
  }

  /** Two events drawn alone with the same time and duration land in the second column
      of two, on top of each other. */
  lemma LonePairSlots(today: seq<Event>, i: int, j: int)
    requires 0 <= i < |today| && 0 <= j < |today| && i != j
    requires IsTimed(today[i]) && IsTimed(today[j]) && today[i].time == today[j].time
    requires today[i].duration == today[j].duration
    requires forall k :: 0 <= k < |today| && k != i && k != j ==> !IsTimed(today[k])
    ensures DaySlot(today, i) == DaySlot(today, j) == Slot(2, 1)
  {
    LexLeReflexive(today[i].time.value);
    DayOverlappingOnly(today, i, j, 0);
    DayOverlappingOnly(today, j, i, 0);
  }

  /** A timed event at position `j >= k` that overlaps `today[i]` is kept by the scan. */
  lemma KeptInScan(today: seq<Event>, i: int, j: int, k: nat)
    requires 0 <= i < |today| && 0 <= j < |today| && i != j && k <= j
    requires IsTimed(today[i]) && IsTimed(today[j]) && today[i].time == today[j].time
    ensures today[j] in DayOverlappingFrom(today, i, k)
  {
    SameStartOverlaps(today[j], today[i]);
    KeptIsMember(today, i, j, k);
  }

  /** A position the scan keeps is in the scan from any earlier position. */
  lemma {:induction false} KeptIsMember(today: seq<Event>, i: int, m: int, k: nat)
    requires 0 <= i < |today| && IsTimed(today[i]) && k <= m < |today| && Kept(today, i, m)
    ensures today[m] in DayOverlappingFrom(today, i, k)
    decreases m - k
  {
    KeptStep(today, i, k);
    var rest := DayOverlappingFrom(today, i, k + 1);
    if k == m {
      InEither([today[k]], rest, today[m]);
    } else {
      KeptIsMember(today, i, m, k + 1);
      if Kept(today, i, k) {
        InEither([today[k]], rest, today[m]);
      } else {
        assert DayOverlappingFrom(today, i, k) == rest;
      }
    }
  }

  /** An element of either part is an element of the concatenation. */
  lemma InEither(a: seq<Event>, b: seq<Event>, x: Event)
    requires x in a || x in b
    ensures x in a + b
  {
    if x in a {
      var p :| 0 <= p < |a| && a[p] == x;
      assert (a + b)[p] == x;
    } else {
      var p :| 0 <= p < |b| && b[p] == x;
      assert (a + b)[|a| + p] == x;
    }
  }

  /** A member whose time string is `<=` the drawn one's raises the count above zero. */
  lemma CountedMember(overlapping: seq<Event>, e: Event, t: Clock)
    requires AllTimed(overlapping) && e in overlapping && LexLe(e.time.value, t)
    ensures CountTimeLe(overlapping, t) >= 1
  {
    var p :| 0 <= p < |overlapping| && overlapping[p] == e;
  }

  /** The count over a list with one more event in front. */
  lemma CountCons(e: Event, rest: seq<Event>, t: Clock)
    requires IsTimed(e) && AllTimed(rest)
    ensures CountTimeLe([e] + rest, t) == (if LexLe(e.time.value, t) then 1 else 0) + CountTimeLe(rest, t)
  {
    assert ([e] + rest)[1..] == rest;
  }

  /** How many events the scan for `i` keeps from position `k` on whose time string is
      `<= t`. */
  function ScanCount(today: seq<Event>, i: int, k: nat, t: Clock): nat
    requires 0 <= i < |today| && IsTimed(today[i]) && k <= |today|
  {
    ScanAllTimed(today, i, k);
    CountTimeLe(DayOverlappingFrom(today, i, k), t)
  }

  /** Every event the scan keeps is timed. */
  lemma ScanAllTimed(today: seq<Event>, i: int, k: nat)
    requires 0 <= i < |today| && IsTimed(today[i]) && k <= |today|
    ensures AllTimed(DayOverlappingFrom(today, i, k))
  {
    var r := DayOverlappingFrom(today, i, k);
    forall p | 0 <= p < |r|
      ensures IsTimed(r[p])
    {
      assert r[p] in r;
    }
  }

  /** The scans for two events with the same start and end keep the same events
      and count the same time strings `<=` theirs, except that the scan for `i` keeps
      `today[j]` and the scan for `j` keeps `today[i]`, from any position `k` on. */
  lemma {:induction false} SameScan(today: seq<Event>, i: int, j: int, k: nat)
    requires 0 <= i < |today| && 0 <= j < |today| && i != j && k <= |today|
    requires IsTimed(today[i]) && IsTimed(today[j]) && today[i].time == today[j].time
    requires today[i].duration == today[j].duration
    ensures |DayOverlappingFrom(today, i, k)| + (if k <= i then 1 else 0)
      == |DayOverlappingFrom(today, j, k)| + (if k <= j then 1 else 0)
    ensures ScanCount(today, i, k, today[i].time.value) + (if k <= i then 1 else 0)
      == ScanCount(today, j, k, today[i].time.value) + (if k <= j then 1 else 0)
    decreases |today| - k
  {
    if k < |today| {
      SameScan(today, i, j, k + 1);
      LengthStep(today, i, j, k);
      CountStep(today, i, j, k);
    }
  }

  /** The step of `SameScan` for the lengths. */
  lemma LengthStep(today: seq<Event>, i: int, j: int, k: nat)
    requires 0 <= i < |today| && 0 <= j < |today| && i != j && k < |today|
    requires IsTimed(today[i]) && IsTimed(today[j]) && today[i].time == today[j].time
    requires today[i].duration == today[j].duration
    requires |DayOverlappingFrom(today, i, k + 1)| + (if k + 1 <= i then 1 else 0)
      == |DayOverlappingFrom(today, j, k + 1)| + (if k + 1 <= j then 1 else 0)
    ensures |DayOverlappingFrom(today, i, k)| + (if k <= i then 1 else 0)
      == |DayOverlappingFrom(today, j, k)| + (if k <= j then 1 else 0)
  {
    ScanStep(today, i, k);
    ScanStep(today, j, k);
    KeptSwap(today, i, j, k);
    var ka, kb := Kept(today, i, k), Kept(today, j, k);
    OffsetStep(|DayOverlappingFrom(today, i, k)|, |DayOverlappingFrom(today, i, k + 1)|,
      |DayOverlappingFrom(today, j, k)|, |DayOverlappingFrom(today, j, k + 1)|,
      if ka then 1 else 0, if kb then 1 else 0, k, i, j);
  }

  /** The step of `SameScan` for the counts. */
  lemma CountStep(today: seq<Event>, i: int, j: int, k: nat)
    requires 0 <= i < |today| && 0 <= j < |today| && i != j && k < |today|
    requires IsTimed(today[i]) && IsTimed(today[j]) && today[i].time == today[j].time
    requires today[i].duration == today[j].duration
    requires ScanCount(today, i, k + 1, today[i].time.value) + (if k + 1 <= i then 1 else 0)
      == ScanCount(today, j, k + 1, today[i].time.value) + (if k + 1 <= j then 1 else 0)
    ensures ScanCount(today, i, k, today[i].time.value) + (if k <= i then 1 else 0)
      == ScanCount(today, j, k, today[i].time.value) + (if k <= j then 1 else 0)
  {
    var t := today[i].time.value;
    ScanCountStep(today, i, k, t);
    ScanCountStep(today, j, k, t);
    KeptSwap(today, i, j, k);
    var ka, kb := Kept(today, i, k), Kept(today, j, k);
    var counted := IsTimed(today[k]) && LexLe(today[k].time.value, t);
    var a, a1 := ScanCount(today, i, k, t), ScanCount(today, i, k + 1, t);
    var b, b1 := ScanCount(today, j, k, t), ScanCount(today, j, k + 1, t);
    OffsetStep(a, a1, b, b1, if ka && counted then 1 else 0, if kb && counted then 1 else 0, k, i, j);
  }

  /** The step of the offset induction, on plain numbers: position `k` adds the same
      to both sides except at `i` and `j`, where the offsets trade places. */
  lemma OffsetStep(a: int, a1: int, b: int, b1: int, da: int, db: int, k: int, i: int, j: int)
    requires i != j && a == da + a1 && b == db + b1
    requires a1 + (if k + 1 <= i then 1 else 0) == b1 + (if k + 1 <= j then 1 else 0)
    requires k == i ==> da == 0 && db == 1
    requires k == j ==> da == 1 && db == 0
    requires k != i && k != j ==> da == db
    ensures a + (if k <= i then 1 else 0) == b + (if k <= j then 1 else 0)
  {
  }

  /** Position `k` is kept by the scan for `i`. */
  predicate Kept(today: seq<Event>, i: int, k: int)
    requires 0 <= i < |today| && IsTimed(today[i]) && 0 <= k < |today|
  {
    k != i && IsTimed(today[k]) && OverlapsDrawn(today[k], today[i])
  }

  /** For two events with the same start and end, the scan for `i` keeps position
      `j`, the scan for `j` keeps position `i`, and they agree everywhere else. Both
      have the same time string, which is `<=` itself. */
  lemma KeptSwap(today: seq<Event>, i: int, j: int, k: nat)
    requires 0 <= i < |today| && 0 <= j < |today| && i != j && k < |today|
    requires IsTimed(today[i]) && IsTimed(today[j]) && today[i].time == today[j].time
    requires today[i].duration == today[j].duration
    ensures k == i ==> !Kept(today, i, k) && Kept(today, j, k)
    ensures k == j ==> Kept(today, i, k) && !Kept(today, j, k)
    ensures k != i && k != j ==> Kept(today, i, k) == Kept(today, j, k)
    ensures (k == i || k == j) ==> LexLe(today[k].time.value, today[i].time.value)
  {
    LexLeReflexive(today[i].time.value);
    if k == i {
      SameStartOverlaps(today[i], today[j]);
    } else if k == j {
      SameStartOverlaps(today[j], today[i]);
    } else if IsTimed(today[k]) {
      SameSpanSameTest(today[k], today[i], today[j]);
    }
  }

  /** One step of the scan for `i`, with the test folded into `Kept`. */
  lemma KeptStep(today: seq<Event>, i: int, k: nat)
    requires 0 <= i < |today| && IsTimed(today[i]) && k < |today|
    ensures DayOverlappingFrom(today, i, k)
      == (if Kept(today, i, k) then [today[k]] else []) + DayOverlappingFrom(today, i, k + 1)
  {
    DayStep(today, i, k);
  }

  /** One step of the scan for `i`, as a length. */
  lemma ScanStep(today: seq<Event>, i: int, k: nat)
    requires 0 <= i < |today| && IsTimed(today[i]) && k < |today|
    ensures |DayOverlappingFrom(today, i, k)|
      == (if Kept(today, i, k) then 1 else 0) + |DayOverlappingFrom(today, i, k + 1)|
  {
    DayStep(today, i, k);
  }

  /** One step of the scan for `i`, as a count of time strings `<= t`. */
  lemma ScanCountStep(today: seq<Event>, i: int, k: nat, t: Clock)
    requires 0 <= i < |today| && IsTimed(today[i]) && k < |today|
    ensures ScanCount(today, i, k, t)
      == (if Kept(today, i, k) && LexLe(today[k].time.value, t) then 1 else 0)
        + ScanCount(today, i, k + 1, t)
  {
    DayStep(today, i, k);
    var rest := DayOverlappingFrom(today, i, k + 1);
    ScanAllTimed(today, i, k + 1);
    if Kept(today, i, k) {
      CountCons(today[k], rest, t);
    } else {
      assert DayOverlappingFrom(today, i, k) == rest;
    }
  }

  /** Two events that start together always pass the three-clause test. */
  lemma SameStartOverlaps(e: Event, ev: Event)
    requires IsTimed(e) && IsTimed(ev) && e.time == ev.time
    ensures OverlapsDrawn(e, ev)
  {
  }

  /** The test depends on the drawn event only through its start and end. */
  lemma SameSpanSameTest(x: Event, a: Event, b: Event)
    requires IsTimed(x) && IsTimed(a) && IsTimed(b) && a.time == b.time && a.duration == b.duration
    ensures OverlapsDrawn(x, a) == OverlapsDrawn(x, b)
  {
  }

  /** When `j` is the only other timed event and overlaps `i`, the set is `[today[j]]`. */
  lemma {:induction false} DayOverlappingOnly(today: seq<Event>, i: int, j: int, k: nat)
    requires 0 <= i < |today| && 0 <= j < |today| && i != j && k <= |today|
    requires IsTimed(today[i]) && IsTimed(today[j]) && OverlapsDrawn(today[j], today[i])
    requires forall m :: 0 <= m < |today| && m != i && m != j ==> !IsTimed(today[m])
    ensures DayOverlappingFrom(today, i, k) == if k <= j then [today[j]] else []
    decreases |today| - k
  {
    if k < |today| {
      DayOverlappingOnly(today, i, j, k + 1);
      KeptStep(today, i, k);
      if k == j {
        assert Kept(today, i, k);
        assert [today[j]] + [] == [today[j]];
      } else {
        assert !Kept(today, i, k);
      }
    }
  }

  /** One step of the Day view's scan: position `k` is kept when it is another timed
      event that overlaps, and the scan goes on at `k + 1`. */
  lemma DayStep(today: seq<Event>, i: int, k: nat)
    requires 0 <= i < |today| && IsTimed(today[i]) && k < |today|
    ensures DayOverlappingFrom(today, i, k) ==
      (if k != i && IsTimed(today[k]) && OverlapsDrawn(today[k], today[i]) then [today[k]] else [])
        + DayOverlappingFrom(today, i, k + 1)
  {
  }

  /** The drawn event's vertical position, `48 * hour + 0.8 * minute` pixels. */
  function TopPx(e: Event): (px: real)
    requires IsTimed(e)
    ensures px == 0.8 * Start(e) as real
  {
    48.0 * Hour(e.time.value) as real + 0.8 * Minute(e.time.value) as real
  }

  /** Its height, `48 * durationHours` pixels. */
  function HeightPx(e: Event): (px: real)
    ensures px == 0.8 * Length(e) as real
  {
    match FirstMatch(e.duration)
    case None => 48.0
    case Some(DurationMatch(n, Hours)) => 48.0 * n as real
    case Some(DurationMatch(n, Minutes)) => 48.0 * (n as real / 60.0)
  }

  /** The bottom edge of the block is the pixel row of the event's end. */
  lemma BottomIsEndRow(e: Event)
    requires IsTimed(e)
    ensures TopPx(e) + HeightPx(e) == 0.8 * End(e) as real
    ensures TopPx(e) >= 0.0 && TopPx(e) < 48.0 * 24.0
  {
  }

  /** The overlap set by id, over an already date-filtered list. */
  function OverlappingById(s: seq<Event>, ev: Event): (r: seq<Event>)
    requires IsTimed(ev)
  {
    if |s| == 0 then []
    else
      var e := s[0];
      (if e.id != ev.id && IsTimed(e) && OverlapsDrawn(e, ev) then [e] else [])
        + OverlappingById(s[1..], ev)
  }

  /** Filtering the whole list by date inside the test is filtering the day's events. */
  lemma {:induction false} WeekIsDayById(events: seq<Event>, day: string, ev: Event)
    requires IsTimed(ev)
    ensures WeekOverlapping(events, day, ev) == OverlappingById(OnDate(events, day), ev)
  {
    if |events| > 0 {
      WeekIsDayById(events[1..], day, ev);
      var tail := OnDate(events[1..], day);
      if events[0].date == day {
        var d := OnDate(events, day);
        assert d == [events[0]] + tail;
        assert d[0] == events[0] && d[1..] == tail;
      } else {
        assert OnDate(events, day) == tail;
      }
    }
  }

  /** With distinct id strings, excluding by position is excluding by id. */
  lemma {:induction false} DayIsById(today: seq<Event>, i: int, k: nat)
    requires UniqueKeys(today) && 0 <= i < |today| && IsTimed(today[i]) && k <= |today|
    ensures DayOverlappingFrom(today, i, k) == OverlappingById(today[k..], today[i])
    decreases |today| - k
  {
    if k < |today| {
      DayIsById(today, i, k + 1);
      var s, e, ev := today[k..], today[k], today[i];
      assert s[0] == e && s[1..] == today[k + 1..];
      SamePositionSameId(today, i, k);
      var head := if k != i && IsTimed(e) && OverlapsDrawn(e, ev) then [e] else [];
      assert DayOverlappingFrom(today, i, k) == head + DayOverlappingFrom(today, i, k + 1);
      assert OverlappingById(s, ev) == head + OverlappingById(s[1..], ev);
    }
  }

  /** With distinct id strings, two positions hold the same id exactly when they are
      the same position. */
  lemma SamePositionSameId(today: seq<Event>, i: int, k: int)
    requires UniqueKeys(today) && 0 <= i < |today| && 0 <= k < |today|
    ensures (k != i) == (today[k].id != today[i].id)
  {
    if k != i {
      var a, b := if k < i then k else i, if k < i then i else k;
      assert Key(today[a].id) != Key(today[b].id);
    }
  }

  /** With distinct id strings, the Week view's overlap set (excluding by id, filtering
      the whole list by date) and the Day view's (excluding by position within the
      day's events) are the same events in the same order. */
  lemma DayWeekAgree(events: seq<Event>, day: string, i: int)
    requires UniqueKeys(events)
    requires 0 <= i < |OnDate(events, day)| && IsTimed(OnDate(events, day)[i])
    ensures var today := OnDate(events, day);
      DayOverlapping(today, i) == WeekOverlapping(events, day, today[i])
  {
    var today := OnDate(events, day);
    OnDateUnique(events, day);
    DayIsById(today, i, 0);
    assert today[0..] == today;
    WeekIsDayById(events, day, today[i]);
  }

  /** With distinct id strings, the Week view flags an event as conflicting exactly
      when it shares its column with another event. */
  lemma WeekFlagIffShared(events: seq<Event>, ev: Event)
    requires UniqueKeys(events) && ev in events && IsTimed(ev)
    ensures HasConflicts(events, ev) <==> WeekSlot(events, ev.date, ev).total > 1
  {
    HasConflictsExact(events, ev);
    var ws := WeekOverlapping(events, ev.date, ev);
    if exists b :: b in events && IsTimed(b) && b != ev && Clash(ev, b) {
      var b :| b in events && IsTimed(b) && b != ev && Clash(ev, b);
      if b.id == ev.id {
        UniqueKeysSameId(events, b, ev);
      }
      ThreeClauseSymmetric(Start(ev), End(ev), Start(b), End(b));
      assert b in ws;
    }
    if |ws| > 0 {
      var b := ws[0];
      assert b in ws;
      ThreeClauseSymmetric(Start(ev), End(ev), Start(b), End(b));
      assert b != ev && Clash(ev, b);
    }
  }

  /** With distinct id strings, the Day view's yellow conflict border (from
      `detectEventConflicts` over all events) is drawn exactly when the event shares its
      column with another event of the day. */
  lemma DayFlagIffShared(events: seq<Event>, day: string, i: int)
    requires UniqueKeys(events)
    requires 0 <= i < |OnDate(events, day)| && IsTimed(OnDate(events, day)[i])
    ensures var today := OnDate(events, day);
      HasConflicts(events, today[i]) <==> DaySlot(today, i).total > 1
  {
    var today := OnDate(events, day);
    DayWeekAgree(events, day, i);
    assert today[i] in today;
    WeekFlagIffShared(events, today[i]);
  }
}

=== FILE: legacyweek.dfy ===
/** The week grid of the single-file calendar (Calendar.jsx): every event of the day is
    drawn, timed or not, full width between 2px margins, with no side-by-side layout;
    an all-day event is placed as if it started at 00:00; the conflict border comes
    from the 15-minute slot grouping of that day. */
module LegacyWeek {
  import opened Events
  import opened Layout
  import opened Slots

  /** The block's top edge: the event's time row, or row 0 when it has no time. */
  function LegacyTopPx(e: Event): (px: real)
    ensures IsTimed(e) ==> px == TopPx(e)
    ensures !IsTimed(e) ==> px == 0.0
  {
    if IsTimed(e) then TopPx(e) else 0.0
  }

  /** Left and right margins of 2px: the full column less 4px, whatever else is drawn. */
  function LegacyBox(): (b: Box)
    ensures b.leftFrac == 0.0 && b.widthFrac == 1.0
    ensures forall w: real :: w >= 4.0 ==> LeftEdge(b, w) == 2.0 && RightEdge(b, w) == w - 2.0
  {
    Box(0.0, 2, 1.0, -4)
  }

  /** The events drawn in a day column: all of that date, in list order. */
  function LegacyColumn(events: seq<Event>, day: string): seq<Event>
  {
    OnDate(events, day)
  }

  /** `handleEventConflicts(events, day).find(e => e.id === event.id)` has a positive
      `conflictCount`. */
  predicate LegacyHasConflicts(events: seq<Event>, day: string, ev: Event)
  {
    var r := SlotConflicts(events, day);
    exists k :: k in r && r[k].event.id == ev.id && |r[k].conflicts| > 0
  }

  /** A flagged event has a slot partner. */
  lemma LegacyFlagHasPartner(events: seq<Event>, day: string, ev: Event)
    requires UniqueKeys(events) && ev in events && LegacyHasConflicts(events, day, ev)
    ensures IsTimed(ev)
    ensures exists b :: b in events && b.date == day && IsTimed(b) && b != ev && SharesSlot(ev, b)
  {
    var r := SlotConflicts(events, day);
    var k :| k in r && r[k].event.id == ev.id && |r[k].conflicts| > 0;
    SlotConflictsOnlyDay(events, day, k);
    UniqueKeysSameId(events, r[k].event, ev);
    GroupHasPartner(events, day, k);
  }

  /** With distinct id strings, the legacy week column flags a timed event exactly when
      another timed event of that day shares one of its 15-minute slots; an all-day
      event is never flagged. */
  lemma LegacyFlagExact(events: seq<Event>, day: string, ev: Event)
    requires UniqueKeys(events) && ev in events && ev.date == day
    ensures !IsTimed(ev) ==> !LegacyHasConflicts(events, day, ev)
    ensures IsTimed(ev) ==> (LegacyHasConflicts(events, day, ev) <==>
      exists b :: b in events && b.date == day && IsTimed(b) && b != ev && SharesSlot(ev, b))
  {
    if LegacyHasConflicts(events, day, ev) {
      LegacyFlagHasPartner(events, day, ev);
    }
    if IsTimed(ev) && exists b :: b in events && b.date == day && IsTimed(b) && b != ev && SharesSlot(ev, b) {
      var b :| b in events && b.date == day && IsTimed(b) && b != ev && SharesSlot(ev, b);
      PartnerFlags(events, day, ev, b);
    }
  }

  /** A timed partner sharing a slot gets the event flagged. */
  lemma PartnerFlags(events: seq<Event>, day: string, ev: Event, b: Event)
    requires UniqueKeys(events) && ev in events && ev.date == day && IsTimed(ev)
    requires b in events && b.date == day && IsTimed(b) && b != ev && SharesSlot(ev, b)
    ensures LegacyHasConflicts(events, day, ev)
  {
    SlotConflictsExact(events, day, ev, b);
    var r := SlotConflicts(events, day);
    assert Key(ev.id) in r && r[Key(ev.id)].event.id == ev.id && b.id in r[Key(ev.id)].conflicts;
  }
}

=== FILE: monthview.dfy ===
/** The month grid: the run of days from the Sunday on or before the 1st to the
    Saturday on or after the last day, each cell holding the events dated that day,
    truncated to `getMonthEventStyles`, with a "+N more" entry that opens the show-all
    list. The weekday of the 1st is a parameter. */
module MonthView {
  import opened Dates
  import opened DateText
  import opened Events
  import opened DateUtils

  function FirstOfMonth(d: Date): (r: Date)
    requires Valid(d)
    ensures Valid(r) && r.year == d.year && r.month == d.month && r.day == 1
  {
    Date(d.year, d.month, 1)
  }

  /** Days from `startOf("month").startOf("week")` to `endOf("month").endOf("week")`:
      `firstWeekday` leading days, the month, and enough trailing days to end on a
      Saturday. */
  function GridLength(d: Date, firstWeekday: int): (n: nat)
    requires Valid(d) && 0 <= firstWeekday <= 6
    ensures n % 7 == 0
    ensures firstWeekday + DaysInMonth(d.year, d.month) <= n <= firstWeekday + DaysInMonth(d.year, d.month) + 6
  {
    var used := firstWeekday + DaysInMonth(d.year, d.month);
    used + 6 - (used - 1) % 7
  }

  /** The `days` array of the month view for the month of `d`. */
  function MonthGrid(d: Date, firstWeekday: int): (r: seq<Date>)
    requires Valid(d) && 0 <= firstWeekday <= 6
    ensures |r| == GridLength(d, firstWeekday)
    ensures forall i :: 0 <= i < |r| ==> Valid(r[i])
  {
    var start := AddDays(FirstOfMonth(d), -firstWeekday);
    seq(GridLength(d, firstWeekday), i requires 0 <= i => AddDays(start, i))
  }

  /** Cell `i` is the 1st of the month moved by `i - firstWeekday` days. */
  lemma GridCell(d: Date, firstWeekday: int, i: int)
    requires Valid(d) && 0 <= firstWeekday <= 6 && 0 <= i < GridLength(d, firstWeekday)
    ensures MonthGrid(d, firstWeekday)[i] == AddDays(FirstOfMonth(d), i - firstWeekday)
  {
    var first := FirstOfMonth(d);
    var start := AddDays(first, -firstWeekday);
    assert MonthGrid(d, firstWeekday)[i] == AddDays(start, i);
    AddDaysCompose(first, -firstWeekday, i);
  }

  /** The grid runs over consecutive days. */
  lemma GridConsecutive(d: Date, firstWeekday: int)
    requires Valid(d) && 0 <= firstWeekday <= 6
    ensures var g := MonthGrid(d, firstWeekday);
      forall i :: 0 <= i < |g| - 1 ==> g[i + 1] == NextDay(g[i])
  {
    var start := AddDays(FirstOfMonth(d), -firstWeekday);
    forall i | 0 <= i < GridLength(d, firstWeekday) - 1
      ensures MonthGrid(d, firstWeekday)[i + 1] == NextDay(MonthGrid(d, firstWeekday)[i])
    {
      AddDaysSucc(start, i);
    }
  }

  /** Moving forward inside a month only changes the day. */
  lemma {:induction false} ForwardInMonth(d: Date, t: nat)
    requires Valid(d) && d.day + t <= DaysInMonth(d.year, d.month)
    ensures AddDays(d, t) == Date(d.year, d.month, d.day + t)
    decreases t
  {
    if t > 0 {
      ForwardInMonth(NextDay(d), t - 1);
    }
  }

  /** Moving backward inside a month only changes the day. */
  lemma {:induction false} BackwardInMonth(d: Date, t: int)
    requires Valid(d) && 0 <= t < d.day
    ensures AddDays(d, -t) == Date(d.year, d.month, d.day - t)
    decreases t
  {
    if t > 0 {
      BackwardInMonth(PrevDay(d), t - 1);
    }
  }

  /** Every day of the month appears, in order, starting at cell `firstWeekday`. */
  lemma GridCoversMonth(d: Date, firstWeekday: int, k: int)
    requires Valid(d) && 0 <= firstWeekday <= 6 && 1 <= k <= DaysInMonth(d.year, d.month)
    ensures firstWeekday + k - 1 < |MonthGrid(d, firstWeekday)|
    ensures MonthGrid(d, firstWeekday)[firstWeekday + k - 1] == Date(d.year, d.month, k)
  {
    GridCell(d, firstWeekday, firstWeekday + k - 1);
    ForwardInMonth(FirstOfMonth(d), k - 1);
  }

  /** `isCurrentMonth`: a cell shows a day of `d`'s month exactly when it lies between
      the leading and the trailing days. */
  lemma IsCurrentMonthIff(d: Date, firstWeekday: int, i: int)
    requires Valid(d) && 0 <= firstWeekday <= 6 && 0 <= i < GridLength(d, firstWeekday)
    ensures MonthGrid(d, firstWeekday)[i].month == d.month
      <==> firstWeekday <= i < firstWeekday + DaysInMonth(d.year, d.month)
  {
    var first := FirstOfMonth(d);
    var n := DaysInMonth(d.year, d.month);
    GridCell(d, firstWeekday, i);
    if i < firstWeekday {
      LeadingCell(d, i - firstWeekday);
    } else if i < firstWeekday + n {
      ForwardInMonth(first, i - firstWeekday);
    } else {
      TrailingCell(d, i - firstWeekday);
    }
  }

  /** Up to six days before the 1st fall in the previous month. */
  lemma LeadingCell(d: Date, t: int)
    requires Valid(d) && -6 <= t < 0
    ensures AddDays(FirstOfMonth(d), t).month != d.month
  {
    var first := FirstOfMonth(d);
    var last := PrevDay(first);
    AddDaysCompose(first, -1, t + 1);
    BackwardInMonth(last, -t - 1);
  }

  /** Up to six days after the last day fall in the next month. */
  lemma TrailingCell(d: Date, t: int)
    requires Valid(d) && DaysInMonth(d.year, d.month) <= t <= DaysInMonth(d.year, d.month) + 5
    ensures AddDays(FirstOfMonth(d), t).month != d.month
  {
    var first := FirstOfMonth(d);
    var n := DaysInMonth(d.year, d.month);
    var lastDay := Date(d.year, d.month, n);
    ForwardInMonth(first, n - 1);
    AddDaysCompose(first, n - 1, t - n + 1);
    AddDaysCompose(lastDay, 1, t - n);
    ForwardInMonth(NextDay(lastDay), t - n);
  }

  /** What one cell renders: the events dated that day, the first `maxToShow` of them,
      and the "+N more" count when `hasMore`. */
  datatype Cell = Cell(dayEvents: seq<Event>, shown: seq<Event>, more: nat, hasMore: bool)

  function MonthCell(events: seq<Event>, date: Date): (c: Cell)
    requires Valid(date) && FourDigitYear(date)
    ensures forall e :: e in c.dayEvents <==> e in events && e.date == Format(date)
    ensures forall e :: multiset(c.dayEvents)[e] == if e.date == Format(date) then multiset(events)[e] else 0
    ensures |c.shown| <= |c.dayEvents| && c.shown + c.dayEvents[|c.shown|..] == c.dayEvents
    ensures |c.shown| + c.more == |c.dayEvents|
    ensures c.hasMore <==> |c.dayEvents| > 3
    ensures c.hasMore <==> c.more > 0
    ensures !c.hasMore ==> c.shown == c.dayEvents
    ensures c.hasMore ==> |c.shown| == 2
  {
    CellOf(OnDate(events, Format(date)))
  }

  /** The cell for a day whose events are `dayEvents`: a prefix of them is shown and the
      rest is counted. */
  function CellOf(dayEvents: seq<Event>): (c: Cell)
    ensures c.dayEvents == dayEvents
    ensures |c.shown| <= |dayEvents| && c.shown + dayEvents[|c.shown|..] == dayEvents
    ensures |c.shown| + c.more == |dayEvents|
    ensures c.hasMore <==> |dayEvents| > 3
    ensures c.hasMore <==> c.more > 0
    ensures !c.hasMore ==> c.shown == dayEvents
    ensures c.hasMore ==> |c.shown| == 2
  {
    var st := GetMonthEventStyles(|dayEvents|);
    assert dayEvents[..st.maxToShow] + dayEvents[st.maxToShow..] == dayEvents;
    Cell(dayEvents, dayEvents[..st.maxToShow], st.moreCount, st.hasMore)
  }

  /** The show-all list opened from a cell's "+N more" entry holds every event of that
      day, the hidden ones included. */
  function ShowAllEvents(events: seq<Event>, selectedDate: string): (r: seq<Event>)
    ensures forall e :: e in r <==> e in events && e.date == selectedDate
    ensures forall e :: multiset(r)[e] == if e.date == selectedDate then multiset(events)[e] else 0
  {
    OnDate(events, selectedDate)
  }

  /** The "+N more" entry opens a list that holds the shown events and the hidden ones,
      so it is as long as the shown events plus the count on the entry. */
  lemma MoreOpensTheWholeDay(events: seq<Event>, date: Date)
    requires Valid(date) && FourDigitYear(date)
    ensures var c := MonthCell(events, date);
      ShowAllEvents(events, Format(date)) == c.shown + c.dayEvents[|c.shown|..]
    ensures var c := MonthCell(events, date);
      |ShowAllEvents(events, Format(date))| == |c.shown| + c.more
  {
  }
}

=== FILE: overlap.dfy ===
/** The interval test every conflict and layout computation uses:

      (s1 >= s2 && s1 < e2) || (e1 > s2 && e1 <= e2) || (s1 <= s2 && e1 >= e2)

    on start and end instants in minutes. The test is written with the first interval
    in a distinguished position, so its symmetry and its relation to the half-open
    overlap `s1 < e2 && s2 < e1` are facts to prove rather than definitions. */
module Overlap {

  /** The test as the source spells it, first interval `[s1, e1]`, second `[s2, e2]`. */
  predicate ThreeClause(s1: int, e1: int, s2: int, e2: int)
  {
    (s1 >= s2 && s1 < e2) || (e1 > s2 && e1 <= e2) || (s1 <= s2 && e1 >= e2)
  }

  /** Independent reference: two half-open intervals `[s1, e1)` and `[s2, e2)` share
      an instant. */
  predicate HalfOpen(s1: int, e1: int, s2: int, e2: int)
  {
    s1 < e2 && s2 < e1
  }

  /** For intervals of non-negative length, the three-clause test is exactly the
      half-open overlap, plus a zero-length interval lying anywhere in the other
      interval, its two ends included. */
  lemma ThreeClauseCharacterization(s1: int, e1: int, s2: int, e2: int)
    requires s1 <= e1 && s2 <= e2
    ensures ThreeClause(s1, e1, s2, e2) <==>
      HalfOpen(s1, e1, s2, e2)
      || (s1 == e1 && s2 <= s1 <= e2)
      || (s2 == e2 && s1 <= s2 <= e1)
  {
  }

  /** The order of the arguments does not matter for non-negative durations. */
  lemma ThreeClauseSymmetric(s1: int, e1: int, s2: int, e2: int)
    requires s1 <= e1 && s2 <= e2
    ensures ThreeClause(s1, e1, s2, e2) <==> ThreeClause(s2, e2, s1, e1)
  {
    ThreeClauseCharacterization(s1, e1, s2, e2);
    ThreeClauseCharacterization(s2, e2, s1, e1);
  }

  /** When both events last a positive time, the test is the half-open overlap. */
  lemma ThreeClausePositive(s1: int, e1: int, s2: int, e2: int)
    requires s1 < e1 && s2 < e2
    ensures ThreeClause(s1, e1, s2, e2) <==> HalfOpen(s1, e1, s2, e2)
  {
    ThreeClauseCharacterization(s1, e1, s2, e2);
  }

  /** Back-to-back events, one ending as the other starts, do not conflict. */
  lemma BackToBackNoConflict(s1: int, e1: int, e2: int)
    requires s1 < e1 < e2
    ensures !ThreeClause(s1, e1, e1, e2) && !ThreeClause(e1, e2, s1, e1)
  {
    ThreeClausePositive(s1, e1, e1, e2);
    ThreeClausePositive(e1, e2, s1, e1);
  }

  /** A zero-length event at the start or the end instant of another still conflicts
      with it, in either argument order. */
  lemma ZeroLengthAtBoundary(t: int, s: int, e: int)
    requires s <= e && (t == s || t == e)
    ensures ThreeClause(t, t, s, e) && ThreeClause(s, e, t, t)
  {
    ThreeClauseCharacterization(t, t, s, e);
    ThreeClauseCharacterization(s, e, t, t);
  }

  /** Every pair the test accepts at least touches: neither interval ends before the
      other begins. */
  lemma ThreeClauseTouches(s1: int, e1: int, s2: int, e2: int)
    requires s1 <= e1 && s2 <= e2
    requires ThreeClause(s1, e1, s2, e2)
    ensures s1 <= e2 && s2 <= e1
  {
  }
}

=== FILE: showall.dfy ===
/** The month view's "show all" list for one day: a message when the day has no
    events, otherwise an all-day section (order kept) and a timed section sorted by
    start time with the stable sort. */
module ShowAll {
  import opened Events
  import opened EventList
  import opened Sorting
  import opened Agenda

  /** The comparator as written, for two timed events:
      `(hoursA * 60 + minutesA) - (hoursB * 60 + minutesB)`. */
  function Compare(a: Event, b: Event): int
    requires IsTimed(a) && IsTimed(b)
  {
    Start(a) - Start(b)
  }

  /** The order the sort runs in: start minute, read only from timed events (the
      all-day ones were filtered out before the sort). */
  predicate ByTime(a: Event, b: Event)
  {
    IsTimed(a) && IsTimed(b) ==> Start(a) <= Start(b)
  }

  function TimeOrder(): (Event, Event) -> bool
  {
    (a: Event, b: Event) => StartKey(a) <= StartKey(b)
  }

  function StartKey(e: Event): nat
  {
    if IsTimed(e) then Start(e) else 0
  }

  /** On timed events the sort order is exactly "the comparator returns at most 0". */
  lemma TimeOrderIsCompare(a: Event, b: Event)
    requires IsTimed(a) && IsTimed(b)
    ensures TimeOrder()(a, b) <==> Compare(a, b) <= 0
    ensures TimeOrder()(a, b) <==> ByTime(a, b)
  {
  }

  lemma TimeOrderIsTotalPreorder()
    ensures TotalPreorder(TimeOrder())
  {
  }

  datatype Listing =
    | NoEvents
    | Sections(allDay: seq<Event>, timed: seq<Event>)

  /** What the modal lists for the events of the chosen day. */
  function ShowAll(events: seq<Event>): (r: Listing)
    ensures r.NoEvents? <==> |events| == 0
    ensures r.Sections? ==>
      && (forall e :: e in r.allDay <==> e in events && !IsTimed(e))
      && (forall e :: e in r.timed <==> e in events && IsTimed(e))
      && multiset(r.allDay) + multiset(r.timed) == multiset(events)
  {
    if |events| == 0 then NoEvents
    else
      var timed := Sort(TimedOf(events), TimeOrder());
      TimedUntimedPartition(events);
      SortedMembers(TimedOf(events), timed);
      Sections(UntimedOf(events), timed)
  }

  lemma SortedMembers(s: seq<Event>, t: seq<Event>)
    requires multiset(t) == multiset(s)
    ensures forall e :: e in t <==> e in s
  {
    forall e
      ensures e in t <==> e in s
    {
      assert e in t <==> e in multiset(t);
      assert e in s <==> e in multiset(s);
    }
  }

  /** A section header is drawn exactly when its section has an event. */
  predicate ShowsAllDayHeader(l: Listing)
  {
    l.Sections? && |l.allDay| > 0
  }

  predicate ShowsTimedHeader(l: Listing)
  {
    l.Sections? && |l.timed| > 0
  }

  lemma HeadersIff(events: seq<Event>)
    ensures ShowsAllDayHeader(ShowAll(events)) <==> exists e :: e in events && !IsTimed(e)
    ensures ShowsTimedHeader(ShowAll(events)) <==> exists e :: e in events && IsTimed(e)
  {
    var l := ShowAll(events);
    if l.Sections? && |l.allDay| > 0 {
      assert l.allDay[0] in l.allDay;
    }
    if l.Sections? && |l.timed| > 0 {
      assert l.timed[0] in l.timed;
    }
  }

  /** The timed section runs by start time. */
  lemma TimedSectionSorted(events: seq<Event>)
    requires |events| > 0
    ensures var t := ShowAll(events).timed;
      forall i, j :: 0 <= i < j < |t| ==> IsTimed(t[i]) && IsTimed(t[j]) && Start(t[i]) <= Start(t[j])
  {
    var t := ShowAll(events).timed;
    TimeOrderIsTotalPreorder();
    SortSorted(TimedOf(events), TimeOrder());
    forall i, j | 0 <= i < j < |t|
      ensures IsTimed(t[i]) && IsTimed(t[j]) && Start(t[i]) <= Start(t[j])
    {
      assert t[i] in t && t[j] in t;
      assert TimeOrder()(t[i], t[j]);
    }
  }

  /** Events that start at the same minute stay in the order the day lists them. */
  lemma TimedSectionStable(events: seq<Event>, z: Event)
    requires |events| > 0
    ensures Class(ShowAll(events).timed, z, TimeOrder()) == Class(TimedOf(events), z, TimeOrder())
  {
    TimeOrderIsTotalPreorder();
    SortStable(TimedOf(events), z, TimeOrder());
  }

  /** The all-day section keeps the day's order. */
  lemma AllDaySectionInOrder(events: seq<Event>)
    requires |events| > 0
    ensures Subsequence(ShowAll(events).allDay, events)
  {
    UntimedSubsequence(events);
  }

  lemma {:induction false} UntimedSubsequence(events: seq<Event>)
    ensures Subsequence(UntimedOf(events), events)
  {
    if |events| > 0 {
      var e, rest := events[0], events[1..];
      UntimedSubsequence(rest);
      if !IsTimed(e) {
        var a := UntimedOf(events);
        assert a == [e] + UntimedOf(rest);
        assert a[0] == e && a[1..] == UntimedOf(rest);
      } else {
        assert UntimedOf(events) == UntimedOf(rest);
        SubsequenceWeaken(UntimedOf(rest), events);
      }
    }
  }
}

=== FILE: slots.dfy ===
/** `handleEventConflicts(events, date)`: the 15-minute slot variant of conflict
    detection, used by the single-file calendar's week view.

    Each timed event dated `date` is pushed into the slots `start, start+15, ...`
    strictly below its end; every slot holding two or more events makes each of them a
    conflict group (filed under `String(event.id)`) listing the ids of the others that
    differ from its own. Times are integer minutes here; the source steps decimal hours
    by 0.25 and keys slots by `toFixed(2)`, which keeps distinct minutes apart. */
module Slots {
  import opened Events
  import opened Overlap
  import opened Conflicts

  /** The slot instants `start, start + 15, ...` strictly below `end`. */
  function SlotList(start: int, end: int): (r: seq<int>)
    ensures forall m :: m in r <==> start <= m < end && (m - start) % 15 == 0
    ensures start < end ==> |r| > 0 && r[0] == start
    decreases end - start
  {
    if start >= end then []
    else
      [start] + SlotList(start + 15, end)
  }

  /** The slots an event is pushed into. */
  function SlotsOf(e: Event): seq<int>
    requires IsTimed(e)
  {
    SlotList(Start(e), End(e))
  }

  /** The two events land in a common slot. */
  predicate SharesSlot(a: Event, b: Event)
    requires IsTimed(a) && IsTimed(b)
  {
    exists m :: m in SlotsOf(a) && m in SlotsOf(b)
  }

  /** The events the slot pass looks at: timed, dated `day`, in list order. */
  function Candidates(events: seq<Event>, day: string): (cs: seq<Event>)
    ensures forall e :: e in cs <==> e in events && e.date == day && IsTimed(e)
    ensures forall e :: multiset(cs)[e] == if e.date == day && IsTimed(e) then multiset(events)[e] else 0
    ensures AllTimed(cs)
  {
    if |events| == 0 then []
    else
      assert events == [events[0]] + events[1..];
      var e := events[0];
      (if e.date == day && IsTimed(e) then [e] else []) + Candidates(events[1..], day)
  }

  /** Candidate `i` sits in a slot together with some other candidate. */
  predicate InCrowdedSlot(cs: seq<Event>, i: int)
    requires AllTimed(cs) && 0 <= i < |cs|
  {
    exists j :: 0 <= j < |cs| && j != i && SharesSlot(cs[i], cs[j])
  }

  /** A conflict group: the event it was opened for, and the ids it conflicts with. */
  datatype SlotGroup = SlotGroup(event: Event, conflicts: set<Id>)

  /** The slots in the order the first pass pushes into them: each candidate's slots
      in turn, in list order. A slot's array is created at its first position here, and
      slot keys such as "8.00" are not integer-like, so `Object.values(timeSlotMap)`
      visits the slots in the order of their first positions. */
  function PushesFrom(cs: seq<Event>, i: nat): (r: seq<int>)
    requires AllTimed(cs) && i <= |cs|
    ensures forall m :: m in r <==> exists j :: i <= j < |cs| && m in SlotsOf(cs[j])
    decreases |cs| - i
  {
    if i == |cs| then []
    else SlotsOf(cs[i]) + PushesFrom(cs, i + 1)
  }

  /** Slot `m` holds two or more candidates. */
  predicate Crowded(cs: seq<Event>, m: int)
    requires AllTimed(cs)
  {
    exists i, j :: 0 <= i < |cs| && 0 <= j < |cs| && i != j && m in SlotsOf(cs[i]) && m in SlotsOf(cs[j])
  }

  /** Walking slot `m` opens a group under `k` unless one is already open: the slot is
      crowded and holds a candidate filed under `k`. */
  predicate OpensKey(cs: seq<Event>, k: string, m: int)
    requires AllTimed(cs)
  {
    Crowded(cs, m) && exists i :: 0 <= i < |cs| && Key(cs[i].id) == k && m in SlotsOf(cs[i])
  }

  /** The first position from `p` on whose slot opens a group under `k`, or -1. */
  function FirstOpening(cs: seq<Event>, k: string, slots: seq<int>, p: nat): (r: int)
    requires AllTimed(cs) && p <= |slots|
    ensures r == -1 ==> forall q :: p <= q < |slots| ==> !OpensKey(cs, k, slots[q])
    ensures r != -1 ==>
      (p <= r < |slots| && OpensKey(cs, k, slots[r])
       && forall q :: p <= q < r ==> !OpensKey(cs, k, slots[q]))
    decreases |slots| - p
  {
    if p == |slots| then -1
    else if OpensKey(cs, k, slots[p]) then p
    else FirstOpening(cs, k, slots, p + 1)
  }

  /** The first candidate from `i` on that is filed under `k` and sits in slot `m`, or
      -1: within one slot the events are met in list order. */
  function FirstHolder(cs: seq<Event>, k: string, m: int, i: nat): (r: int)
    requires AllTimed(cs) && i <= |cs|
    ensures r == -1 ==> forall j :: i <= j < |cs| && Key(cs[j].id) == k ==> m !in SlotsOf(cs[j])
    ensures r != -1 ==>
      (i <= r < |cs| && Key(cs[r].id) == k && m in SlotsOf(cs[r])
       && forall j :: i <= j < r && Key(cs[j].id) == k ==> m !in SlotsOf(cs[j]))
    decreases |cs| - i
  {
    if i == |cs| then -1
    else if Key(cs[i].id) == k && m in SlotsOf(cs[i]) then i
    else FirstHolder(cs, k, m, i + 1)
  }

  /** The candidate a group under `k` is opened for: walking the slots in creation
      order, the first crowded slot that holds a candidate filed under `k`, and in it
      the first such candidate; -1 when no candidate filed under `k` shares a slot. */
  function GroupEvent(cs: seq<Event>, k: string): (r: int)
    requires AllTimed(cs)
    ensures r == -1 || (0 <= r < |cs| && Key(cs[r].id) == k && InCrowdedSlot(cs, r))
    ensures r == -1 <==> forall i :: 0 <= i < |cs| && Key(cs[i].id) == k ==> !InCrowdedSlot(cs, i)
    ensures r != -1 ==> FirstInSlotOrder(cs, k, r)
  {
    var slots := PushesFrom(cs, 0);
    var p := FirstOpening(cs, k, slots, 0);
    if p == -1 then
      NoOpeningNoGroup(cs, k, slots);
      -1
    else
      var r := FirstHolder(cs, k, slots[p], 0);
      HolderIsCrowded(cs, k, slots[p], r);
      HolderIsFirst(cs, k, slots, p, r);
      r
  }

  /** Candidate `r` is where walking the slots in creation order first meets `k`: some
      slot opens a group under `k`, no earlier slot does, `r` sits in it, and no
      earlier candidate filed under `k` does. */
  predicate FirstInSlotOrder(cs: seq<Event>, k: string, r: int)
    requires AllTimed(cs) && 0 <= r < |cs|
  {
    var slots := PushesFrom(cs, 0);
    exists p :: 0 <= p < |slots| && FirstAt(cs, k, slots, p, r)
  }

  /** The same, with the slot's position `p` in the walk named. */
  predicate FirstAt(cs: seq<Event>, k: string, slots: seq<int>, p: int, r: int)
    requires AllTimed(cs) && 0 <= r < |cs|
  {
    0 <= p < |slots| && OpensKey(cs, k, slots[p])
    && (forall q :: 0 <= q < p ==> !OpensKey(cs, k, slots[q]))
    && slots[p] in SlotsOf(cs[r])
    && (forall j :: 0 <= j < r && Key(cs[j].id) == k ==> slots[p] !in SlotsOf(cs[j]))
  }

  /** The first holder of the first slot that opens a group is the first in slot
      order. */
  lemma HolderIsFirst(cs: seq<Event>, k: string, slots: seq<int>, p: int, r: int)
    requires AllTimed(cs) && slots == PushesFrom(cs, 0)
    requires p == FirstOpening(cs, k, slots, 0) && p != -1
    requires r == FirstHolder(cs, k, slots[p], 0) && r != -1
    ensures FirstInSlotOrder(cs, k, r)
  {
    assert FirstAt(cs, k, slots, p, r);
  }

  /** The first holder of a slot that opens a group sits in a crowded slot. */
  lemma HolderIsCrowded(cs: seq<Event>, k: string, m: int, r: int)
    requires AllTimed(cs) && OpensKey(cs, k, m) && r == FirstHolder(cs, k, m, 0)
    ensures 0 <= r < |cs| && Key(cs[r].id) == k && InCrowdedSlot(cs, r)
  {
    var i, j :| 0 <= i < |cs| && 0 <= j < |cs| && i != j && m in SlotsOf(cs[i]) && m in SlotsOf(cs[j]);
    var other := if i != r then i else j;
    assert m in SlotsOf(cs[r]) && m in SlotsOf(cs[other]);
    assert SharesSlot(cs[r], cs[other]);
  }

  /** When no pushed slot opens a group under `k`, no candidate filed under `k` shares
      a slot. */
  lemma NoOpeningNoGroup(cs: seq<Event>, k: string, slots: seq<int>)
    requires AllTimed(cs) && slots == PushesFrom(cs, 0)
    requires forall q :: 0 <= q < |slots| ==> !OpensKey(cs, k, slots[q])
    ensures forall i :: 0 <= i < |cs| && Key(cs[i].id) == k ==> !InCrowdedSlot(cs, i)
  {
    forall i | 0 <= i < |cs| && Key(cs[i].id) == k
      ensures !InCrowdedSlot(cs, i)
    {
      if InCrowdedSlot(cs, i) {
        CrowdedKeyOpens(cs, k, i);
      }
    }
  }

  /** A candidate filed under `k` in a crowded slot makes some pushed slot open a
      group under `k`. */
  lemma CrowdedKeyOpens(cs: seq<Event>, k: string, i: int)
    requires AllTimed(cs) && 0 <= i < |cs| && Key(cs[i].id) == k && InCrowdedSlot(cs, i)
    ensures exists q :: 0 <= q < |PushesFrom(cs, 0)| && OpensKey(cs, k, PushesFrom(cs, 0)[q])
  {
    var slots := PushesFrom(cs, 0);
    var j :| 0 <= j < |cs| && j != i && SharesSlot(cs[i], cs[j]);
    var m :| m in SlotsOf(cs[i]) && m in SlotsOf(cs[j]);
    assert m in slots;
    var q :| 0 <= q < |slots| && slots[q] == m;
    assert OpensKey(cs, k, slots[q]);
  }

  /** Slot order, not list order, picks the event: with `y` and `c2` at 08:00, `c1`
      and `z` at 12:00, all an hour long, and `c1`, `c2` sharing the id "k", the
      08:00 slot is created first, so the group under "k" is opened for `c2`, though
      `c1` comes first in the list and is in a crowded slot too. */
  lemma GroupOpensInSlotOrder(y: Event, c1: Event, z: Event, c2: Event)
    requires IsTimed(y) && IsTimed(c1) && IsTimed(z) && IsTimed(c2)
    requires Start(y) == 480 && Start(c2) == 480 && Start(c1) == 720 && Start(z) == 720
    requires Length(y) == 60 && Length(c1) == 60 && Length(z) == 60 && Length(c2) == 60
    requires y.id == StrId("y") && c1.id == StrId("k") && z.id == StrId("z") && c2.id == StrId("k")
    ensures AllTimed([y, c1, z, c2])
    ensures InCrowdedSlot([y, c1, z, c2], 1) && GroupEvent([y, c1, z, c2], "k") == 3
  {
    var cs := [y, c1, z, c2];
    assert AllTimed(cs);
    HourSlots(y, 480);
    HourSlots(c1, 720);
    HourSlots(z, 720);
    HourSlots(c2, 480);
    assert 720 in SlotsOf(cs[1]) && 720 in SlotsOf(cs[2]);
    assert SharesSlot(cs[1], cs[2]);
    var slots := PushesFrom(cs, 0);
    assert slots[0] == 480 by {
      assert slots == SlotsOf(y) + PushesFrom(cs, 1);
    }
    assert OpensKey(cs, "k", 480) by {
      assert 480 in SlotsOf(cs[0]) && 480 in SlotsOf(cs[3]);
    }
    assert FirstOpening(cs, "k", slots, 0) == 0;
    assert FirstHolder(cs, "k", 480, 3) == 3;
    assert FirstHolder(cs, "k", 480, 2) == 3;
    assert FirstHolder(cs, "k", 480, 1) == 3;
  }

  /** An hour-long event starting at minute `s` sits in the four slots `s`, `s + 15`,
      `s + 30` and `s + 45`. */
  lemma HourSlots(e: Event, s: int)
    requires IsTimed(e) && Start(e) == s && Length(e) == 60
    ensures SlotsOf(e)[0] == s
    ensures forall m :: m in SlotsOf(e) <==> s <= m < s + 60 && (m - s) % 15 == 0
  {
  }


  /** `handleEventConflicts(events, date)`, as the groups filed under each key. */
  function SlotConflicts(events: seq<Event>, day: string): (r: map<string, SlotGroup>)
  {
    GroupsOf(Candidates(events, day))
  }

  /** The groups opened over a list of candidates. */
  function GroupsOf(cs: seq<Event>): map<string, SlotGroup>
    requires AllTimed(cs)
  {
    map k | k in CrowdedKeys(cs) :: GroupOf(cs, k)
  }

  /** The keys under which some candidate sits in a crowded slot. */
  function CrowdedKeys(cs: seq<Event>): set<string>
    requires AllTimed(cs)
  {
    set i | 0 <= i < |cs| && InCrowdedSlot(cs, i) :: Key(cs[i].id)
  }

  /** The group filed under `k`. */
  function GroupOf(cs: seq<Event>, k: string): SlotGroup
    requires AllTimed(cs) && k in CrowdedKeys(cs)
  {
    var g := GroupEvent(cs, k);
    SlotGroup(cs[g], GroupConflicts(cs, k))
  }

  /** The ids added to the group under key `k`: for every candidate filed under `k`,
      the ids of the other candidates in its slots that differ from its own id. */
  function GroupConflicts(cs: seq<Event>, k: string): set<Id>
    requires AllTimed(cs)
  {
    set i, j | 0 <= i < |cs| && 0 <= j < |cs| && i != j && Key(cs[i].id) == k
      && SharesSlot(cs[i], cs[j]) && cs[j].id != cs[i].id :: cs[j].id
  }

  /** Distinct id strings pin a key to one candidate. */
  lemma KeyPinsCandidate(cs: seq<Event>, i: int, j: int)
    requires UniqueKeys(cs) && 0 <= i < |cs| && 0 <= j < |cs| && Key(cs[i].id) == Key(cs[j].id)
    ensures i == j
  {
  }

  /** With distinct id strings, the group of candidate `ia` lists candidate `ib`'s id
      exactly when the two share a slot, and never lists its own id. */
  lemma GroupConflictsExact(cs: seq<Event>, ia: int, ib: int)
    requires AllTimed(cs) && UniqueKeys(cs) && 0 <= ia < |cs| && 0 <= ib < |cs| && ia != ib
    ensures cs[ib].id in GroupConflicts(cs, Key(cs[ia].id)) <==> SharesSlot(cs[ia], cs[ib])
    ensures cs[ia].id !in GroupConflicts(cs, Key(cs[ia].id))
  {
    var k := Key(cs[ia].id);
    if cs[ib].id in GroupConflicts(cs, k) {
      var i, j :| 0 <= i < |cs| && 0 <= j < |cs| && i != j && Key(cs[i].id) == k
        && SharesSlot(cs[i], cs[j]) && cs[j].id != cs[i].id && cs[j].id == cs[ib].id;
      KeyPinsCandidate(cs, i, ia);
      KeyPinsCandidate(cs, j, ib);
    }
    if SharesSlot(cs[ia], cs[ib]) {
      KeyDistinguishes(cs[ia].id, cs[ib].id) by {
        if ia < ib {
          assert Key(cs[ia].id) != Key(cs[ib].id);
        } else {
          assert Key(cs[ib].id) != Key(cs[ia].id);
        }
      }
    }
    forall i, j | 0 <= i < |cs| && 0 <= j < |cs| && i != j && Key(cs[i].id) == k
      && SharesSlot(cs[i], cs[j]) && cs[j].id != cs[i].id
      ensures cs[j].id != cs[ia].id
    {
      KeyPinsCandidate(cs, i, ia);
    }
  }

  /** Two multiples of 15 differ by a multiple of 15. */
  lemma QuarterDifference(x: int, y: int)
    requires x % 15 == 0 && y % 15 == 0
    ensures (x - y) % 15 == 0
  {
    var p, q := x / 15, y / 15;
    assert x == 15 * p && y == 15 * q;
    assert x - y == 15 * (p - q);
  }

  /** Two slot ranges share an instant exactly when both are non-empty, their starts
      are a whole number of quarter hours apart, and the half-open intervals overlap. */
  lemma SlotListsMeet(s1: int, e1: int, s2: int, e2: int)
    ensures (exists m :: m in SlotList(s1, e1) && m in SlotList(s2, e2)) <==>
      s1 < e1 && s2 < e2 && (s1 - s2) % 15 == 0 && HalfOpen(s1, e1, s2, e2)
  {
    if exists m :: m in SlotList(s1, e1) && m in SlotList(s2, e2) {
      var m :| m in SlotList(s1, e1) && m in SlotList(s2, e2);
      QuarterDifference(m - s2, m - s1);
    }
    if s1 < e1 && s2 < e2 && (s1 - s2) % 15 == 0 && HalfOpen(s1, e1, s2, e2) {
      QuarterDifference(0, s1 - s2);
      var m := if s1 <= s2 then s2 else s1;
      assert m in SlotList(s1, e1) && m in SlotList(s2, e2);
    }
  }

  /** The arithmetic form of a shared slot, for two events. */
  lemma SharesSlotIff(a: Event, b: Event)
    requires IsTimed(a) && IsTimed(b)
    ensures SharesSlot(a, b) <==>
      Length(a) > 0 && Length(b) > 0
      && (Start(a) - Start(b)) % 15 == 0 && HalfOpen(Start(a), End(a), Start(b), End(b))
  {
    var sa, ea, sb, eb := Start(a), End(a), Start(b), End(b);
    SlotListsMeet(sa, ea, sb, eb);
    assert SlotsOf(a) == SlotList(sa, ea) && SlotsOf(b) == SlotList(sb, eb);
    assert ea - sa == Length(a) && eb - sb == Length(b);
  }

  /** Sharing a slot implies the three-clause test in both orders. */
  lemma SharesSlotImpliesThreeClause(a: Event, b: Event)
    requires IsTimed(a) && IsTimed(b) && SharesSlot(a, b)
    ensures ThreeClause(Start(a), End(a), Start(b), End(b))
    ensures ThreeClause(Start(b), End(b), Start(a), End(a))
  {
    SharesSlotIff(a, b);
    ThreeClauseCharacterization(Start(a), End(a), Start(b), End(b));
    ThreeClauseCharacterization(Start(b), End(b), Start(a), End(a));
  }

  /** But not the converse: an event at 09:00 and one at 09:10, both an hour long,
      overlap for fifty minutes without sharing a slot. */
  lemma OverlapWithoutSharedSlot(a: Event, b: Event)
    requires IsTimed(a) && IsTimed(b)
    requires Start(a) == 9 * 60 && Start(b) == 9 * 60 + 10 && Length(a) == 60 && Length(b) == 60
    ensures ThreeClause(Start(a), End(a), Start(b), End(b)) && !SharesSlot(a, b)
  {
    SharesSlotIff(a, b);
  }

  /** Two events starting together, both of positive length, share their first slot. */
  lemma SameStartSharesSlot(a: Event, b: Event)
    requires IsTimed(a) && IsTimed(b) && Start(a) == Start(b) && Length(a) > 0 && Length(b) > 0
    ensures SharesSlot(a, b)
  {
    assert Start(a) in SlotsOf(a) && Start(a) in SlotsOf(b);
  }

  /** A zero-length event gets no slot, so it never shares one. */
  lemma ZeroLengthNoSlots(a: Event, b: Event)
    requires IsTimed(a) && IsTimed(b) && Length(a) == 0
    ensures SlotsOf(a) == [] && !SharesSlot(a, b)
  {
  }

  /** Every group is filed under the key of a timed event dated `day`, and opened for
      such an event. */
  lemma SlotConflictsOnlyDay(events: seq<Event>, day: string, k: string)
    requires k in SlotConflicts(events, day)
    ensures var g := SlotConflicts(events, day)[k].event;
      g in events && g.date == day && IsTimed(g) && Key(g.id) == k
  {
    var cs := Candidates(events, day);
    var i :| 0 <= i < |cs| && InCrowdedSlot(cs, i) && Key(cs[i].id) == k;
    var g := GroupEvent(cs, k);
    assert g != -1;
    assert cs[g] in cs;
  }

  /** With distinct id strings, the groups are exact: a candidate has a group listing
      another candidate's id iff the two share a slot, and no group lists its own
      event's id. */
  lemma SlotConflictsExact(events: seq<Event>, day: string, a: Event, b: Event)
    requires UniqueKeys(events)
    requires a in events && b in events && a.date == day && b.date == day
    requires IsTimed(a) && IsTimed(b) && a != b
    ensures var r := SlotConflicts(events, day);
      (Key(a.id) in r && b.id in r[Key(a.id)].conflicts) <==> SharesSlot(a, b)
    ensures var r := SlotConflicts(events, day);
      Key(a.id) in r ==> r[Key(a.id)].event == a && a.id !in r[Key(a.id)].conflicts
  {
    var cs := Candidates(events, day);
    CandidatesUnique(events, day);
    assert a in cs && b in cs;
    var ia :| 0 <= ia < |cs| && cs[ia] == a;
    var ib :| 0 <= ib < |cs| && cs[ib] == b;
    GroupsExact(cs, ia, ib);
  }

  /** With distinct id strings among the candidates, the group of candidate `ia` lists
      candidate `ib` exactly when they share a slot, and is opened for `ia` itself. */
  lemma GroupsExact(cs: seq<Event>, ia: int, ib: int)
    requires AllTimed(cs) && UniqueKeys(cs) && 0 <= ia < |cs| && 0 <= ib < |cs| && ia != ib
    ensures var r := GroupsOf(cs);
      (Key(cs[ia].id) in r && cs[ib].id in r[Key(cs[ia].id)].conflicts) <==> SharesSlot(cs[ia], cs[ib])
    ensures var r := GroupsOf(cs);
      Key(cs[ia].id) in r ==> r[Key(cs[ia].id)].event == cs[ia] && cs[ia].id !in r[Key(cs[ia].id)].conflicts
  {
    var r := GroupsOf(cs);
    var k := Key(cs[ia].id);
    assert k in r <==> k in CrowdedKeys(cs);
    GroupConflictsExact(cs, ia, ib);
    if SharesSlot(cs[ia], cs[ib]) {
      assert InCrowdedSlot(cs, ia);
    }
    if k in CrowdedKeys(cs) {
      assert r[k] == GroupOf(cs, k);
      var g := GroupEvent(cs, k);
      KeyPinsCandidate(cs, g, ia);
    }
  }

  /** The pair of candidates behind an id in a group. */
  lemma GroupConflictsWitness(cs: seq<Event>, k: string, x: Id) returns (i: int, j: int)
    requires AllTimed(cs) && x in GroupConflicts(cs, k)
    ensures 0 <= i < |cs| && 0 <= j < |cs| && i != j && Key(cs[i].id) == k
    ensures SharesSlot(cs[i], cs[j]) && cs[j].id != cs[i].id && cs[j].id == x
  {
    i, j :| 0 <= i < |cs| && 0 <= j < |cs| && i != j && Key(cs[i].id) == k
      && SharesSlot(cs[i], cs[j]) && cs[j].id != cs[i].id && cs[j].id == x;
  }

  /** With distinct id strings, a group with a non-empty conflict set has a partner: a
      different timed event of the day sharing a slot with the group's event. */
  lemma GroupHasPartner(events: seq<Event>, day: string, k: string)
    requires UniqueKeys(events)
    requires k in SlotConflicts(events, day) && |SlotConflicts(events, day)[k].conflicts| > 0
    ensures var g := SlotConflicts(events, day)[k].event;
      exists b :: b in events && b.date == day && IsTimed(b) && IsTimed(g) && b != g && SharesSlot(g, b)
  {
    var cs := Candidates(events, day);
    CandidatesUnique(events, day);
    var j := GroupPartner(cs, k);
    assert cs[j] in cs;
  }

  /** With distinct id strings among the candidates, a group with conflicts has a
      partner candidate sharing a slot with the group's event. */
  lemma GroupPartner(cs: seq<Event>, k: string) returns (j: int)
    requires AllTimed(cs) && UniqueKeys(cs)
    requires k in GroupsOf(cs) && |GroupsOf(cs)[k].conflicts| > 0
    ensures 0 <= j < |cs| && cs[j] != GroupsOf(cs)[k].event
    ensures SharesSlot(GroupsOf(cs)[k].event, cs[j])
  {
    var r := GroupsOf(cs);
    assert k in CrowdedKeys(cs);
    var gi := GroupEvent(cs, k);
    assert r[k] == SlotGroup(cs[gi], GroupConflicts(cs, k));
    var x :| x in GroupConflicts(cs, k);
    var i, j' := GroupConflictsWitness(cs, k, x);
    KeyPinsCandidate(cs, gi, i);
    j := j';
    assert cs[j] != cs[i];
  }

  /** Candidates inherit distinct id strings from the list. */
  lemma {:induction false} CandidatesUnique(events: seq<Event>, day: string)
    requires UniqueKeys(events)
    ensures UniqueKeys(Candidates(events, day))
  {
    if |events| > 0 {
      var e, rest := events[0], events[1..];
      UniqueKeysTail(events);
      HeadKeyIsNew(events);
      CandidatesUnique(rest, day);
      if e.date == day && IsTimed(e) {
        var cr := Candidates(rest, day);
        assert Candidates(events, day) == [e] + cr;
        ConsUnique(e, cr);
      }
    }
  }

  /** A slot conflict is always a pairwise conflict: whatever this variant flags on a
      day, `detectEventConflicts` flags too (with distinct id strings). */
  lemma SlotConflictImpliesDetect(events: seq<Event>, day: string, a: Event, b: Event)
    requires UniqueKeys(events)
    requires a in events && b in events && a.date == day && b.date == day
    requires IsTimed(a) && IsTimed(b) && a != b
    requires Key(a.id) in SlotConflicts(events, day) && b.id in SlotConflicts(events, day)[Key(a.id)].conflicts
    ensures exists rec :: rec in DetectEventConflicts(events) && rec.event == a && Key(b.id) in rec.conflictIds
  {
    SlotConflictsExact(events, day, a, b);
    SharesSlotImpliesThreeClause(a, b);
    DetectExact(events, a, b);
  }
}

=== FILE: sorting.dfy ===
/** `Array.prototype.sort` with a comparator, which JavaScript requires to be stable:
    modelled as insertion sort over the order `le(a, b)` ("compare(a, b) <= 0"), which
    for a consistent comparator is a total preorder. The result is sorted, a
    permutation of the input, and keeps the input order among equivalent elements. */
module Sorting {

  /** `le` is total and transitive: what a consistent comparator gives. */
  ghost predicate TotalPreorder<T(!new)>(le: (T, T) -> bool)
  {
    && (forall a, b :: le(a, b) || le(b, a))
    && (forall a, b, c :: le(a, b) && le(b, c) ==> le(a, c))
  }

  ghost predicate Sorted<T>(s: seq<T>, le: (T, T) -> bool)
  {
    forall i, j :: 0 <= i < j < |s| ==> le(s[i], s[j])
  }

  /** Insert `x` before the first element it does not follow. */
  function Insert<T>(x: T, s: seq<T>, le: (T, T) -> bool): (r: seq<T>)
    ensures |r| == |s| + 1
    ensures multiset(r) == multiset(s) + multiset{x}
    ensures forall y :: y in r ==> y in s || y == x
  {
    if |s| == 0 then [x]
    else if le(x, s[0]) then [x] + s
    else
      assert s == [s[0]] + s[1..];
      [s[0]] + Insert(x, s[1..], le)
  }

  /** The sorted list. */
  function Sort<T>(s: seq<T>, le: (T, T) -> bool): (r: seq<T>)
    ensures |r| == |s|
    ensures multiset(r) == multiset(s)
  {
    if |s| == 0 then []
    else
      assert s == [s[0]] + s[1..];
      Insert(s[0], Sort(s[1..], le), le)
  }

  lemma {:induction false} InsertSorted<T(!new)>(x: T, s: seq<T>, le: (T, T) -> bool)
    requires TotalPreorder(le) && Sorted(s, le)
    ensures Sorted(Insert(x, s, le), le)
  {
    if |s| > 0 && !le(x, s[0]) {
      var tail := Insert(x, s[1..], le);
      InsertSorted(x, s[1..], le);
      forall y | y in tail
        ensures le(s[0], y)
      {
        if y in s[1..] {
          var k :| 0 <= k < |s[1..]| && s[1..][k] == y;
          assert s[k + 1] == y;
        }
      }
      var r := [s[0]] + tail;
      forall i, j | 0 <= i < j < |r|
        ensures le(r[i], r[j])
      {
        if i == 0 {
          assert r[j] == tail[j - 1] && r[j] in tail;
        } else {
          assert r[i] == tail[i - 1] && r[j] == tail[j - 1];
        }
      }
    } else if |s| > 0 {
      var r := [x] + s;
      forall i, j | 0 <= i < j < |r|
        ensures le(r[i], r[j])
      {
        if i == 0 {
          assert le(x, s[0]) && r[j] == s[j - 1];
          if j > 1 {
            assert le(s[0], s[j - 1]);
          }
        }
      }
    }
  }

  /** The result is ordered by `le`. */
  lemma {:induction false} SortSorted<T(!new)>(s: seq<T>, le: (T, T) -> bool)
    requires TotalPreorder(le)
    ensures Sorted(Sort(s, le), le)
  {
    if |s| > 0 {
      SortSorted(s[1..], le);
      InsertSorted(s[0], Sort(s[1..], le), le);
    }
  }

  /** The elements equivalent to `z` (neither orders before the other), in order. */
  function Class<T(!new)>(s: seq<T>, z: T, le: (T, T) -> bool): (r: seq<T>)
    ensures forall y :: y in r <==> y in s && le(y, z) && le(z, y)
  {
    if |s| == 0 then []
    else (if le(s[0], z) && le(z, s[0]) then [s[0]] else []) + Class(s[1..], z, le)
  }

  lemma {:induction false} InsertClass<T(!new)>(x: T, s: seq<T>, z: T, le: (T, T) -> bool)
    requires TotalPreorder(le)
    ensures Class(Insert(x, s, le), z, le) ==
      (if le(x, z) && le(z, x) then [x] + Class(s, z, le) else Class(s, z, le))
  {
    if |s| == 0 {
    } else if le(x, s[0]) {
      assert ([x] + s)[1..] == s;
    } else {
      InsertClass(x, s[1..], z, le);
      var r := [s[0]] + Insert(x, s[1..], le);
      assert r[1..] == Insert(x, s[1..], le);
    }
  }

  /** Stability: the elements of each equivalence class leave in the order they came. */
  lemma {:induction false} SortStable<T(!new)>(s: seq<T>, z: T, le: (T, T) -> bool)
    requires TotalPreorder(le)
    ensures Class(Sort(s, le), z, le) == Class(s, z, le)
  {
    if |s| > 0 {
      SortStable(s[1..], z, le);
      InsertClass(s[0], Sort(s[1..], le), z, le);
    }
  }

  /** An already sorted list is left as it is. */
  lemma {:induction false} SortKeepsSorted<T(!new)>(s: seq<T>, le: (T, T) -> bool)
    requires TotalPreorder(le) && Sorted(s, le)
    ensures Sort(s, le) == s
  {
    if |s| > 0 {
      assert Sorted(s[1..], le) by {
        forall i, j | 0 <= i < j < |s[1..]|
          ensures le(s[1..][i], s[1..][j])
        {
          assert s[1..][i] == s[i + 1] && s[1..][j] == s[j + 1];
        }
      }
      SortKeepsSorted(s[1..], le);
      if |s| > 1 {
        assert le(s[0], s[1]);
      }
    }
  }
}

=== FILE: text.dfy ===
/** The few JavaScript string operations the calendar code relies on: decimal digits and
    `Number(...)` of a digit run, `String(n)` of an integer, `padStart`, `startsWith`,
    `trim`, and the relational comparison of two strings (`a <= b`). */
module Text {

  predicate IsDigit(c: char)
  {
    '0' <= c <= '9'
  }

  function DigitOf(c: char): (d: nat)
    requires IsDigit(c)
    ensures d < 10
  {
    (c as int - '0' as int) as nat
  }

  function DigitChar(d: nat): (c: char)
    requires d < 10
    ensures IsDigit(c) && DigitOf(c) == d
  {
    (d + '0' as int) as char
  }

  /** A digit character is the character of its value. */
  lemma DigitRoundTrip(c: char)
    requires IsDigit(c)
    ensures DigitChar(DigitOf(c)) == c
  {
  }

  predicate AllDigits(s: string)
  {
    forall i :: 0 <= i < |s| ==> IsDigit(s[i])
  }

  /** `Number(s)` for a string made only of decimal digits (leading zeros allowed). */
  function DigitsValue(s: string): nat
    requires AllDigits(s)
  {
    if |s| == 0 then 0 else DigitsValue(s[..|s| - 1]) * 10 + DigitOf(s[|s| - 1])
  }

  /** `String(n)` for a non-negative integer: no sign, no leading zero. */
  function NatToString(n: nat): (s: string)
    ensures |s| >= 1 && AllDigits(s)
    ensures n >= 10 <==> |s| >= 2
    ensures |s| >= 2 ==> s[0] != '0'
  {
    if n < 10 then [DigitChar(n)] else NatToString(n / 10) + [DigitChar(n % 10)]
  }

  /** `String(i)` for any integer. */
  function IntToString(i: int): (s: string)
    ensures |s| >= 1
    ensures i >= 0 <==> s[0] != '-'
  {
    if i >= 0 then NatToString(i) else "-" + NatToString(-i)
  }

  /** Reading back the decimal text of a number gives the number. */
  lemma {:induction false} NatToStringRoundTrip(n: nat)
    ensures DigitsValue(NatToString(n)) == n
  {
    var s := NatToString(n);
    if n >= 10 {
      NatToStringRoundTrip(n / 10);
      assert s[..|s| - 1] == NatToString(n / 10);
    }
  }

  /** The decimal text of a number determines the number. */
  lemma NatToStringInjective(a: nat, b: nat)
    requires NatToString(a) == NatToString(b)
    ensures a == b
  {
    NatToStringRoundTrip(a);
    NatToStringRoundTrip(b);
  }

  function Pow10(n: nat): (p: nat)
    ensures p >= 1
  {
    if n == 0 then 1 else 10 * Pow10(n - 1)
  }

  /** A run of `n` digits is worth less than `10^n`. */
  lemma {:induction false} DigitsValueBound(s: string)
    requires AllDigits(s)
    ensures DigitsValue(s) < Pow10(|s|)
  {
    if |s| > 0 {
      DigitsValueBound(s[..|s| - 1]);
    }
  }

  /** Reading a digit run from the front: the first digit is worth `10^(n-1)`. */
  lemma {:induction false} DigitsValueFront(s: string)
    requires AllDigits(s) && |s| >= 1
    ensures DigitsValue(s) == DigitOf(s[0]) * Pow10(|s| - 1) + DigitsValue(s[1..])
  {
    var n := |s|;
    if n == 1 {
      assert s[..0] == [] && s[1..] == [];
    } else {
      var init := s[..n - 1];
      DigitsValueFront(init);
      assert init[1..] == s[1..][..n - 2];
      assert s[1..][n - 2] == s[n - 1];
      var d0, p, x := DigitOf(s[0]), Pow10(n - 2), DigitsValue(init[1..]);
      calc {
        DigitsValue(s);
        (d0 * p + x) * 10 + DigitOf(s[n - 1]);
        { assert (d0 * p) * 10 == d0 * (p * 10); }
        d0 * Pow10(n - 1) + (x * 10 + DigitOf(s[n - 1]));
        d0 * Pow10(n - 1) + DigitsValue(s[1..]);
      }
    }
  }

  lemma LeadingTermDominates(da: nat, db: nat, p: nat, ra: nat, rb: nat)
    requires da < db && ra < p
    ensures da * p + ra < db * p + rb
  {
    assert (da + 1) * p == da * p + p;
    assert (da + 1) * p <= db * p by {
      var k := db - (da + 1);
      assert db * p == (da + 1) * p + k * p;
    }
  }

  /** Of two digit runs of one length, the one with the smaller first digit is worth
      less. */
  lemma FirstDigitDecides(a: string, b: string)
    requires AllDigits(a) && AllDigits(b) && |a| == |b| >= 1
    requires DigitOf(a[0]) < DigitOf(b[0])
    ensures DigitsValue(a) < DigitsValue(b)
  {
    DigitsValueFront(a);
    DigitsValueFront(b);
    DigitsValueBound(a[1..]);
    LeadingTermDominates(DigitOf(a[0]), DigitOf(b[0]), Pow10(|a| - 1),
      DigitsValue(a[1..]), DigitsValue(b[1..]));
  }

  /** For two digit runs of the same length, comparing them as strings is comparing
      their values. */
  lemma {:induction false} DigitsLexOrder(a: string, b: string)
    requires AllDigits(a) && AllDigits(b) && |a| == |b|
    ensures LexLe(a, b) <==> DigitsValue(a) <= DigitsValue(b)
  {
    if |a| > 0 {
      if a[0] < b[0] {
        FirstDigitDecides(a, b);
      } else if b[0] < a[0] {
        FirstDigitDecides(b, a);
      } else {
        DigitsLexOrder(a[1..], b[1..]);
        DigitsValueFront(a);
        DigitsValueFront(b);
      }
    }
  }

  /** Two digit runs of the same length and value are the same text. */
  lemma DigitsValueInjective(a: string, b: string)
    requires AllDigits(a) && AllDigits(b) && |a| == |b|
    requires DigitsValue(a) == DigitsValue(b)
    ensures a == b
  {
    DigitsLexOrder(a, b);
    DigitsLexOrder(b, a);
    LexLeAntisymmetric(a, b);
  }

  /** A number below `10^k` has at most `k` decimal digits. */
  lemma {:induction false} NatToStringLength(n: nat, k: nat)
    requires k >= 1 && n < Pow10(k)
    ensures |NatToString(n)| <= k
  {
    if n >= 10 {
      NatToStringLength(n / 10, k - 1);
    }
  }

  /** `String(n).padStart(width, "0")`: exactly `width` digits, worth `n`. */
  lemma {:induction false} ZeroPadded(s: string, width: nat)
    requires AllDigits(s)
    ensures var r := PadStart(s, width, '0');
      AllDigits(r) && DigitsValue(r) == DigitsValue(s)
    decreases width - |s|
  {
    if |s| < width {
      var z := ['0'] + s;
      assert AllDigits(z);
      DigitsValueFront(z);
      assert z[1..] == s;
      assert PadStart(s, width, '0') == PadStart(z, width, '0');
      ZeroPadded(z, width);
    }
  }

  /** `s.padStart(width, c)`. */
  function PadStart(s: string, width: nat, c: char): (r: string)
    ensures |s| >= width ==> r == s
    ensures |s| < width ==> |r| == width && r[width - |s|..] == s
    ensures forall i :: 0 <= i < |r| - |s| ==> r[i] == c
    decreases width - |s|
  {
    if |s| >= width then s else PadStart([c] + s, width, c)
  }

  predicate StartsWith(s: string, prefix: string)
  {
    |prefix| <= |s| && s[..|prefix|] == prefix
  }

  /** JavaScript's `a <= b` on two strings: lexicographic order of the code units. */
  predicate LexLe(a: string, b: string)
  {
    |a| == 0 || (|b| > 0 && (a[0] < b[0] || (a[0] == b[0] && LexLe(a[1..], b[1..]))))
  }

  /** JavaScript's `a < b` on two strings. */
  predicate LexLt(a: string, b: string)
  {
    LexLe(a, b) && a != b
  }

  lemma {:induction false} LexLeReflexive(a: string)
    ensures LexLe(a, a)
  {
    if |a| > 0 {
      LexLeReflexive(a[1..]);
    }
  }

  lemma {:induction false} LexLeTotal(a: string, b: string)
    ensures LexLe(a, b) || LexLe(b, a)
  {
    if |a| > 0 && |b| > 0 && a[0] == b[0] {
      LexLeTotal(a[1..], b[1..]);
    }
  }

  lemma {:induction false} LexLeAntisymmetric(a: string, b: string)
    requires LexLe(a, b) && LexLe(b, a)
    ensures a == b
  {
    if |a| > 0 && |b| > 0 {
      LexLeAntisymmetric(a[1..], b[1..]);
      assert a == [a[0]] + a[1..];
      assert b == [b[0]] + b[1..];
    }
  }

  lemma {:induction false} LexLeTransitive(a: string, b: string, c: string)
    requires LexLe(a, b) && LexLe(b, c)
    ensures LexLe(a, c)
  {
    if |a| > 0 && |b| > 0 && |c| > 0 && a[0] == b[0] && b[0] == c[0] {
      LexLeTransitive(a[1..], b[1..], c[1..]);
    }
  }

  /** Comparing `a + x` with `b + y` for `a`, `b` of one length compares `a` with `b`
      first, and `x` with `y` only when they are equal. */
  lemma {:induction false} LexConcat(a: string, b: string, x: string, y: string)
    requires |a| == |b|
    ensures LexLe(a + x, b + y) <==> LexLt(a, b) || (a == b && LexLe(x, y))
  {
    if |a| > 0 {
      LexConcat(a[1..], b[1..], x, y);
      assert (a + x)[1..] == a[1..] + x;
      assert (b + y)[1..] == b[1..] + y;
      assert a == [a[0]] + a[1..];
      assert b == [b[0]] + b[1..];
    } else {
      assert a + x == x && b + y == y;
      LexLeReflexive(a);
    }
  }

  /** The characters `String.prototype.trim` removes: the white-space and
      line-terminator code points of ECMAScript. */
  predicate IsJsSpace(c: char)
  {
    c in {'\t', '\n', '\U{000B}', '\U{000C}', '\r', ' ', '\U{00A0}', '\U{1680}',
          '\U{2000}', '\U{2001}', '\U{2002}', '\U{2003}', '\U{2004}', '\U{2005}',
          '\U{2006}', '\U{2007}', '\U{2008}', '\U{2009}', '\U{200A}', '\U{2028}',
          '\U{2029}', '\U{202F}', '\U{205F}', '\U{3000}', '\U{FEFF}'}
  }

  function TrimStart(s: string): (r: string)
    ensures |r| <= |s| && r == s[|s| - |r|..]
    ensures |r| > 0 ==> !IsJsSpace(r[0])
    ensures forall i :: 0 <= i < |s| - |r| ==> IsJsSpace(s[i])
  {
    if |s| > 0 && IsJsSpace(s[0]) then
      var r := TrimStart(s[1..]);
      assert s[1..][|s| - 1 - |r|..] == s[|s| - |r|..];
      assert forall i :: 1 <= i < |s| - |r| ==> s[i] == s[1..][i - 1];
      r
    else s
  }

  function TrimEnd(s: string): (r: string)
    ensures |r| <= |s| && r == s[..|r|]
    ensures |r| > 0 ==> !IsJsSpace(r[|r| - 1])
    ensures forall i :: |r| <= i < |s| ==> IsJsSpace(s[i])
  {
    if |s| > 0 && IsJsSpace(s[|s| - 1]) then
      var r := TrimEnd(s[..|s| - 1]);
      assert s[..|s| - 1][..|r|] == s[..|r|];
      r
    else s
  }

  /** `s.trim()`. */
  function Trim(s: string): string
  {
    TrimEnd(TrimStart(s))
  }

  /** `s.trim()` is empty exactly when `s` is made only of white space. */
  lemma TrimEmpty(s: string)
    ensures Trim(s) == "" <==> forall i :: 0 <= i < |s| ==> IsJsSpace(s[i])
  {
    var t := TrimStart(s);
    if Trim(s) == "" {
      assert |t| == 0;
    }
  }

  /** The trimmed text neither starts nor ends with white space, and trimming it again
      changes nothing. */
  lemma TrimIdempotent(s: string)
    ensures var r := Trim(s); |r| > 0 ==> !IsJsSpace(r[0]) && !IsJsSpace(r[|r| - 1])
    ensures Trim(Trim(s)) == Trim(s)
  {
  }
}

=== FILE: wrappers.dfy ===
/** The optional value used wherever the calendar code reads a field that may be
    missing (`event.time`, `over` in a drag end, a `find` that finds nothing). */
module Wrappers {

  datatype Option<+T> = None | Some(value: T) {

    /** The value, or `default` when there is none. */
    function GetOr(default: T): T
    {
      match this
      case Some(v) => v
      case None => default
    }
  }
}
